=== FILE: README.md ===
# Paylio banking core in Dafny

Paylio is a small Django banking site. Users hold an account with a balance
and a four-digit transaction PIN. They can:

- move money to other accounts (transfers, confirmed with the PIN);
- ask other users for money (payment requests, sent and settled with the PIN);
- fund their account (deposits, approved by an administrator);
- take money out (withdrawals);
- keep saved cards and saved beneficiaries;
- receive in-app notifications.

Administrators can freeze an account. A frozen user is kept on the dashboard
by a middleware.

This project models that core and proves properties of it:

- the views of `core/` and `account/views.py`;
- the `pre_save` reactions that refund failed transfers and credit completed
  deposits;
- the validators;
- the display properties of the models.

## How the model is built

- **The database is one object.** `Store.Bank` has one field per table:
  - `accounts` is a map keyed by account number;
  - the other tables are sequences in primary-key order.
- **Views that write are methods.** Each view that changes the database is a
  method on a `Bank`. Its `modifies` clause names exactly the tables the view
  writes. Its `ensures` clauses give the exact condition of every outcome
  (this outcome happens when and only when these conditions hold), either
  directly or, for the one outcome left, as the case where no other
  outcome's condition holds. They also state the whole new contents of
  those tables.
- **Rows are values.** A view that loads a row holds a snapshot of it, and
  `save()` writes the whole snapshot back. That is how Django behaves, so the
  model reproduces what the views do when two snapshots are the same row.
  For example, a transfer to one's own account number ends up crediting that
  account.
- **Pure logic is functions.** Validators, model properties, filtering,
  sorting and pagination are functions, specified by their meaning. Lemmas
  relate them.
- **Numbers, time and random ids:**
  - Amounts are integer cents.
  - Times are integer seconds.
  - A generated transaction id is the kind's prefix followed by a suffix that
    the caller supplies. The caller must supply a suffix that is not in use.
  - Notification nids come from a counter of notifications created.
- **The views are modelled as written.** These behaviours are proved as
  lemmas, not corrected:
  - authorising a transfer has no status guard, so authorising it twice
    debits the sender twice;
  - settling a payment request has no status guard either, so settling it
    twice moves the amount twice;
  - the refund reaction fires on every edge into `failed`.

## Model

| member | source | states |
|---|---|---|
| AccountViews.CheckPinChange | account/views.py:210-218 | The current PIN is checked first, then the match of the new PIN and its confirmation, then the four-digit format. Each outcome holds exactly when its condition holds and every earlier check passed; absent new and confirm PINs reach the format check and crash. |
| AccountViews.ChangePin | account/views.py:192-226 | Without an account or a KYC record nothing changes. On a POST the outcome is that of the checks. Only a passing change writes, and then only the account's `pin_number` changes, to a PIN the PIN validator accepts; the counters and the balance are kept. |
| AccountViews.TotalSent | account/views.py:158 | The sum of the user's completed outgoing transfers is 0 when there are none, and non-negative when amounts are. |
| AccountViews.TotalReceived | account/views.py:159 | The sum of completed transfers the user receives is 0 when there are none, and non-negative when amounts are. |
| AccountViews.TotalsSplit | account/views.py:158-159 | Both totals add up over any split of the transfer table. |
| AccountViews.UncompletedNotCounted | account/views.py:158-159 | A transfer that is not completed, such as a newly created one, changes neither total. |
| AccountViews.CompletingCounts | account/views.py:158-159 | Completing one transfer raises its sender's total, and its internal receiver's total, by exactly its amount. |
| AccountViews.Dashboard | account/views.py:115-186 | No KYC record sends the user to the KYC form. No account is an error. An unconfirmed KYC or a "pending" account sends the user to the waiting page. Otherwise the page shows both totals, and the account is shown frozen exactly when some active freeze record names it, with the label of the first active record's reason when it is frozen and an empty reason when it is not. |
| AccountViews.SubmitKyc | account/views.py:45-105 | A valid POSTed form records the KYC and sets the account to "pending" and `kyc_submitted`. Every other path changes nothing. |
| AccountViews.SubmissionAwaitsReview | account/views.py:71-73 | After a KYC submission the dashboard shows the waiting page, whether or not the KYC was confirmed before. |
| Beneficiaries.SoftDeleted | core/beneficiary_views.py:16-18 | Deleting a beneficiary makes only that row inactive; every other row is unchanged. |
| Beneficiaries.SoftDeleteHides | core/beneficiary_views.py:27-30 | A deleted beneficiary is still owned but no longer offered for quick transfer. Deleting never creates a duplicate beneficiary. |
| Beneficiaries.DeleteBeneficiary | core/beneficiary_views.py:13-23 | Only the user's own beneficiary is soft-deleted. Otherwise "not found" and nothing changes. |
| Beneficiaries.TransferToBeneficiary | core/beneficiary_views.py:27-41 | Only the user's own active beneficiary gets `last_used` set, and the transfer starts at its account number. Otherwise nothing changes. No duplicates are created. |
| Cards.CardIdFor | core/models.py:175 | A card id is "CARD" followed by the generated digits. |
| Cards.FindOwnedCard | core/credit_card.py:107 | The index found holds a card with that id belonging to the user. "Not found" means no such card exists. |
| Cards.OwnedActive | core/credit_card.py:15 | The cards kept are exactly the user's cards whose status is active. |
| Cards.ActiveCards | core/credit_card.py:15 | The listed cards are exactly the user's active cards, newest first. |
| Cards.AllCards | core/credit_card.py:11-21 | A user without an account gets "not found". Any other user gets exactly their active cards, newest first. |
| Cards.ParseExpiryFields | core/credit_card.py:64-71 | The expiry is accepted exactly when both fields parse as integers and the month is 1 to 12. The values returned are the parsed ones. |
| Cards.DisplayedExpiryAccepted | core/models.py:208-210 | A card's displayed month and year are accepted back by the expiry check as the same month and year. |
| Cards.Stripped | core/credit_card.py:43-56 | Every field is the strip of the posted field. The card type is the stripped posted type, or "master" when none was posted. |
| Cards.StrippedIdempotent | core/credit_card.py:43-56 | Stripping a stripped form changes nothing. |
| Cards.SaveNewCard | core/credit_card.py:74-94 | Exactly one card, built from the form, is appended, and exactly one "Added Credit Card" notification is created. |
| Cards.CheckCardForm | core/credit_card.py:37-71 | Only a POST is served. A missing required field is refused before the expiry is looked at. Acceptance carries the stripped form and the parsed expiry. |
| Cards.AddCard | core/credit_card.py:37-101 | When the checks pass, exactly one card and one notification are created. Otherwise the cards, notifications and counter are unchanged. |
| Cards.Unlinked | core/models.py:72 | Deleting a card clears the card link of exactly the deposits linked to it. |
| Cards.DeleteCard | core/credit_card.py:104-126 | Only the user's own card is found. A GET changes nothing. A POST removes that one card, unlinks its deposits and creates one "Deleted Credit Card" notification. |
| Deposits.FindOwnedDeposit | core/deposit.py:57 | The index found is a deposit with that id belonging to the user. "Not found" means no such deposit exists. |
| Deposits.InitiateDeposit | core/deposit.py:26-52 | No account, an unconfirmed KYC and a frozen account are refused, in that order. Otherwise the cards offered are exactly the user's active cards. |
| Deposits.ConfirmDeposit | core/deposit.py:54-70 | Only the user's own pending deposit goes on to processing, and only on a POST. |
| Deposits.ProcessDeposit | core/deposit.py:72-137 | Balances never change. A missing or non-pending deposit changes nothing. A pending one is failed when the account is missing or the notification fails. Otherwise it becomes `processing` with exactly one "Deposit Request" notification. |
| Deposits.PendingDeposit | core/deposit.py:185-191 | A new deposit is pending, so inserting it credits nothing. |
| Deposits.BankTransferDeposit | core/deposit.py:162-205 | Each refusal holds exactly when its condition holds. A deposit is created exactly when a confirmed user posts a positive amount and a reference. It is one pending deposit, and balances and notifications are unchanged. |
| Deposits.DepositWithSavedCard | core/deposit.py:284-339 | The account is looked up first, then the user's own card. A GET shows the form; a missing or non-positive amount is refused. A deposit is created exactly when the KYC is confirmed, the account is not frozen and the posted amount is positive. It is pending and linked to the card, and balances are unchanged. |
| Deposits.CardDeposit | core/deposit.py:207-281 | Each refusal holds exactly when its condition holds. Success adds one card, stored as posted, with the parsed expiry, and one "Added Credit Card" notification. |
| Deposits.LinkedCard | core/models.py:72 | A deposit without a card link has no card. A card found is in the table and is the linked one. |
| Deposits.DeletedCardUnlinksDeposits | core/models.py:80-83 | After its card is deleted, a deposit describes itself as a plain "Deposit". Deposits linked to other cards are untouched. |
| Freeze.IsAccountFrozen | core/utils.py:10-28 | No account is never frozen. An account is frozen exactly when an active freeze record names it, and the record returned is the first such one. |
| Freeze.FreezeReasonDisplay | core/utils.py:31-52 | No record gives "". A known reason gives its label, and any other reason gives "Account Frozen". |
| Freeze.ReasonLabelsDistinct | core/utils.py:44-52 | Different known reasons have different labels, and none of them is the default label. |
| Middleware.FreezeGate | core/middleware.py:19-46 | Anonymous users, users without an account and users who are not frozen always pass. A frozen user is redirected exactly on paths that are not allowed. |
| Middleware.NoRedirectLoop | core/middleware.py:30-44 | A frozen user is let through to the dashboard the redirect leads to, and to any sign-out path. |
| Models.ParseStatus | core/models.py:32-41 | A status read from a code has that code. |
| Models.StatusRoundTrip | core/models.py:32-41 | Every status is read back from its own code (`StatusCode`), so no two statuses share a code. |
| Models.MakeTransactionId | core/models.py:66 | A transaction id is a three-character prefix followed by the random part unchanged. |
| Models.KindsAreDistinguished | core/models.py:65-170 | An id's prefix identifies its kind (`KindOfId`). Different kinds have different prefixes (`Prefix`) and transaction types (`TransactionType`), and every kind defaults to pending (`DefaultStatus`). |
| Models.WholeUnits | core/models.py:220 | The stored notification amount is the decimal amount truncated toward zero. |
| Models.NidFor | core/models.py:223 | Every nid is ten characters from the nid alphabet. |
| Models.DigitsOf | core/models.py:197-200 | The digits kept are exactly the digit characters of the number. |
| Models.LastFour | core/models.py:197-200 | The result is the last four digits, or all of them when there are fewer. |
| Models.MaskedNumber | core/models.py:203-205 | The masked number is the fixed mask followed by the last four digits. |
| Models.Pad2 | core/models.py:208-210 | `%02d`: a number 0 to 9 becomes "0" and its digit; a larger one its plain decimal digits; a negative one "-" and the digits of its magnitude. The text is at least two characters and never holds a slash. |
| Models.ExpiryDisplay | core/models.py:208-210 | The display is the padded month, then the only slash, then the padded year. |
| Models.PadRoundTrip | core/models.py:208-210 | Reading a padded number as an integer gives the number back. |
| Models.ExpiryRoundTrip | core/models.py:208-210 | Splitting an expiry display at its slash gives back its month and year. |
| Models.DepositDescription | core/models.py:80-83 | A deposit without a card reads "Deposit". One with a card reads "Card Deposit (****" followed by the card's last four digits and ")". |
| Notifications.Unread | core/notification_views.py:50-53 | The result holds exactly the user's unread notifications. |
| Notifications.UnreadCount | core/notification_views.py:11 | The count is the number of the user's unread notifications, and it is zero exactly when there are none. |
| Notifications.FindNotification | core/notification_views.py:24 | A match has that nid and belongs to the user. "Missing" means no notification has both. |
| Notifications.MarkRead | core/notification_views.py:20-34 | Exactly the matched notification becomes read. When nothing matches, or several do, nothing changes. |
| Notifications.AllRead | core/notification_views.py:40 | Exactly the user's unread notifications become read. |
| Notifications.AllReadClears | core/notification_views.py:40 | After marking all read the user has no unread notification, and other users' notifications are untouched. |
| Notifications.MarkAllRead | core/notification_views.py:37-44 | The loop leaves the table equal to the all-read table. |
| Notifications.UnreadSummary | core/notification_views.py:47-66 | The count is the user's unread count. At most five unread notifications are listed, newest first. |
| Notifications.SummaryShowsUnread | core/notification_views.py:50-53 | Every listed notification is one of the user's unread notifications. |
| Notifications.DeleteNotification | core/notification_views.py:69-82 | Exactly the matched notification is removed. When nothing matches, or several do, nothing changes. |
| Notifications.UnreadCountSplit | core/notification_views.py:64 | The unread count adds up over any split of the table. |
| Notifications.DeleteCount | core/notification_views.py:73-74 | Deleting a notification lowers the user's unread count by one exactly when it was theirs and unread. |
| PaymentRequests.CreateRequest | core/payment_request.py:40-71 | Each error holds exactly when its lookup or field fails. A POST with an amount appends exactly one `processing` request from the user's account to the URL account's owner. Nothing else changes. |
| PaymentRequests.SendRequest | core/payment_request.py:90-126 | With the right PIN the request becomes `request_sent`, and the URL account's owner and then the user are notified. A wrong PIN, or a request that is not a POST, changes nothing. |
| PaymentRequests.SettlementConserves | core/payment_request.py:172-178 | Between two different accounts the payer loses the amount and the payee gains it, so their sum is kept. Every other account is unchanged. |
| PaymentRequests.SelfSettlementCredits | core/payment_request.py:164-178 | Settling into one's own account leaves it credited by the amount. |
| PaymentRequests.SettlementReplayMovesTwice | core/payment_request.py:163-181 | With no status guard, settling twice moves the amount twice. |
| PaymentRequests.SettleRequest | core/payment_request.py:162-194 | Each outcome holds exactly when its condition holds: missing lookups, not a POST, a wrong PIN, insufficient funds, settled. Settling moves the amount and marks the request `request_settled`. Every other path changes nothing. |
| PaymentRequests.DeleteRequest | core/payment_request.py:213-221 | The request is removed exactly when the current user created it. Otherwise nothing changes. |
| Signals.RefundDecision | core/signals.py:12-50 | The sender is refunded exactly on an edge from an existing non-failed status into `failed`. An internal receiver is debited only when the old status was `completed`. |
| Signals.NoRefundWithoutEdge | core/signals.py:12-16 | A new transfer, or one already failed, causes no balance change and no notification. |
| Signals.RefundAmounts | core/signals.py:16-60 | On the edge the sender gets exactly the amount back, with one "Credit Alert". A receiver credited on completion loses exactly the amount, with one "Debit Alert". No other account changes. |
| Signals.SaveTransfer | core/signals.py:7-63 | Saving a transfer applies the reaction to the accounts and notifications and then writes the row. |
| Signals.InsertTransfer | core/signals.py:12 | Inserting a new transfer only appends the row. |
| Signals.NeverFailedNeverRefunded | core/signals.py:16-21 | A transfer whose history never reaches `failed` is never refunded. |
| Signals.RefundedOnce | core/signals.py:16-21 | A transfer that reaches `failed` and is then saved failed any number of times is refunded exactly once. |
| Signals.CreditDecision | core/signals.py:70-98 | A deposit is credited exactly when it is saved as `completed` and its stored status was not `completed`; a newly created row has no stored status. |
| Signals.CreditAmount | core/signals.py:74-107 | A credit adds exactly the amount to the deposit's account, with exactly one alert. No other account changes. |
| Signals.SaveDeposit | core/signals.py:65-94 | Saving a deposit applies the credit reaction and then writes the row. |
| Signals.InsertDeposit | core/signals.py:95-107 | Inserting a deposit created `completed` credits it, and one created with any other status credits nothing. |
| Signals.CreditedOnce | core/signals.py:74-77 | A deposit that never reaches `completed` is never credited. One that reaches it and is then saved any number of times is credited exactly once. |
| Signals.FreezeMailKind | core/signals.py:127-147 | A freeze created active sends the freeze mail. An existing freeze saved inactive sends the restore mail. Nothing else sends mail. |
| Store.Notify | core/models.py:217-231 | Creating a notification appends one unread row with the truncated amount and the next nid. |
| Store.FindTransfer | core/transfer.py:211 | A transfer found has that id. "Not found" means none has it. |
| Store.FindDeposit | core/transaction.py:102 | A deposit found has that id. "Not found" means none has it. |
| Store.FindWithdrawal | core/transaction.py:105 | A withdrawal found has that id. "Not found" means none has it. |
| Store.FindRequest | core/payment_request.py:93 | A request found has that id. "Not found" means none has it. |
| Text.DigitValue | core/validators.py:35-36 | A digit's value is below ten. |
| Text.Strip | core/validators.py:75 | `strip()` keeps a slice of the input that neither starts nor ends with whitespace. Everything cut off before and after it is whitespace. |
| Text.StripNoSpace | core/credit_card.py:43-56 | A string without whitespace is its own strip. |
| Text.StripTrimmed | core/validators.py:75 | A string that neither starts nor ends with whitespace is its own strip. |
| Text.StripTwice | core/credit_card.py:43-56 | Stripping twice is the same as stripping once. |
| Text.RemoveAll | core/validators.py:25 | Removing a character leaves no occurrence of it and keeps every other character. |
| Text.DecimalRoundTrip | core/validators.py:35-36 | The digits written for a natural number denote that number. |
| Text.ParseInt | core/credit_card.py:65-66 | A parse succeeds exactly when the stripped text is digits, optionally after one sign. The result is the digits' value, negated after a minus sign. |
| Text.IntRoundTrip | core/deposit.py:241-242 | Parsing the text of any integer gives the integer back. |
| Transactions.SenderOf | core/models.py:76-142 | A deposit has no sender. A transfer's or a withdrawal's sender is its user, and a request's sender is its own field. |
| Transactions.UserTransfers | core/transaction.py:15 | The entries are exactly the transfers the user sent or receives. |
| Transactions.UserDeposits | core/transaction.py:16 | The entries are exactly the user's deposits. |
| Transactions.UserWithdrawals | core/transaction.py:17 | The entries are exactly the user's withdrawals. |
| Transactions.UserRequests | core/transaction.py:18 | The entries are exactly the payment requests the user sends or receives. |
| Transactions.VisibleNotSent | core/transaction.py:15-18 | An entry the user sees but did not send is their deposit, or a transfer or request they receive. It is never a withdrawal. |
| Transactions.Selected | core/transaction.py:43-56 | The entries are exactly the visible ones of the selected kind. |
| Transactions.Insert | core/transaction.py:59 | Insertion adds the one entry and keeps all others, counting duplicates. |
| Transactions.InsertMembers | core/transaction.py:59 | After insertion the list holds the new entry and the old ones, and nothing else. |
| Transactions.InsertNewestFirst | core/transaction.py:59 | Inserting into a newest-first list keeps it newest first. |
| Transactions.SortNewestFirst | core/transaction.py:59 | The sorted list is newest first and a permutation of the input. |
| Transactions.Keep | core/transaction.py:62-73 | A filter keeps exactly the entries that pass it. |
| Transactions.KeepNewestFirst | core/transaction.py:62-73 | Filtering never disturbs newest-first order. |
| Transactions.Matching | core/transaction.py:15-73 | The filtered list is newest first and holds exactly the visible entries that pass the type, status and date filters. |
| Transactions.PageCount | core/transaction.py:76-78 | There is always at least one page. The pages hold the list, and the last page is not empty unless the list is. |
| Transactions.PageSlice | core/transaction.py:76-78 | A page is the stretch of the list at its offset. It holds twenty entries unless it reaches the end. |
| Transactions.PageNumber | core/transaction.py:76-78 | The page number is always in range. Text that is not an integer gives page 1, and an out-of-range number gives the last page. |
| Transactions.GetPage | core/transaction.py:76-78 | The page holds entries (number - 1) * 20 onward. Every page but the last is full, and the last reaches the end of the list. |
| Transactions.EntryOnPage | core/transaction.py:76-78 | Entry 20q + r is entry r of page q + 1. |
| Transactions.EveryEntryHasAPage | core/transaction.py:76-78 | Every entry can be reached, at the page and place its position gives. |
| Transactions.PageOfList | core/transaction.py:76-78 | A page's entries come from the list and keep its newest-first order. |
| Transactions.TransactionList | core/transaction.py:9-90 | The page shown holds at most twenty entries, newest first. Each entry is visible to the user and passes every filter. The page count covers every matching entry. |
| Transactions.EveryMatchIsListed | core/transaction.py:73-78 | Every entry that passes the filters is shown, on the page and at the place its position in the filtered list gives. |
| Transactions.Detail | core/transaction.py:93-117 | The tables are searched as transfers, then deposits, then withdrawals, then requests, and the row found has the id asked for. "Not found" means no table has it. |
| Transfers.CreateTransfer | core/transfer.py:96-172 | Each outcome holds exactly when its condition holds: receiver without KYC, no account, a GET, sender frozen, receiver frozen, insufficient funds, and success. Success appends one `processing` transfer, internal or external depending on whether the number names an account. A beneficiary is saved only when asked for and not already present, so no duplicate is ever created. No balance changes. |
| Transfers.PinGate | core/transfer.py:223-331 | While locked, nothing changes. The right PIN clears the counters. A wrong PIN adds one failure, and from the fifth failure on locks the account for 30 minutes. |
| Transfers.FiveStrikes | core/transfer.py:322-331 | From clear counters, four wrong PINs leave the account unlocked with one attempt left. The fifth locks it, and while locked even the right PIN is refused. |
| Transfers.LockoutExpires | core/transfer.py:223-232 | Once a lockout has expired, the counter starts again from zero. |
| Transfers.SettlementConserves | core/transfer.py:267-273 | Between two accounts the sender loses the amount and the receiver gains it, and every other account is unchanged. When the number names no account, only the sender is debited. |
| Transfers.SelfTransferCredits | core/transfer.py:267-273 | A transfer to one's own account number leaves that account credited by the amount. |
| Transfers.ReplayDebitsTwice | core/transfer.py:240-268 | With no status guard, authorising the same transfer twice debits the sender twice. |
| Transfers.RefundUndoesSettlement | core/signals.py:16-53 | Failing a completed internal transfer gives both balances back. |
| Transfers.Settle | core/transfer.py:240-287 | The correct-PIN branch writes the debited sender row and then the credited receiver row. The transfer becomes pending if external, completed if internal, and exactly its alerts are created. |
| Transfers.RecordWrongPin | core/transfer.py:322-331 | Only the sender's row changes, to one more failure, with a lockout from the fifth failure. The user is told how many attempts remain. |
| Transfers.CheckPinAndSettle | core/transfer.py:223-331 | While locked, nothing changes. A GET applies only the lockout reset. A wrong PIN counts a failure. The right PIN settles. Only settling touches transfers and notifications. |
| Transfers.AuthoriseTransfer | core/transfer.py:201-335 | A missing transfer or sender account changes nothing. Otherwise the outcomes are those of the lockout and PIN checks, and settling moves the amount from the user's account to the URL account. |
| Validators.ValidateAmount | core/validators.py:5-20 | An amount is accepted exactly when it has at most two decimal places and lies between 1.00 and 100000.00. A value of zero or less is always reported as not positive. |
| Validators.DigitValues | core/validators.py:35-36 | Each character becomes its digit value. |
| Validators.Doubled | core/validators.py:40-42 | A doubled digit contributes the sum of its digits, which is below ten. |
| Validators.LuhnChecksum | core/validators.py:34-43 | The loop computes the Luhn sum of the digits modulo 10. |
| Validators.LuhnSumReplace | core/validators.py:34-43 | Changing one digit changes the Luhn sum by exactly the change in that digit's term. |
| Validators.DoubledInjective | core/validators.py:40-42 | Different digits contribute different doubled terms. |
| Validators.SingleDigitErrorDetected | core/validators.py:45-46 | A number that passes fails once any single digit is changed. |
| Validators.CheckDigit | core/validators.py:45-46 | Every payload has a digit that, appended, makes it pass. |
| Validators.CleanCardNumber | core/validators.py:25 | Cleaning removes spaces and hyphens and keeps every other character. |
| Validators.ValidateCardNumber | core/validators.py:23-48 | A number is accepted, as the cleaned number, exactly when it is digits only, 13 to 19 long and passes the Luhn check. The error reported is the first check that fails. |
| Validators.ValidateCvv | core/validators.py:51-66 | A CVV is accepted exactly when it is all digits: four for amex, three for any other card type. |
| Validators.ValidatePin | core/validators.py:89-99 | A PIN is accepted exactly when it is four digits. |
| Validators.RemoveChars | core/validators.py:78-80 | The listed characters are gone and every other character is kept. |
| Validators.PrefixSlice | core/validators.py:83-84 | The slice is a prefix of the length Python gives, with negative limits counting from the end. |
| Validators.Truncate | core/validators.py:83-84 | A limit of zero or none leaves the text unchanged. A positive limit bounds the length, and the result is always a prefix. |
| Validators.Sanitized | core/validators.py:69-86 | Empty input stays empty. The result contains no dangerous character, only characters of the input, and respects a positive limit. Without a limit it keeps every other character of the stripped input. |
| Validators.SanitizeInput | core/validators.py:69-86 | The loop computes exactly the sanitized value. |
| Withdrawals.FindOwnedWithdrawal | core/withdrawal.py:88 | The withdrawal found has that id and belongs to the user. "Not found" means none has both. |
| Withdrawals.InitiateWithdrawal | core/withdrawal.py:13-82 | No account, unconfirmed KYC, an account that is not active and a frozen account are refused, in that order. Otherwise a GET shows the form. On a POST, missing fields, an amount of zero or less and insufficient funds are refused. Success appends one pending withdrawal and one "Debit Alert". No balance changes. |
| Withdrawals.RequestWithdrawal | core/withdrawal.py:39-67 | The POST checks hold exactly when their conditions hold. Success creates exactly one pending withdrawal and one alert; every other path changes nothing. |
| Withdrawals.ConfirmWithdrawal | core/withdrawal.py:85-101 | Only the user's own pending withdrawal goes on to processing, and only on a POST. |
| Withdrawals.PayOut | core/withdrawal.py:116-164 | A missing or wrong PIN changes nothing. With the right PIN, an amount above the balance fails the withdrawal. Otherwise the account is debited, leaving a non-negative balance, and the withdrawal completes with one alert. |
| Withdrawals.ProcessWithdrawal | core/withdrawal.py:104-166 | Only the user's own pending withdrawal is acted on, and only on a POST with an account. The outcome is then that of the PIN and balance checks. |
| Wrappers.GetUnique | core/notification_views.py:24 | `.get()` finds exactly one match, reports none when nothing matches, and reports several only when at least two rows match. |

## Left out

- Email: `send_html_email` and every mail sent by the views and reactions. The freeze reaction models only which mail it would send.
- Authentication, `login_required`, flash messages, rendering, redirects, URL routing, the admin and file storage. A view's redirect is modelled as its outcome value.
- Concurrency and `transaction.atomic`. An exception inside process_deposit's atomic block is modelled as failing the deposit, not as a database rollback.
- The free-text search of transaction_list (core/transaction.py:21-40). Its filters over related models are not modelled.
- crypto_deposit and ScheduledPayment. Neither is part of this model.
- Views that only render a page: the confirmation, completed and pending pages of transfers, payment requests, deposits and withdrawals, credit_card_detail, and the account search pages.
- Text handling is restricted:
  - only ASCII digits count as digits;
  - whitespace is the Latin-1 part of `str.isspace`;
  - `int()`'s underscore separators are not accepted.
- Posted amounts arrive as whole cents, or None when the field is absent or empty. Decimal parsing errors of `Decimal(amount)` and the maximum field lengths are not modelled.
- A POST field that is absent and one that is empty are both modelled as "", except where the views tell them apart (PINs and amounts, which are `Option`s).
- The KYC form's validation is a parameter of SubmitKyc.
- The dashboard's card form and recent-transaction lists are not modelled. Only the totals, the KYC gates and the freeze status are.
- Randomness and clocks:
  - ShortUUID transaction and card ids take a caller-supplied suffix that is not already in use;
  - notification nids come from a counter;
  - the current time is an integer parameter.
- Nullable foreign keys are modelled only where the views read them. Deleting users and accounts is not modelled.
- PaymentRequests.SettleRequest: the success message reads the payee's KYC name after the writes. A payee without KYC then raises an error that is not modelled.
- Withdrawals.InitiateWithdrawal: models the creation the view intends. As written, the create call passes `description=`, which is a read-only property of Withdrawal (core/models.py:104-106). Django refuses that with an exception the view does not catch, so no withdrawal or alert would be created. Django's model constructor is not part of this model.
- Withdrawals.RequestWithdrawal: the same intended creation as InitiateWithdrawal.
- Notifications.UnreadSummary: "newest first" is reverse creation order, not the `date` field. Dates set explicitly out of order are not modelled.
- Cards.ActiveCards: the source orders by `-date` (core/credit_card.py:15, core/deposit.py:43). The model lists cards in reverse creation order instead. `date` is set on creation, so the two agree, except that cards created in the same instant have no defined order in the source.
- Transactions.SortNewestFirst: stated as newest first and a permutation. Python's sort is also stable, which the sort respects but no lemma states.
- Store.Notify: the notification `date` and the email side effects are not modelled.

=== FILE: account_views.dfy ===
/**
 * account/views.py: changing the transaction PIN, the dashboard's sent and
 * received totals, and KYC submission's update of the account.
 */
module AccountViews {
  import opened Wrappers
  import opened Models
  import opened Store
  import opened Freeze
  import opened Validators

  datatype PinChange = PinShown | AccountOrKycMissing | WrongCurrent | Mismatch | BadFormat | PinCrash | PinChanged

  /**
   * The checks of pin_settings, in order: the current PIN must be the stored
   * one, the new PIN must equal its confirmation, and it must be four digits.
   * A new PIN and confirmation both absent pass the second check and then
   * make `len(None)` raise.
   */
  function CheckPinChange(stored: string, current: Option<string>, newPin: Option<string>, confirm: Option<string>): (r: PinChange)
    ensures r == WrongCurrent <==> current != Some(stored)
    ensures r == Mismatch <==> current == Some(stored) && newPin != confirm
    ensures r == PinCrash <==> current == Some(stored) && newPin == confirm && newPin.None?
    ensures r == BadFormat <==> current == Some(stored) && newPin == confirm && newPin.Some? && ValidatePin(newPin.value).Err?
    ensures r == PinChanged <==> current == Some(stored) && newPin == confirm && newPin.Some? && ValidatePin(newPin.value).Ok?
  {
    if current != Some(stored) then WrongCurrent
    else if newPin != confirm then Mismatch
    else if newPin.None? then PinCrash
    else if |newPin.value| != 4 || !Text.IsDigitString(newPin.value) then BadFormat
    else PinChanged
  }

  /**
   * pin_settings: the user needs an account and a KYC record; on a POST that
   * passes the checks only the account's PIN changes, to the new one, and the
   * failed-attempt counter and lockout stay as they were.
   */
  method ChangePin(b: Bank, user: UserId, isPost: bool, current: Option<string>, newPin: Option<string>, confirm: Option<string>)
    returns (outcome: PinChange)
    requires b.Valid()
    modifies b`accounts
    ensures b.Valid()
    ensures outcome == AccountOrKycMissing <==> user !in b.accountOf || user !in b.kycNames
    ensures outcome == PinShown <==> user in b.accountOf && user in b.kycNames && !isPost
    ensures user in b.accountOf && user in b.kycNames && isPost ==>
              outcome == CheckPinChange(old(b.accounts)[b.accountOf[user]].pin, current, newPin, confirm)
    ensures outcome == PinChanged ==>
              var no := b.accountOf[user];
              && ValidatePin(newPin.value) == Ok(newPin.value)
              && b.accounts == old(b.accounts)[no := old(b.accounts)[no].(pin := newPin.value)]
    ensures outcome != PinChanged ==> b.accounts == old(b.accounts)
  {
    if user !in b.accountOf || user !in b.kycNames {
      return AccountOrKycMissing;
    }
    var no := b.accountOf[user];
    var account := b.accounts[no];
    if !isPost {
      return PinShown;
    }
    outcome := CheckPinChange(account.pin, current, newPin, confirm);
    if outcome == PinChanged {
      b.accounts := b.accounts[no := account.(pin := newPin.value)];
    }
  }

  /** `total_sent`: the amounts of the user's completed outgoing transfers, 0 when there are none. */
  function TotalSent(ts: seq<TransferRow>, user: UserId): (total: int)
    ensures (forall i :: 0 <= i < |ts| ==> ts[i].amount >= 0) ==> total >= 0
    ensures (forall i :: 0 <= i < |ts| ==> !(ts[i].user == user && ts[i].status == Completed)) ==> total == 0
  {
    if ts == [] then 0
    else (if ts[0].user == user && ts[0].status == Completed then ts[0].amount else 0) + TotalSent(ts[1..], user)
  }

  /** `total_received`: the amounts of the completed transfers the user receives, 0 when there are none. */
  function TotalReceived(ts: seq<TransferRow>, user: UserId): (total: int)
    ensures (forall i :: 0 <= i < |ts| ==> ts[i].amount >= 0) ==> total >= 0
    ensures (forall i :: 0 <= i < |ts| ==> !(ts[i].receiver == Some(user) && ts[i].status == Completed)) ==> total == 0
  {
    if ts == [] then 0
    else (if ts[0].receiver == Some(user) && ts[0].status == Completed then ts[0].amount else 0)
         + TotalReceived(ts[1..], user)
  }

  /** Both totals add up over any split of the table. */
  lemma {:induction false} TotalsSplit(ts: seq<TransferRow>, us: seq<TransferRow>, user: UserId)
    ensures TotalSent(ts + us, user) == TotalSent(ts, user) + TotalSent(us, user)
    ensures TotalReceived(ts + us, user) == TotalReceived(ts, user) + TotalReceived(us, user)
  {
    if ts == [] {
      assert ts + us == us;
    } else {
      assert (ts + us)[0] == ts[0];
      assert (ts + us)[1..] == ts[1..] + us;
      TotalsSplit(ts[1..], us, user);
    }
  }

  /** A transfer that is not completed, such as a new one, adds nothing to either total. */
  lemma UncompletedNotCounted(ts: seq<TransferRow>, t: TransferRow, user: UserId)
    requires t.status != Completed
    ensures TotalSent(ts + [t], user) == TotalSent(ts, user)
    ensures TotalReceived(ts + [t], user) == TotalReceived(ts, user)
  {
    TotalsSplit(ts, [t], user);
  }

  /**
   * When a transfer becomes completed, the sender's total grows by its
   * amount, and so does the receiver's, for an internal transfer.
   */
  lemma {:induction false} CompletingCounts(ts: seq<TransferRow>, i: nat, user: UserId)
    requires i < |ts| && ts[i].status != Completed
    ensures var after := ts[i := ts[i].(status := Completed)];
            && TotalSent(after, user) == TotalSent(ts, user) + (if ts[i].user == user then ts[i].amount else 0)
            && TotalReceived(after, user) == TotalReceived(ts, user) + (if ts[i].receiver == Some(user) then ts[i].amount else 0)
  {
    var after := ts[i := ts[i].(status := Completed)];
    assert ts == ts[..i] + [ts[i]] + ts[i + 1..];
    assert after == ts[..i] + [after[i]] + ts[i + 1..];
    TotalsSplit(ts[..i] + [ts[i]], ts[i + 1..], user);
    TotalsSplit(ts[..i], [ts[i]], user);
    TotalsSplit(ts[..i] + [after[i]], ts[i + 1..], user);
    TotalsSplit(ts[..i], [after[i]], user);
  }

  datatype DashboardView =
    | KycRequired
    | AccountMissing
    | AwaitingReview
    | Overview(totalSent: int, totalReceived: int, frozen: bool, freezeReason: string)

  /**
   * Dashboard for a signed-in user: without a KYC record it sends them to
   * the KYC form; with an unconfirmed KYC or a "pending" account to the
   * waiting page; otherwise it shows the two totals and whether the account
   * is frozen, with the reason's label.
   */
  function Dashboard(accounts: map<AccountNo, AccountRow>, accountOf: map<UserId, AccountNo>, kycNames: map<UserId, string>,
                     ts: seq<TransferRow>, freezes: seq<FreezeRecord>, user: UserId): (v: DashboardView)
    requires user in accountOf ==> accountOf[user] in accounts
    ensures v == KycRequired <==> user !in kycNames
    ensures v == AccountMissing <==> user in kycNames && user !in accountOf
    ensures v == AwaitingReview <==>
              user in kycNames && user in accountOf
              && (!accounts[accountOf[user]].kycConfirmed || accounts[accountOf[user]].status == "pending")
    ensures v.Overview? ==>
              && v.totalSent == TotalSent(ts, user) && v.totalReceived == TotalReceived(ts, user)
              && (v.frozen <==> exists i :: 0 <= i < |freezes| && ActiveFreezeOf(accountOf[user], freezes[i]))
              && (v.frozen ==> v.freezeReason == FreezeReasonDisplay(IsAccountFrozen(freezes, Some(accountOf[user])).1))
              && (!v.frozen ==> v.freezeReason == "")
  {
    if user !in kycNames then KycRequired
    else if user !in accountOf then AccountMissing
    else
      var account := accounts[accountOf[user]];
      if !account.kycConfirmed || account.status == "pending" then AwaitingReview
      else
        var frozen := IsAccountFrozen(freezes, Some(accountOf[user]));
        Overview(TotalSent(ts, user), TotalReceived(ts, user), frozen.0,
                 if frozen.0 then FreezeReasonDisplay(frozen.1) else "")
  }

  datatype KycOutcome = KycNoAccount | KycFormShown | KycInvalid | KycSubmitted

  /**
   * kyc_registration: a valid POSTed form saves the user's KYC record (its
   * validation is a parameter here) and sets the account's status to
   * "pending" and `kyc_submitted`; `kyc_confirmed` is left as it was.
   */
  method SubmitKyc(b: Bank, user: UserId, isPost: bool, formValid: bool, fullName: string)
    returns (outcome: KycOutcome)
    requires b.Valid()
    modifies b`accounts, b`kycNames
    ensures b.Valid()
    ensures outcome == KycNoAccount <==> user !in b.accountOf
    ensures outcome == KycFormShown <==> user in b.accountOf && !isPost
    ensures outcome == KycInvalid <==> user in b.accountOf && isPost && !formValid
    ensures outcome == KycSubmitted ==>
              var no := b.accountOf[user];
              && b.kycNames == old(b.kycNames)[user := fullName]
              && b.accounts == old(b.accounts)[no := old(b.accounts)[no].(status := "pending", kycSubmitted := true)]
    ensures outcome != KycSubmitted ==> b.accounts == old(b.accounts) && b.kycNames == old(b.kycNames)
  {
    if user !in b.accountOf {
      return KycNoAccount;
    }
    var no := b.accountOf[user];
    var account := b.accounts[no];
    if !isPost {
      return KycFormShown;
    }
    if !formValid {
      return KycInvalid;
    }
    b.kycNames := b.kycNames[user := fullName];
    b.accounts := b.accounts[no := account.(status := "pending", kycSubmitted := true)];
    return KycSubmitted;
  }

  /** After a KYC submission the dashboard sends the user to the waiting page, confirmed or not. */
  lemma SubmissionAwaitsReview(accounts: map<AccountNo, AccountRow>, accountOf: map<UserId, AccountNo>, kycNames: map<UserId, string>,
                               ts: seq<TransferRow>, freezes: seq<FreezeRecord>, user: UserId, fullName: string)
    requires user in accountOf && accountOf[user] in accounts
    ensures var no := accountOf[user];
            Dashboard(accounts[no := accounts[no].(status := "pending", kycSubmitted := true)], accountOf,
                      kycNames[user := fullName], ts, freezes, user) == AwaitingReview
  {
  }
}

=== FILE: beneficiaries.dfy ===
/**
 * core/beneficiary_views.py: removing a saved beneficiary and starting a
 * quick transfer to one. A beneficiary's id is its position in the table;
 * rows are never removed, so ids stay valid.
 */
module Beneficiaries {
  import opened Wrappers
  import opened Models
  import opened Store
  import opened Transfers

  /** `Beneficiary.objects.get(id=..., user=...)` succeeds. */
  predicate Owns(bs: seq<Beneficiary>, user: UserId, id: nat) {
    id < |bs| && bs[id].user == user
  }

  /** The quick-transfer lookup also needs the beneficiary to be active. */
  predicate QuickTransferable(bs: seq<Beneficiary>, user: UserId, id: nat) {
    Owns(bs, user, id) && bs[id].active
  }

  /** The table after the beneficiary is made inactive; the row stays. */
  function SoftDeleted(bs: seq<Beneficiary>, id: nat): (r: seq<Beneficiary>)
    requires id < |bs|
    ensures |r| == |bs| && !r[id].active
    ensures r[id] == bs[id].(active := false)
    ensures forall j :: 0 <= j < |bs| && j != id ==> r[j] == bs[j]
  {
    bs[id := bs[id].(active := false)]
  }

  /** A removed beneficiary is no longer offered for quick transfer, and no pair of user and account number is duplicated by it. */
  lemma SoftDeleteHides(bs: seq<Beneficiary>, user: UserId, id: nat)
    requires Owns(bs, user, id)
    ensures !QuickTransferable(SoftDeleted(bs, id), user, id)
    ensures Owns(SoftDeleted(bs, id), user, id)
    ensures NoDuplicateBeneficiaries(bs) ==> NoDuplicateBeneficiaries(SoftDeleted(bs, id))
  {
  }

  datatype Reply = Removed | NotFound | GoTransfer(accountNumber: string)

  /** delete_beneficiary: only the user's own beneficiary is made inactive; otherwise nothing changes. */
  method DeleteBeneficiary(b: Bank, user: UserId, id: nat) returns (reply: Reply)
    modifies b`beneficiaries
    ensures reply == Removed <==> Owns(old(b.beneficiaries), user, id)
    ensures reply == Removed ==> b.beneficiaries == SoftDeleted(old(b.beneficiaries), id)
    ensures reply != Removed ==> reply == NotFound && b.beneficiaries == old(b.beneficiaries)
  {
    if id < |b.beneficiaries| && b.beneficiaries[id].user == user {
      b.beneficiaries := b.beneficiaries[id := b.beneficiaries[id].(active := false)];
      return Removed;
    }
    return NotFound;
  }

  /**
   * transfer_to_beneficiary: the user's own active beneficiary gets
   * `last_used` set to now, and the transfer starts at its stored account
   * number; otherwise nothing changes.
   */
  method TransferToBeneficiary(b: Bank, user: UserId, id: nat, now: int) returns (reply: Reply)
    modifies b`beneficiaries
    ensures reply.GoTransfer? <==> QuickTransferable(old(b.beneficiaries), user, id)
    ensures reply.GoTransfer? ==>
              && reply.accountNumber == old(b.beneficiaries)[id].accountNumber
              && b.beneficiaries == old(b.beneficiaries)[id := old(b.beneficiaries)[id].(lastUsed := Some(now))]
    ensures !reply.GoTransfer? ==> reply == NotFound && b.beneficiaries == old(b.beneficiaries)
    ensures NoDuplicateBeneficiaries(old(b.beneficiaries)) ==> NoDuplicateBeneficiaries(b.beneficiaries)
  {
    if id < |b.beneficiaries| && b.beneficiaries[id].user == user && b.beneficiaries[id].active {
      var target := b.beneficiaries[id];
      b.beneficiaries := b.beneficiaries[id := target.(lastUsed := Some(now))];
      return GoTransfer(target.accountNumber);
    }
    return NotFound;
  }
}

=== FILE: credit_card.dfy ===
/**
 * core/credit_card.py: listing, adding and deleting saved cards, and the
 * expiry check shared with the card deposit form.
 */
module Cards {
  import opened Wrappers
  import opened Text
  import opened Models
  import opened Store

  /** A card_id: "CARD" then the random digits. */
  function CardIdFor(suffix: string): (id: string)
    ensures |id| == 4 + |suffix| && id[..4] == "CARD" && id[4..] == suffix
  {
    "CARD" + suffix
  }

  predicate CardIdFree(cards: seq<CreditCard>, id: string) {
    forall j :: 0 <= j < |cards| ==> cards[j].cardId != id
  }

  /**
   * all_cards: a user without an account gets a 404 (None); every other user
   * gets their active cards, newest first.
   */
  function AllCards(accountOf: map<UserId, AccountNo>, cards: seq<CreditCard>, user: UserId): (r: Option<seq<CreditCard>>)
    ensures r.None? <==> user !in accountOf
    ensures r.Some? ==> forall c :: c in r.value <==> c in cards && c.user == user && c.active
    ensures r.Some? ==> r.value == Reverse(OwnedActive(cards, user))
  {
    if user !in accountOf then None else Some(ActiveCards(cards, user))
  }

  /** `CreditCard.objects.get(card_id=..., user=...)`; card ids are unique. */
  function FindOwnedCard(cards: seq<CreditCard>, cardId: string, user: UserId): (r: Option<nat>)
    ensures r.Some? ==> r.value < |cards| && cards[r.value].cardId == cardId && cards[r.value].user == user
    ensures r.None? <==> forall j :: 0 <= j < |cards| ==> !(cards[j].cardId == cardId && cards[j].user == user)
  {
    IndexWhere(cards, (c: CreditCard) => c.cardId == cardId && c.user == user)
  }

  function OwnedActive(cards: seq<CreditCard>, user: UserId): (r: seq<CreditCard>)
    ensures |r| <= |cards|
    ensures forall c :: c in r <==> c in cards && c.user == user && c.active
  {
    if cards == [] then []
    else (if cards[0].user == user && cards[0].active then [cards[0]] else []) + OwnedActive(cards[1..], user)
  }

  /**
   * all_cards (and the card list of initiate_deposit): the user's cards whose
   * `card_status` is true, newest first. Cards are stored in creation order.
   */
  function ActiveCards(cards: seq<CreditCard>, user: UserId): (r: seq<CreditCard>)
    ensures |r| <= |cards|
    ensures forall c :: c in r <==> c in cards && c.user == user && c.active
    ensures r == Reverse(OwnedActive(cards, user))
  {
    var owned := OwnedActive(cards, user);
    var r := Reverse(owned);
    assert forall c :: c in r <==> c in owned by {
      forall c | c in owned ensures c in r {
        var i :| 0 <= i < |owned| && owned[i] == c;
        assert r[|owned| - 1 - i] == c;
      }
    }
    r
  }

  /**
   * The expiry check of add_card and card_deposit: both fields parse as
   * integers the way `int()` reads them and the month is 1 to 12.
   */
  function ParseExpiryFields(month: string, year: string): (r: Option<(int, int)>)
    ensures r.Some? <==> ParseInt(month).Some? && ParseInt(year).Some? && 1 <= ParseInt(month).value <= 12
    ensures r.Some? ==> r.value == (ParseInt(month).value, ParseInt(year).value)
  {
    var m := ParseInt(month);
    var y := ParseInt(year);
    if m.Some? && y.Some? && 1 <= m.value <= 12 then Some((m.value, y.value)) else None
  }

  /** The fields of a card as the card shows its expiry are accepted back as the same month and year. */
  lemma DisplayedExpiryAccepted(month: int, year: int)
    requires 1 <= month <= 12
    ensures ParseExpiryFields(Pad2(month), Pad2(year)) == Some((month, year))
  {
    PadRoundTrip(month);
    PadRoundTrip(year);
  }

  /** The posted card form; a field that was not posted is "" (card type: None). */
  datatype CardForm = CardForm(
    holder: string, number: string, month: string, year: string, cvv: string,
    cardType: Option<string>,
    addressLine1: string, addressLine2: string, city: string, state: string,
    zipCode: string, country: string)

  /** The form with every field stripped, and the card type defaulting to "master" when not posted. */
  function Stripped(f: CardForm): (g: CardForm)
    ensures && g.holder == Strip(f.holder) && g.number == Strip(f.number)
            && g.month == Strip(f.month) && g.year == Strip(f.year) && g.cvv == Strip(f.cvv)
            && g.addressLine1 == Strip(f.addressLine1) && g.addressLine2 == Strip(f.addressLine2)
            && g.city == Strip(f.city) && g.state == Strip(f.state)
            && g.zipCode == Strip(f.zipCode) && g.country == Strip(f.country)
    ensures f.cardType.Some? ==> g.cardType == Some(Strip(f.cardType.value))
    ensures f.cardType.None? ==> g.cardType == Some("master")
  {
    CardForm(Strip(f.holder), Strip(f.number), Strip(f.month), Strip(f.year), Strip(f.cvv),
             Some(if f.cardType.Some? then Strip(f.cardType.value) else "master"),
             Strip(f.addressLine1), Strip(f.addressLine2), Strip(f.city), Strip(f.state),
             Strip(f.zipCode), Strip(f.country))
  }

  /** Every field is its own strip, and the card type is posted. */
  predicate StripFixed(g: CardForm) {
    && Strip(g.holder) == g.holder && Strip(g.number) == g.number
    && Strip(g.month) == g.month && Strip(g.year) == g.year && Strip(g.cvv) == g.cvv
    && g.cardType.Some? && Strip(g.cardType.value) == g.cardType.value
    && Strip(g.addressLine1) == g.addressLine1 && Strip(g.addressLine2) == g.addressLine2
    && Strip(g.city) == g.city && Strip(g.state) == g.state
    && Strip(g.zipCode) == g.zipCode && Strip(g.country) == g.country
  }

  /** A form whose fields are already stripped is left as it is. */
  lemma StrippedFixed(g: CardForm)
    requires StripFixed(g)
    ensures Stripped(g) == g
  {
  }

  lemma CardFieldsStripFixed(f: CardForm)
    ensures var g := Stripped(f);
            && Strip(g.holder) == g.holder && Strip(g.number) == g.number
            && Strip(g.month) == g.month && Strip(g.year) == g.year
  {
    StripTwice(f.holder);
    StripTwice(f.number);
    StripTwice(f.month);
    StripTwice(f.year);
  }

  lemma TypeFieldsStripFixed(f: CardForm)
    ensures var g := Stripped(f);
            && Strip(g.cvv) == g.cvv && Strip(g.addressLine1) == g.addressLine1
            && Strip(g.addressLine2) == g.addressLine2
  {
    StripTwice(f.cvv);
    StripTwice(f.addressLine1);
    StripTwice(f.addressLine2);
  }

  /** The default card type has no surrounding whitespace. */
  lemma MasterStripped()
    ensures Strip("master") == "master"
  {
    var m := "master";
    assert !IsSpace(m[0]) && !IsSpace(m[|m| - 1]);
    StripTrimmed(m);
  }

  lemma CardTypeStripFixed(f: CardForm)
    ensures var g := Stripped(f);
            g.cardType.Some? && Strip(g.cardType.value) == g.cardType.value
  {
    if f.cardType.Some? {
      StripTwice(f.cardType.value);
    } else {
      MasterStripped();
    }
  }

  lemma AddressFieldsStripFixed(f: CardForm)
    ensures var g := Stripped(f);
            && Strip(g.city) == g.city && Strip(g.state) == g.state
            && Strip(g.zipCode) == g.zipCode && Strip(g.country) == g.country
  {
    StripTwice(f.city);
    StripTwice(f.state);
    StripTwice(f.zipCode);
    StripTwice(f.country);
  }

  /** Stripping a stripped form changes nothing. */
  lemma StrippedIdempotent(f: CardForm)
    ensures Stripped(Stripped(f)) == Stripped(f)
  {
    CardFieldsStripFixed(f);
    TypeFieldsStripFixed(f);
    CardTypeStripFixed(f);
    AddressFieldsStripFixed(f);
    StrippedFixed(Stripped(f));
  }

  /** A saved card made from a form: active, owned by `user`, of type "master" unless the form names one. */
  function CardFrom(id: string, user: UserId, f: CardForm, month: int, year: int): CreditCard {
    CreditCard(id, user, f.holder, f.number, month, year, f.cvv,
               if f.cardType.Some? then f.cardType.value else "master", true,
               f.addressLine1, f.addressLine2, f.city, f.state, f.zipCode, f.country)
  }

  /** `CreditCard.objects.create(...)` followed by the "Added Credit Card" notification. */
  method SaveNewCard(b: Bank, user: UserId, f: CardForm, month: int, year: int, suffix: string)
    returns (id: string)
    modifies b`cards, b`notifications, b`issued
    ensures id == CardIdFor(suffix)
    ensures b.cards == old(b.cards) + [CardFrom(id, user, f, month, year)]
    ensures b.notifications == old(b.notifications) + [Note(Some(user), "Added Credit Card", 0, None, old(b.issued))]
    ensures b.issued == old(b.issued) + 1
  {
    id := CardIdFor(suffix);
    b.cards := b.cards + [CardFrom(id, user, f, month, year)];
    Notify(b, Some(user), "Added Credit Card", 0, None);
  }

  /** Holder, number, month, year and CVV are all non-empty. */
  predicate RequiredFilled(f: CardForm) {
    f.holder != "" && f.number != "" && f.month != "" && f.year != "" && f.cvv != ""
  }

  datatype AddCheck = NotAllowed | MissingDetails | InvalidExpiry | Accept(f: CardForm, month: int, year: int)

  /**
   * The checks of add_card. Only a POST is served; holder, number, month,
   * year and CVV must be non-empty after stripping, and the expiry must parse
   * with a month of 1 to 12.
   */
  function CheckCardForm(isPost: bool, form: CardForm): (r: AddCheck)
    ensures var f := Stripped(form);
            && (r == NotAllowed <==> !isPost)
            && (r == MissingDetails <==> isPost && !RequiredFilled(f))
            && (r == InvalidExpiry <==> isPost && RequiredFilled(f) && ParseExpiryFields(f.month, f.year).None?)
            && (r.Accept? ==> r.f == f && RequiredFilled(f) && 1 <= r.month <= 12
                              && ParseExpiryFields(f.month, f.year) == Some((r.month, r.year)))
  {
    if !isPost then NotAllowed
    else
      var f := Stripped(form);
      if !RequiredFilled(f) then MissingDetails
      else
        var expiry := ParseExpiryFields(f.month, f.year);
        if expiry.None? then InvalidExpiry else Accept(f, expiry.value.0, expiry.value.1)
  }

  /**
   * add_card: when the checks pass, exactly one card and one "Added Credit
   * Card" notification are created; otherwise nothing changes.
   */
  method AddCard(b: Bank, user: UserId, isPost: bool, form: CardForm, suffix: string)
    returns (check: AddCheck, cardId: Option<string>)
    requires CardIdFree(b.cards, CardIdFor(suffix))
    modifies b`cards, b`notifications, b`issued
    ensures check == CheckCardForm(isPost, form)
    ensures cardId.Some? <==> check.Accept?
    ensures check.Accept? ==>
              && cardId == Some(CardIdFor(suffix))
              && b.cards == old(b.cards) + [CardFrom(cardId.value, user, check.f, check.month, check.year)]
              && b.notifications == old(b.notifications) + [Note(Some(user), "Added Credit Card", 0, None, old(b.issued))]
              && b.issued == old(b.issued) + 1
    ensures !check.Accept? ==>
              b.cards == old(b.cards) && b.notifications == old(b.notifications) && b.issued == old(b.issued)
  {
    check := CheckCardForm(isPost, form);
    if check.Accept? {
      var id := SaveNewCard(b, user, check.f, check.month, check.year, suffix);
      cardId := Some(id);
    } else {
      cardId := None;
    }
  }

  /** Deleting a card sets the `credit_card` of its deposits to null. */
  function Unlinked(deposits: seq<DepositRow>, cardId: string): (r: seq<DepositRow>)
    ensures |r| == |deposits|
    ensures forall i :: 0 <= i < |r| ==>
              r[i] == (if deposits[i].card == Some(cardId) then deposits[i].(card := None) else deposits[i])
  {
    if deposits == [] then []
    else [if deposits[0].card == Some(cardId) then deposits[0].(card := None) else deposits[0]]
         + Unlinked(deposits[1..], cardId)
  }

  datatype DeleteOutcome = CardNotFound | ConfirmDelete | CardDeleted

  /**
   * delete_card. Only the user's own card is found; a GET only asks for
   * confirmation; a POST creates one "Deleted Credit Card" notification and
   * then removes the card, leaving every other card in place.
   */
  method DeleteCard(b: Bank, user: UserId, cardId: string, isPost: bool)
    returns (outcome: DeleteOutcome)
    modifies b`cards, b`deposits, b`notifications, b`issued
    ensures outcome == CardNotFound <==> FindOwnedCard(old(b.cards), cardId, user).None?
    ensures outcome == ConfirmDelete <==> FindOwnedCard(old(b.cards), cardId, user).Some? && !isPost
    ensures outcome == CardDeleted ==>
              var i := FindOwnedCard(old(b.cards), cardId, user).value;
              && b.cards == old(b.cards)[..i] + old(b.cards)[i + 1..]
              && b.deposits == Unlinked(old(b.deposits), cardId)
              && b.notifications == old(b.notifications) + [Note(Some(user), "Deleted Credit Card", 0, None, old(b.issued))]
              && b.issued == old(b.issued) + 1
    ensures outcome != CardDeleted ==>
              b.cards == old(b.cards) && b.deposits == old(b.deposits)
              && b.notifications == old(b.notifications) && b.issued == old(b.issued)
  {
    var found := FindOwnedCard(b.cards, cardId, user);
    if found.None? {
      return CardNotFound;
    }
    if !isPost {
      return ConfirmDelete;
    }
    Notify(b, Some(user), "Deleted Credit Card", 0, None);
    var i := found.value;
    b.cards := b.cards[..i] + b.cards[i + 1..];
    b.deposits := Unlinked(b.deposits, cardId);
    return CardDeleted;
  }
}

=== FILE: deposit.dfy ===
/**
 * core/deposit.py: choosing a deposit method, creating pending deposits by
 * bank transfer or with a saved card, adding a card for deposits, and
 * submitting a pending deposit for approval. No view here changes a
 * balance: the credit happens when an administrator completes the deposit.
 */
module Deposits {
  import opened Wrappers
  import opened Models
  import opened Store
  import opened Freeze
  import opened Signals
  import opened Cards

  predicate DepositIdFree(ds: seq<DepositRow>, id: TxId) {
    forall j :: 0 <= j < |ds| ==> ds[j].id != id
  }

  /** `get_object_or_404(Deposit, transaction_id=..., user=...)`. */
  function FindOwnedDeposit(ds: seq<DepositRow>, id: TxId, user: UserId): (r: Option<nat>)
    ensures r.Some? ==> r.value < |ds| && ds[r.value].id == id && ds[r.value].user == user
    ensures r.None? <==> forall j :: 0 <= j < |ds| ==> !(ds[j].id == id && ds[j].user == user)
  {
    IndexWhere(ds, (d: DepositRow) => d.id == id && d.user == user)
  }

  datatype MethodChoice = NoAccount | KycRequired | AccountFrozen | ChooseMethod(cards: seq<CreditCard>)

  /** initiate_deposit: the method page, with the user's active cards newest first, for an unfrozen KYC-confirmed account. */
  function InitiateDeposit(accounts: map<AccountNo, AccountRow>, accountOf: map<UserId, AccountNo>,
                           freezes: seq<FreezeRecord>, cards: seq<CreditCard>, user: UserId): (r: MethodChoice)
    requires forall u :: u in accountOf ==> accountOf[u] in accounts
    ensures r == NoAccount <==> user !in accountOf
    ensures r == KycRequired <==> user in accountOf && !accounts[accountOf[user]].kycConfirmed
    ensures r == AccountFrozen <==> user in accountOf && accounts[accountOf[user]].kycConfirmed
                                    && IsAccountFrozen(freezes, Some(accountOf[user])).0
    ensures r.ChooseMethod? ==> forall c :: c in r.cards <==> c in cards && c.user == user && c.active
  {
    if user !in accountOf then NoAccount
    else
      var no := accountOf[user];
      if !accounts[no].kycConfirmed then KycRequired
      else if IsAccountFrozen(freezes, Some(no)).0 then AccountFrozen
      else ChooseMethod(ActiveCards(cards, user))
  }

  datatype Gate = NotFound | AlreadyProcessed | ConfirmPage | GoProcess

  /** confirm_deposit: only the user's own `pending` deposit goes on to processing, and nothing is written. */
  function ConfirmDeposit(ds: seq<DepositRow>, id: TxId, user: UserId, isPost: bool): (r: Gate)
    ensures r == NotFound <==> FindOwnedDeposit(ds, id, user).None?
    ensures r == AlreadyProcessed <==> FindOwnedDeposit(ds, id, user).Some? && ds[FindOwnedDeposit(ds, id, user).value].status != Pending
    ensures r == GoProcess ==> isPost && ds[FindOwnedDeposit(ds, id, user).value].status == Pending
    ensures r == ConfirmPage ==> !isPost
  {
    var found := FindOwnedDeposit(ds, id, user);
    if found.None? then NotFound
    else if ds[found.value].status != Pending then AlreadyProcessed
    else if isPost then GoProcess
    else ConfirmPage
  }

  datatype ProcessOutcome = DepositNotFound | DepositProcessed | AccountNotFound | ProcessingError | Submitted

  /**
   * process_deposit. Only the user's own `pending` deposit is acted on (there
   * is no check of the request method). Without an account it is failed;
   * otherwise it moves to `processing` and one "Deposit Request" is created.
   * `notifyFails` stands for an exception while creating that notification,
   * which fails the deposit. The balance is never changed.
   */
  method ProcessDeposit(b: Bank, user: UserId, id: TxId, notifyFails: bool)
    returns (outcome: ProcessOutcome)
    requires b.Valid()
    modifies b`accounts, b`deposits, b`notifications, b`issued
    ensures b.Valid()
    ensures b.accounts == old(b.accounts)
    ensures outcome == DepositNotFound <==> FindOwnedDeposit(old(b.deposits), id, user).None?
    ensures FindOwnedDeposit(old(b.deposits), id, user).Some? ==>
              var i := FindOwnedDeposit(old(b.deposits), id, user).value;
              var d := old(b.deposits)[i];
              && (outcome == DepositProcessed <==> d.status != Pending)
              && (d.status == Pending ==>
                    && (outcome == AccountNotFound <==> user !in b.accountOf)
                    && (outcome == ProcessingError <==> user in b.accountOf && notifyFails)
                    && (outcome == AccountNotFound || outcome == ProcessingError ==>
                          b.deposits == old(b.deposits)[i := d.(status := Failed)])
                    && (outcome == Submitted ==>
                          b.deposits == old(b.deposits)[i := d.(status := Processing)]
                          && b.notifications == old(b.notifications) + [Note(Some(user), "Deposit Request", 0, None, old(b.issued))]
                          && b.issued == old(b.issued) + 1))
    ensures outcome == DepositNotFound || outcome == DepositProcessed ==> b.deposits == old(b.deposits)
    ensures outcome != Submitted ==> b.notifications == old(b.notifications) && b.issued == old(b.issued)
  {
    var found := FindOwnedDeposit(b.deposits, id, user);
    if found.None? {
      return DepositNotFound;
    }
    var i := found.value;
    var d := b.deposits[i];
    if d.status != Pending {
      return DepositProcessed;
    }
    if user !in b.accountOf {
      SaveDeposit(b, i, d.(status := Failed));
      return AccountNotFound;
    }
    SaveDeposit(b, i, d.(status := Processing));
    if notifyFails {
      SaveDeposit(b, i, d.(status := Failed));
      return ProcessingError;
    }
    Notify(b, Some(user), "Deposit Request", 0, None);
    return Submitted;
  }

  datatype CreateOutcome =
    | NoDepositAccount
    | CardMissing
    | KycNotConfirmed
    | Frozen
    | FormShown
    | MissingFields
    | NotPositive
    | Created(id: TxId)

  /** The pending deposit the creation views insert. */
  function PendingDeposit(id: TxId, user: UserId, account: AccountNo, amount: int,
                          depositMethod: DepositMethod, card: Option<string>, now: int): (d: DepositRow)
    ensures d.status == Pending && !CreditDecision(None, d.status)
  {
    DepositRow(id, user, account, amount, Pending, depositMethod, card, now)
  }

  /**
   * bank_transfer_deposit. `amount` is None when absent or empty. A
   * KYC-confirmed user who posts an amount above zero and a reference gets
   * one `pending` bank-transfer deposit; the balance is unchanged. There is
   * no freeze check here.
   */
  method BankTransferDeposit(b: Bank, user: UserId, isPost: bool, amount: Option<int>, reference: string,
                             suffix: string, now: int)
    returns (outcome: CreateOutcome)
    requires b.Valid()
    requires DepositIdFree(b.deposits, MakeTransactionId(DepositKind, suffix))
    modifies b`accounts, b`deposits, b`notifications, b`issued
    ensures b.Valid()
    ensures b.accounts == old(b.accounts) && b.notifications == old(b.notifications) && b.issued == old(b.issued)
    ensures outcome == NoDepositAccount <==> user !in b.accountOf
    ensures user in b.accountOf ==>
              var no := b.accountOf[user];
              && (outcome == KycNotConfirmed <==> !b.accounts[no].kycConfirmed)
              && (outcome == FormShown <==> b.accounts[no].kycConfirmed && !isPost)
              && (outcome == MissingFields <==> b.accounts[no].kycConfirmed && isPost && (amount.None? || reference == ""))
              && (outcome == NotPositive <==>
                    b.accounts[no].kycConfirmed && isPost && amount.Some? && reference != "" && amount.value <= 0)
              && (outcome.Created? <==>
                    b.accounts[no].kycConfirmed && isPost && amount.Some? && reference != "" && amount.value > 0)
              && (outcome.Created? ==>
                    outcome.id == MakeTransactionId(DepositKind, suffix)
                    && b.deposits == old(b.deposits) + [PendingDeposit(outcome.id, user, no, amount.value, BankTransfer, None, now)])
    ensures !outcome.Created? ==> b.deposits == old(b.deposits)
  {
    if user !in b.accountOf {
      return NoDepositAccount;
    }
    var no := b.accountOf[user];
    if !b.accounts[no].kycConfirmed {
      return KycNotConfirmed;
    }
    if !isPost {
      return FormShown;
    }
    if amount.None? || reference == "" {
      return MissingFields;
    }
    if amount.value <= 0 {
      return NotPositive;
    }
    var id := MakeTransactionId(DepositKind, suffix);
    InsertDeposit(b, PendingDeposit(id, user, no, amount.value, BankTransfer, None, now));
    return Created(id);
  }

  /**
   * deposit_with_saved_card. The account is looked up first, then the user's
   * own card; the card's `card_status` is not checked. A KYC-confirmed,
   * unfrozen user who posts an amount above zero gets one `pending`
   * saved-card deposit linked to the card; the balance is unchanged.
   */
  method DepositWithSavedCard(b: Bank, user: UserId, cardId: string, isPost: bool, amount: Option<int>,
                              suffix: string, now: int)
    returns (outcome: CreateOutcome)
    requires b.Valid()
    requires DepositIdFree(b.deposits, MakeTransactionId(DepositKind, suffix))
    modifies b`accounts, b`deposits, b`notifications, b`issued
    ensures b.Valid()
    ensures b.accounts == old(b.accounts) && b.notifications == old(b.notifications) && b.issued == old(b.issued)
    ensures outcome == NoDepositAccount <==> user !in b.accountOf
    ensures outcome == CardMissing <==> user in b.accountOf && FindOwnedCard(b.cards, cardId, user).None?
    ensures user in b.accountOf && FindOwnedCard(b.cards, cardId, user).Some? ==>
              var no := b.accountOf[user];
              var frozen := IsAccountFrozen(b.freezes, Some(no)).0;
              && (outcome == KycNotConfirmed <==> !b.accounts[no].kycConfirmed)
              && (outcome == Frozen <==> b.accounts[no].kycConfirmed && frozen)
              && (outcome == FormShown <==> b.accounts[no].kycConfirmed && !frozen && !isPost)
              && (outcome == MissingFields <==> b.accounts[no].kycConfirmed && !frozen && isPost && amount.None?)
              && (outcome == NotPositive <==>
                    b.accounts[no].kycConfirmed && !frozen && isPost && amount.Some? && amount.value <= 0)
              && (outcome.Created? <==>
                    b.accounts[no].kycConfirmed && !frozen && isPost && amount.Some? && amount.value > 0)
              && (outcome.Created? ==>
                    outcome.id == MakeTransactionId(DepositKind, suffix)
                    && b.deposits == old(b.deposits) + [PendingDeposit(outcome.id, user, no, amount.value, SavedCard, Some(cardId), now)])
    ensures !outcome.Created? ==> b.deposits == old(b.deposits)
  {
    if user !in b.accountOf {
      return NoDepositAccount;
    }
    var no := b.accountOf[user];
    if FindOwnedCard(b.cards, cardId, user).None? {
      return CardMissing;
    }
    if !b.accounts[no].kycConfirmed {
      return KycNotConfirmed;
    }
    var (frozen, _) := IsAccountFrozen(b.freezes, Some(no));
    if frozen {
      return Frozen;
    }
    if !isPost {
      return FormShown;
    }
    if amount.None? {
      return MissingFields;
    }
    if amount.value <= 0 {
      return NotPositive;
    }
    var id := MakeTransactionId(DepositKind, suffix);
    InsertDeposit(b, PendingDeposit(id, user, no, amount.value, SavedCard, Some(cardId), now));
    return Created(id);
  }

  /** The fields card_deposit requires: all but the second address line, the card type posted and non-empty. */
  predicate DepositCardFilled(f: CardForm) {
    && f.holder != "" && f.number != "" && f.month != "" && f.year != "" && f.cvv != ""
    && f.cardType.Some? && f.cardType.value != ""
    && f.addressLine1 != "" && f.city != "" && f.state != "" && f.zipCode != "" && f.country != ""
  }

  datatype CardOutcome = NoCardAccount | CardKycRequired | CardFormShown | CardFieldsMissing | CardExpiryInvalid | CardSaved(cardId: string)

  /**
   * card_deposit. A KYC-confirmed user who posts every required field and an
   * expiry whose month is 1 to 12 gets one card, stored as posted, and one
   * "Added Credit Card" notification.
   */
  method CardDeposit(b: Bank, user: UserId, isPost: bool, form: CardForm, suffix: string)
    returns (outcome: CardOutcome)
    requires b.Valid()
    requires CardIdFree(b.cards, CardIdFor(suffix))
    modifies b`cards, b`notifications, b`issued
    ensures b.Valid()
    ensures outcome == NoCardAccount <==> user !in b.accountOf
    ensures user in b.accountOf ==>
              var a := b.accounts[b.accountOf[user]];
              && (outcome == CardKycRequired <==> !a.kycConfirmed)
              && (outcome == CardFormShown <==> a.kycConfirmed && !isPost)
              && (outcome == CardFieldsMissing <==> a.kycConfirmed && isPost && !DepositCardFilled(form))
              && (outcome == CardExpiryInvalid <==>
                    a.kycConfirmed && isPost && DepositCardFilled(form) && ParseExpiryFields(form.month, form.year).None?)
    ensures outcome.CardSaved? ==>
              var e := ParseExpiryFields(form.month, form.year);
              && e.Some?
              && outcome.cardId == CardIdFor(suffix)
              && b.cards == old(b.cards) + [CardFrom(outcome.cardId, user, form, e.value.0, e.value.1)]
              && b.notifications == old(b.notifications) + [Note(Some(user), "Added Credit Card", 0, None, old(b.issued))]
              && b.issued == old(b.issued) + 1
    ensures !outcome.CardSaved? ==>
              b.cards == old(b.cards) && b.notifications == old(b.notifications) && b.issued == old(b.issued)
  {
    if user !in b.accountOf {
      return NoCardAccount;
    }
    if !b.accounts[b.accountOf[user]].kycConfirmed {
      return CardKycRequired;
    }
    if !isPost {
      return CardFormShown;
    }
    if !DepositCardFilled(form) {
      return CardFieldsMissing;
    }
    var expiry := ParseExpiryFields(form.month, form.year);
    if expiry.None? {
      return CardExpiryInvalid;
    }
    var id := SaveNewCard(b, user, form, expiry.value.0, expiry.value.1, suffix);
    return CardSaved(id);
  }

  /** The card a deposit links to, if it still exists. */
  function LinkedCard(cards: seq<CreditCard>, d: DepositRow): (r: Option<CreditCard>)
    ensures d.card.None? ==> r.None?
    ensures r.Some? ==> r.value in cards && d.card == Some(r.value.cardId)
  {
    if d.card.None? then None
    else
      var i := IndexWhere(cards, (c: CreditCard) => c.cardId == d.card.value);
      if i.None? then None else Some(cards[i.value])
  }

  /**
   * After a card is deleted, every deposit that was linked to it describes
   * itself as a plain "Deposit", and every other deposit keeps its link.
   */
  lemma DeletedCardUnlinksDeposits(deposits: seq<DepositRow>, cards: seq<CreditCard>, cardId: string, j: nat)
    requires j < |deposits|
    ensures var after := Unlinked(deposits, cardId);
            && (deposits[j].card == Some(cardId) ==> DepositDescription(LinkedCard(cards, after[j])) == "Deposit")
            && (deposits[j].card != Some(cardId) ==> after[j] == deposits[j])
  {
  }
}

=== FILE: freeze.dfy ===
/** core/utils.py: the active-freeze lookup and the reason labels. */
module Freeze {
  import opened Wrappers
  import opened Models

  predicate ActiveFreezeOf(account: AccountNo, f: FreezeRecord) {
    f.account == account && f.active
  }

  /**
   * is_account_frozen: no account is never frozen; otherwise the account is
   * frozen exactly when some active freeze record names it, and the record
   * returned is the first such record in primary-key order.
   */
  function IsAccountFrozen(freezes: seq<FreezeRecord>, account: Option<AccountNo>): (r: (bool, Option<FreezeRecord>))
    ensures account.None? ==> r == (false, None)
    ensures r.0 <==> account.Some? && exists i :: 0 <= i < |freezes| && ActiveFreezeOf(account.value, freezes[i])
    ensures r.0 <==> r.1.Some?
    ensures r.1.Some? ==> exists i :: 0 <= i < |freezes| && freezes[i] == r.1.value
                                      && ActiveFreezeOf(account.value, freezes[i])
                                      && forall j :: 0 <= j < i ==> !ActiveFreezeOf(account.value, freezes[j])
  {
    if account.None? then (false, None)
    else
      var i := IndexWhere(freezes, f => ActiveFreezeOf(account.value, f));
      if i.None? then (false, None) else (true, Some(freezes[i.value]))
  }

  /** The dictionary of get_freeze_reason_display. */
  function ReasonLabel(reason: string): Option<string> {
    if reason == "suspicious_activity" then Some("Suspicious Activity Detected")
    else if reason == "user_request" then Some("Account Frozen by User Request")
    else if reason == "compliance" then Some("Compliance Review Required")
    else if reason == "security" then Some("Security Concern")
    else if reason == "other" then Some("Account Under Review")
    else None
  }

  const DefaultReasonLabel := "Account Frozen"

  /** get_freeze_reason_display: empty without a record, else the label of its reason or the default. */
  function FreezeReasonDisplay(record: Option<FreezeRecord>): (r: string)
    ensures record.None? <==> r == ""
    ensures record.Some? && ReasonLabel(record.value.reason).None? ==> r == DefaultReasonLabel
    ensures record.Some? && ReasonLabel(record.value.reason).Some? ==> r == ReasonLabel(record.value.reason).value
  {
    if record.None? then ""
    else
      var shown := ReasonLabel(record.value.reason);
      if shown.Some? then shown.value else DefaultReasonLabel
  }

  /** The five known reasons get five different labels, none of them the default. */
  lemma ReasonLabelsDistinct(a: string, b: string)
    requires ReasonLabel(a).Some? && ReasonLabel(b).Some? && a != b
    ensures ReasonLabel(a) != ReasonLabel(b)
    ensures ReasonLabel(a).value != DefaultReasonLabel
  {
  }
}

=== FILE: middleware.dfy ===
/** core/middleware.py: which requests a frozen user may still make. */
module Middleware {
  import opened Wrappers
  import opened Text
  import opened Models
  import opened Freeze

  datatype Response = PassThrough | RedirectToDashboard

  const DashboardPath := "/account/dashboard/"

  /** The paths a frozen user is let through to. */
  predicate AllowedWhileFrozen(path: string) {
    StartsWith(path, "/static/") || StartsWith(path, "/admin/") || StartsWith(path, "/media/")
    || path == "/account/dashboard/" || path == "/account/dashboard"
    || Contains(path, "sign-out") || Contains(path, "logout")
  }

  /**
   * AccountFreezeMiddleware.__call__: anonymous users, users without an
   * account and users whose account is not frozen always pass; a frozen user
   * passes only on an allowed path and is redirected to the dashboard
   * otherwise.
   */
  function FreezeGate(authenticated: bool, account: Option<AccountNo>, freezes: seq<FreezeRecord>, path: string): (r: Response)
    ensures !authenticated || account.None? || !IsAccountFrozen(freezes, account).0 ==> r == PassThrough
    ensures r == RedirectToDashboard <==>
              authenticated && account.Some? && IsAccountFrozen(freezes, account).0 && !AllowedWhileFrozen(path)
  {
    if authenticated && account.Some? then
      var (frozen, _) := IsAccountFrozen(freezes, account);
      if frozen then
        if StartsWith(path, "/static/") || StartsWith(path, "/admin/") || StartsWith(path, "/media/") then PassThrough
        else if path == "/account/dashboard/" || path == "/account/dashboard" then PassThrough
        else if Contains(path, "sign-out") || Contains(path, "logout") then PassThrough
        else RedirectToDashboard
      else PassThrough
    else PassThrough
  }

  lemma ContainsAfterPrefix(path: string, part: string, k: nat)
    requires k <= |path| && StartsWith(path[k..], part)
    ensures Contains(path, part)
    decreases k
  {
    if k > 0 {
      assert path[1..][k - 1..] == path[k..];
      ContainsAfterPrefix(path[1..], part, k - 1);
    }
  }

  /**
   * A frozen user is never sent round in circles: the redirect target is
   * let through, and so is any sign-out path however it is prefixed.
   */
  lemma {:induction false} NoRedirectLoop(account: AccountNo, freezes: seq<FreezeRecord>, prefix: string, rest: string)
    ensures FreezeGate(true, Some(account), freezes, DashboardPath) == PassThrough
    ensures FreezeGate(true, Some(account), freezes, prefix + "sign-out" + rest) == PassThrough
  {
    var path := prefix + "sign-out" + rest;
    assert path[|prefix|..][..|"sign-out"|] == "sign-out";
    ContainsAfterPrefix(path, "sign-out", |prefix|);
  }
}

=== FILE: models.dfy ===
/**
 * The records of core/models.py: status and kind enumerations, transaction id
 * prefixes, the stored rows, and the display properties of cards and deposits.
 * Amounts are integer cents (the fields are decimals with two places); times
 * are integer seconds since the Unix epoch, in UTC.
 */
module Models {
  import opened Wrappers
  import opened Text

  type UserId = nat
  type AccountNo = string
  type TxId = string

  /** TRANSACTION_STATUS. */
  datatype Status = Failed | Completed | Pending | Processing | RequestSent | RequestSettled | RequestProcessing

  function StatusCode(s: Status): string {
    match s
    case Failed => "failed"
    case Completed => "completed"
    case Pending => "pending"
    case Processing => "processing"
    case RequestSent => "request_sent"
    case RequestSettled => "request_settled"
    case RequestProcessing => "request_processing"
  }

  /** The status a stored code names, if any. */
  function ParseStatus(code: string): (r: Option<Status>)
    ensures r.Some? ==> StatusCode(r.value) == code
  {
    if code == "failed" then Some(Failed)
    else if code == "completed" then Some(Completed)
    else if code == "pending" then Some(Pending)
    else if code == "processing" then Some(Processing)
    else if code == "request_sent" then Some(RequestSent)
    else if code == "request_settled" then Some(RequestSettled)
    else if code == "request_processing" then Some(RequestProcessing)
    else None
  }

  /** Every status is read back from its code, so no two statuses share one. */
  lemma StatusRoundTrip(s: Status)
    ensures ParseStatus(StatusCode(s)) == Some(s)
  {
  }

  /** The four ledger record kinds. */
  datatype Kind = DepositKind | WithdrawalKind | TransferKind | RequestKind

  /** The ShortUUIDField prefix of each kind's transaction id. */
  function Prefix(k: Kind): string {
    match k
    case DepositKind => "DEP"
    case WithdrawalKind => "WTH"
    case TransferKind => "TRF"
    case RequestKind => "REQ"
  }

  /** The `transaction_type` property of each kind. */
  function TransactionType(k: Kind): string {
    match k
    case DepositKind => "deposit"
    case WithdrawalKind => "withdraw"
    case TransferKind => "transfer"
    case RequestKind => "request"
  }

  /** The `status` field default of each kind. */
  function DefaultStatus(k: Kind): Status {
    Pending
  }

  /** A generated transaction id: the kind's prefix, then the random part. */
  function MakeTransactionId(k: Kind, random: string): (id: TxId)
    ensures |id| == 3 + |random| && id[3..] == random
  {
    Prefix(k) + random
  }

  /** The kind whose prefix an id carries, if any. */
  function KindOfId(id: TxId): Option<Kind> {
    if StartsWith(id, "DEP") then Some(DepositKind)
    else if StartsWith(id, "WTH") then Some(WithdrawalKind)
    else if StartsWith(id, "TRF") then Some(TransferKind)
    else if StartsWith(id, "REQ") then Some(RequestKind)
    else None
  }

  /** Every kind has its own prefix and its own transaction type, and every kind starts out pending. */
  lemma KindsAreDistinguished(k: Kind, k': Kind, random: string)
    ensures KindOfId(MakeTransactionId(k, random)) == Some(k)
    ensures k != k' ==> Prefix(k) != Prefix(k') && TransactionType(k) != TransactionType(k')
    ensures DefaultStatus(k) == Pending
  {
    var id := MakeTransactionId(k, random);
    assert id[..3] == Prefix(k);
  }

  datatype TransferType = Internal | External

  datatype DepositMethod = BankTransfer | CardPayment | SavedCard

  /** Fields of account.Account that the core reads and writes. */
  datatype AccountRow = AccountRow(
    owner: UserId,
    balance: int,
    pin: string,
    failedPinAttempts: int,
    pinLockoutUntil: Option<int>,
    kycConfirmed: bool,
    kycSubmitted: bool,
    status: string)

  datatype TransferRow = TransferRow(
    id: TxId,
    user: UserId,
    account: AccountNo,
    receiver: Option<UserId>,
    receiverAccount: Option<AccountNo>,
    receiverName: string,
    receiverAccountNumber: string,
    receiverBank: string,
    amount: int,
    description: string,
    status: Status,
    date: int,
    transferType: TransferType)

  datatype DepositRow = DepositRow(
    id: TxId,
    user: UserId,
    account: AccountNo,
    amount: int,
    status: Status,
    depositMethod: DepositMethod,
    card: Option<string>,
    date: int)

  datatype WithdrawalRow = WithdrawalRow(
    id: TxId,
    user: UserId,
    account: AccountNo,
    amount: int,
    status: Status,
    date: int)

  datatype RequestRow = RequestRow(
    id: TxId,
    user: UserId,
    sender: UserId,
    receiver: UserId,
    senderAccount: AccountNo,
    receiverAccount: AccountNo,
    amount: int,
    description: string,
    status: Status,
    date: int)

  datatype CreditCard = CreditCard(
    cardId: string,
    user: UserId,
    name: string,
    number: string,
    month: int,
    year: int,
    cvv: string,
    cardType: string,
    active: bool,
    addressLine1: string,
    addressLine2: string,
    city: string,
    state: string,
    zipCode: string,
    country: string)

  datatype Notification = Notification(
    user: Option<UserId>,
    kind: string,
    amount: int,
    isRead: bool,
    nid: string,
    transactionId: Option<TxId>)

  datatype Beneficiary = Beneficiary(
    user: UserId,
    account: Option<AccountNo>,
    name: string,
    accountNumber: string,
    bank: string,
    lastUsed: Option<int>,
    active: bool)

  datatype FreezeRecord = FreezeRecord(account: AccountNo, reason: string, notes: string, active: bool)

  /**
   * The value an IntegerField stores for a decimal amount: `int()` of it,
   * which drops the fraction toward zero.
   */
  function WholeUnits(cents: int): (units: int)
    ensures cents >= 0 ==> 0 <= cents - 100 * units < 100
    ensures cents < 0 ==> -100 < cents - 100 * units <= 0
  {
    if cents >= 0 then cents / 100 else -((-cents) / 100)
  }

  /** The alphabet of Notification.nid. */
  const NidAlphabet := "abcdefghijklmnopqrstuvxyz"

  /** The ten-letter nid given to the k-th notification created. */
  function NidFor(k: nat): (nid: string)
    ensures |nid| == 10 && forall i :: 0 <= i < 10 ==> nid[i] in NidAlphabet
  {
    seq(10, i requires 0 <= i < 10 => NidAlphabet[(k / Power(25, i)) % 25])
  }

  function Power(b: nat, e: nat): (r: nat)
    requires b > 0
    ensures r > 0
  {
    if e == 0 then 1 else b * Power(b, e - 1)
  }

  /** The digits of a card number, in order (`filter(str.isdigit, ...)`). */
  function DigitsOf(s: string): (r: string)
    ensures AllDigits(r) && |r| <= |s|
    ensures forall c :: c in r <==> c in s && IsDigit(c)
  {
    if s == [] then []
    else (if IsDigit(s[0]) then [s[0]] else []) + DigitsOf(s[1..])
  }

  /** CreditCard.last_four. */
  function LastFour(number: string): (r: string)
    ensures var d := DigitsOf(number);
            |r| == (if |d| >= 4 then 4 else |d|) && r == d[|d| - |r|..]
  {
    var d := DigitsOf(number);
    if |d| >= 4 then d[|d| - 4..] else d
  }

  const Mask := "•••• •••• •••• "

  /** CreditCard.masked_number. */
  function MaskedNumber(number: string): (r: string)
    ensures |Mask| <= |r| <= |Mask| + 4 && r[..|Mask|] == Mask && r[|Mask|..] == LastFour(number)
  {
    Mask + LastFour(number)
  }

  /** Python's `format(n, '02d')`: at least two characters, zeros after any sign. */
  function Pad2(n: int): (s: string)
    ensures |s| >= 2
    ensures '/' !in s
    ensures 0 <= n < 10 ==> s == ['0', DigitChar(n)]
    ensures n >= 10 ==> IsDigitString(s) && s == NatToDecimal(n)
    ensures n < 0 ==> s[0] == '-' && IsDigitString(s[1..]) && s[1..] == NatToDecimal(-n)
  {
    if n < 0 then IntToString(n)
    else if n < 10 then "0" + NatToDecimal(n)
    else NatToDecimal(n)
  }

  /** CreditCard.expiry_display: the padded month, one slash, the padded year. */
  function ExpiryDisplay(month: int, year: int): (s: string)
    ensures |s| >= 5
    ensures IndexWhere(s, IsSlash) == Some(|Pad2(month)|)
    ensures s[..|Pad2(month)|] == Pad2(month) && s[|Pad2(month)| + 1..] == Pad2(year)
  {
    var m := Pad2(month);
    var r := m + "/" + Pad2(year);
    FirstSlash(m, Pad2(year));
    assert r[..|m|] == m;
    assert r[|m| + 1..] == Pad2(year);
    r
  }

  predicate IsSlash(c: char) { c == '/' }

  /** Reading an expiry display back: split at the first `/` and parse both halves. */
  function ParseExpiry(s: string): Option<(int, int)> {
    var slash := IndexWhere(s, IsSlash);
    if slash.None? then None
    else
      var m := ParseInt(s[..slash.value]);
      var y := ParseInt(s[slash.value + 1..]);
      if m.Some? && y.Some? then Some((m.value, y.value)) else None
  }

  lemma PadRoundTrip(n: int)
    ensures ParseInt(Pad2(n)) == Some(n)
  {
    if n < 0 || n >= 10 {
      IntRoundTrip(n);
    } else {
      var d := NatToDecimal(n);
      var s := "0" + d;
      StripNoSpace(s);
      LeadingZeroValue(d);
      DecimalRoundTrip(n);
      assert IsDigitString(s);
    }
  }

  lemma FirstSlash(m: string, rest: string)
    requires '/' !in m
    ensures IndexWhere(m + "/" + rest, IsSlash) == Some(|m|)
  {
    var s := m + "/" + rest;
    assert IsSlash(s[|m|]);
    assert forall j :: 0 <= j < |m| ==> s[j] == m[j];
  }

  /** The expiry display is read back as the month and year it was made from. */
  lemma {:induction false} ExpiryRoundTrip(month: int, year: int)
    ensures ParseExpiry(ExpiryDisplay(month, year)) == Some((month, year))
  {
    var m := Pad2(month);
    var s := ExpiryDisplay(month, year);
    FirstSlash(m, Pad2(year));
    assert s[..|m|] == m;
    assert s[|m| + 1..] == Pad2(year);
    PadRoundTrip(month);
    PadRoundTrip(year);
  }

  /** Deposit.description: the linked card's last four digits, or plain "Deposit". */
  function DepositDescription(card: Option<CreditCard>): (r: string)
    ensures card.None? ==> r == "Deposit"
    ensures card.Some? ==> |r| >= 19 && r[..18] == "Card Deposit (****" && r[|r| - 1] == ')'
                           && r[18..|r| - 1] == LastFour(card.value.number)
  {
    if card.Some? then "Card Deposit (****" + LastFour(card.value.number) + ")" else "Deposit"
  }

  /** `str(date)` of a UTC timestamp: the civil date as "YYYY-MM-DD". */
  function IsoDate(seconds: int): string {
    var days := seconds / 86400;
    var z := days + 719468;
    var era := z / 146097;
    var doe := z - era * 146097;
    var yoe := (doe - doe / 1460 + doe / 36524 - doe / 146096) / 365;
    var doy := doe - (365 * yoe + yoe / 4 - yoe / 100);
    var mp := (5 * doy + 2) / 153;
    var d := doy - (153 * mp + 2) / 5 + 1;
    var m := if mp < 10 then mp + 3 else mp - 9;
    var y := yoe + era * 400 + (if m <= 2 then 1 else 0);
    ZeroPad(y, 4) + "-" + ZeroPad(m, 2) + "-" + ZeroPad(d, 2)
  }

  /** `'%0*d' % (width, n)`. */
  function ZeroPad(n: int, width: nat): string
    decreases width, if n < 0 then 1 else 0
  {
    if n < 0 then "-" + ZeroPad(-n, if width > 0 then width - 1 else 0)
    else
      var digits := NatToDecimal(n);
      if |digits| >= width then digits else Zeros(width - |digits|) + digits
  }

  function Zeros(k: nat): string {
    if k == 0 then [] else "0" + Zeros(k - 1)
  }
}

=== FILE: notifications.dfy ===
/**
 * core/notification_views.py: the unread count, marking notifications
 * read, the unread summary and deleting a notification. Notifications are
 * stored in creation order, so "newest first" is the reverse of that order.
 */
module Notifications {
  import opened Wrappers
  import opened Models
  import opened Store

  predicate UnreadOf(n: Notification, user: UserId) {
    n.user == Some(user) && !n.isRead
  }

  /** The user's unread notifications, in creation order. */
  function Unread(ns: seq<Notification>, user: UserId): (r: seq<Notification>)
    ensures |r| <= |ns|
    ensures forall n :: n in r <==> n in ns && UnreadOf(n, user)
  {
    if ns == [] then []
    else (if UnreadOf(ns[0], user) then [ns[0]] else []) + Unread(ns[1..], user)
  }

  /** notification_list's `unread_count`. */
  function UnreadCount(ns: seq<Notification>, user: UserId): (count: nat)
    ensures count == |Unread(ns, user)|
    ensures count == 0 <==> forall i :: 0 <= i < |ns| ==> !UnreadOf(ns[i], user)
  {
    if ns == [] then 0
    else (if UnreadOf(ns[0], user) then 1 else 0) + UnreadCount(ns[1..], user)
  }

  /** The notification matching `(nid, user)`, as `Notification.objects.get` finds it. */
  function FindNotification(ns: seq<Notification>, nid: string, user: UserId): (r: Lookup)
    ensures r.Found? ==> r.index < |ns| && ns[r.index].nid == nid && ns[r.index].user == Some(user)
    ensures r.Missing? <==> forall j :: 0 <= j < |ns| ==> !(ns[j].nid == nid && ns[j].user == Some(user))
  {
    GetUnique(ns, (n: Notification) => n.nid == nid && n.user == Some(user))
  }

  datatype Reply = Done | NotFound | ServerError

  /**
   * mark_notification_read: the one notification with that nid belonging to
   * the user becomes read and nothing else changes; when there is none, or
   * more than one, nothing changes.
   */
  method MarkRead(b: Bank, user: UserId, nid: string) returns (reply: Reply)
    modifies b`notifications
    ensures var l := FindNotification(old(b.notifications), nid, user);
            && (reply == Done <==> l.Found?)
            && (reply == NotFound <==> l.Missing?)
            && (l.Found? ==> b.notifications == old(b.notifications)[l.index := old(b.notifications)[l.index].(isRead := true)])
            && (!l.Found? ==> b.notifications == old(b.notifications))
  {
    var l := FindNotification(b.notifications, nid, user);
    match l
    case Found(i) =>
      b.notifications := b.notifications[i := b.notifications[i].(isRead := true)];
      reply := Done;
    case Missing =>
      reply := NotFound;
    case Multiple =>
      reply := ServerError;
  }

  /** Every notification of the user read, the others as they were. */
  function AllRead(ns: seq<Notification>, user: UserId): (r: seq<Notification>)
    ensures |r| == |ns|
    ensures forall i :: 0 <= i < |ns| ==> r[i] == (if UnreadOf(ns[i], user) then ns[i].(isRead := true) else ns[i])
  {
    seq(|ns|, i requires 0 <= i < |ns| => if UnreadOf(ns[i], user) then ns[i].(isRead := true) else ns[i])
  }

  /** After marking all read the user has nothing unread, and other users' notifications are untouched. */
  lemma AllReadClears(ns: seq<Notification>, user: UserId)
    ensures UnreadCount(AllRead(ns, user), user) == 0
    ensures forall i :: 0 <= i < |ns| && ns[i].user != Some(user) ==> AllRead(ns, user)[i] == ns[i]
  {
    var r := AllRead(ns, user);
    assert forall i :: 0 <= i < |r| ==> !UnreadOf(r[i], user);
  }

  /** mark_all_notifications_read: the bulk update, one row at a time. */
  method MarkAllRead(b: Bank, user: UserId)
    modifies b`notifications
    ensures b.notifications == AllRead(old(b.notifications), user)
  {
    var i := 0;
    while i < |b.notifications|
      invariant 0 <= i <= |b.notifications| == |old(b.notifications)|
      invariant b.notifications[..i] == AllRead(old(b.notifications), user)[..i]
      invariant b.notifications[i..] == old(b.notifications)[i..]
      decreases |b.notifications| - i
    {
      if UnreadOf(b.notifications[i], user) {
        b.notifications := b.notifications[i := b.notifications[i].(isRead := true)];
      }
      assert b.notifications[i] == AllRead(old(b.notifications), user)[i];
      i := i + 1;
    }
  }

  /** At most `k` of the last elements of `s`, the last one first. */
  function Latest(s: seq<Notification>, k: nat): (r: seq<Notification>)
    ensures |r| == (if |s| < k then |s| else k)
    ensures forall i :: 0 <= i < |r| ==> r[i] == s[|s| - 1 - i]
  {
    var newest := Reverse(s);
    if |newest| <= k then newest else newest[..k]
  }

  /**
   * get_unread_notifications: the total number of unread notifications of
   * the user and at most five of them, newest first.
   */
  function UnreadSummary(ns: seq<Notification>, user: UserId): (r: (nat, seq<Notification>))
    ensures r.0 == UnreadCount(ns, user)
    ensures |r.1| == (if r.0 < 5 then r.0 else 5)
    ensures forall i :: 0 <= i < |r.1| ==> r.1[i] == Unread(ns, user)[|Unread(ns, user)| - 1 - i]
  {
    (UnreadCount(ns, user), Latest(Unread(ns, user), 5))
  }

  /** Every notification the summary shows is one of the user's unread notifications. */
  lemma SummaryShowsUnread(ns: seq<Notification>, user: UserId)
    ensures forall n :: n in UnreadSummary(ns, user).1 ==> n in ns && UnreadOf(n, user)
  {
    var u := Unread(ns, user);
    var shown := UnreadSummary(ns, user).1;
    forall n | n in shown
      ensures n in ns && UnreadOf(n, user)
    {
      var i :| 0 <= i < |shown| && shown[i] == n;
      assert u[|u| - 1 - i] in u;
    }
  }

  /** delete_notification: the one notification with that nid belonging to the user is removed. */
  method DeleteNotification(b: Bank, user: UserId, nid: string) returns (reply: Reply)
    modifies b`notifications
    ensures var l := FindNotification(old(b.notifications), nid, user);
            && (reply == Done <==> l.Found?)
            && (reply == NotFound <==> l.Missing?)
            && (l.Found? ==> b.notifications == old(b.notifications)[..l.index] + old(b.notifications)[l.index + 1..])
            && (!l.Found? ==> b.notifications == old(b.notifications))
  {
    var l := FindNotification(b.notifications, nid, user);
    match l
    case Found(i) =>
      b.notifications := b.notifications[..i] + b.notifications[i + 1..];
      reply := Done;
    case Missing =>
      reply := NotFound;
    case Multiple =>
      reply := ServerError;
  }

  /** The unread count adds up over any split of the table. */
  lemma {:induction false} UnreadCountSplit(ns: seq<Notification>, ms: seq<Notification>, user: UserId)
    ensures UnreadCount(ns + ms, user) == UnreadCount(ns, user) + UnreadCount(ms, user)
  {
    if ns == [] {
      assert ns + ms == ms;
    } else {
      assert (ns + ms)[0] == ns[0];
      assert (ns + ms)[1..] == ns[1..] + ms;
      UnreadCountSplit(ns[1..], ms, user);
    }
  }

  /** Deleting removes exactly the matched notification: the user's unread count drops by one if it was unread. */
  lemma DeleteCount(ns: seq<Notification>, i: nat, user: UserId)
    requires i < |ns|
    ensures UnreadCount(ns[..i] + ns[i + 1..], user) == UnreadCount(ns, user) - (if UnreadOf(ns[i], user) then 1 else 0)
  {
    assert ns == ns[..i] + [ns[i]] + ns[i + 1..];
    UnreadCountSplit(ns[..i] + [ns[i]], ns[i + 1..], user);
    UnreadCountSplit(ns[..i], [ns[i]], user);
    UnreadCountSplit(ns[..i], ns[i + 1..], user);
    assert UnreadCount([ns[i]], user) == (if UnreadOf(ns[i], user) then 1 else 0) by {
      assert [ns[i]][1..] == [];
    }
  }
}

=== FILE: payment_request.dfy ===
/**
 * core/payment_request.py: asking another account for money, sending the
 * request with the PIN, settling it, and deleting it. A view whose lookup
 * raises (an unknown account number or request id, a user without an
 * account) ends with an error and changes nothing.
 */
module PaymentRequests {
  import opened Wrappers
  import opened Models
  import opened Store

  predicate RequestIdFree(rs: seq<RequestRow>, id: TxId) {
    forall j :: 0 <= j < |rs| ==> rs[j].id != id
  }

  datatype RequestOutcome =
    | AccountMissing
    | RequestMissing
    | NoAccount
    | NotPost
    | InvalidAmount
    | WrongPin
    | InsufficientFunds
    | Requested(id: TxId)
    | Sent
    | Settled
    | Deleted
    | NotCreator

  /**
   * AmountRequestProcess. The current user asks the owner of the account
   * named in the URL for `amount` (None when it is absent, which the insert
   * refuses). The new request is `processing`, made and sent by the current
   * user from their own account, to the URL account and its owner.
   */
  method CreateRequest(b: Bank, user: UserId, accountNumber: AccountNo, isPost: bool,
                       amount: Option<int>, description: string, suffix: string, now: int)
    returns (outcome: RequestOutcome)
    requires b.Valid()
    requires RequestIdFree(b.requests, MakeTransactionId(RequestKind, suffix))
    modifies b`requests
    ensures outcome == AccountMissing <==> accountNumber !in b.accounts
    ensures outcome == NoAccount <==> accountNumber in b.accounts && user !in b.accountOf
    ensures outcome == NotPost <==> accountNumber in b.accounts && user in b.accountOf && !isPost
    ensures outcome == InvalidAmount <==> accountNumber in b.accounts && user in b.accountOf && isPost && amount.None?
    ensures outcome.Requested? <==> accountNumber in b.accounts && user in b.accountOf && isPost && amount.Some?
    ensures outcome.Requested? ==>
              && outcome.id == MakeTransactionId(RequestKind, suffix)
              && b.requests == old(b.requests)
                 + [RequestRow(outcome.id, user, user, b.accounts[accountNumber].owner,
                               b.accountOf[user], accountNumber, amount.value, description, Processing, now)]
    ensures !outcome.Requested? ==> b.requests == old(b.requests)
  {
    if accountNumber !in b.accounts {
      return AccountMissing;
    }
    var receiver := b.accounts[accountNumber];
    if user !in b.accountOf {
      return NoAccount;
    }
    var senderNo := b.accountOf[user];
    if !isPost {
      return NotPost;
    }
    if amount.None? {
      return InvalidAmount;
    }
    var id := MakeTransactionId(RequestKind, suffix);
    b.requests := b.requests + [RequestRow(id, user, user, receiver.owner, senderNo, accountNumber,
                                           amount.value, description, Processing, now)];
    return Requested(id);
  }

  /**
   * RequestFinialProcess. The request is found by id alone. With the right
   * PIN of the current user's account it becomes `request_sent`, and the
   * URL account's owner and then the current user are notified; a wrong PIN
   * changes nothing.
   */
  method SendRequest(b: Bank, user: UserId, accountNumber: AccountNo, id: TxId, isPost: bool, pin: Option<string>)
    returns (outcome: RequestOutcome)
    requires b.Valid()
    modifies b`requests, b`notifications, b`issued
    ensures var found := FindRequest(old(b.requests), id);
            && (outcome == AccountMissing <==> accountNumber !in b.accounts)
            && (outcome == RequestMissing <==> accountNumber in b.accounts && found.None?)
            && (outcome == NoAccount <==> accountNumber in b.accounts && found.Some? && user !in b.accountOf)
            && (accountNumber in b.accounts && found.Some? && user in b.accountOf ==>
                  var a := b.accounts[b.accountOf[user]];
                  var r := old(b.requests)[found.value];
                  && (outcome == NotPost <==> !isPost)
                  && (outcome == WrongPin <==> isPost && pin != Some(a.pin))
                  && (outcome == Sent <==> isPost && pin == Some(a.pin))
                  && (outcome == Sent ==>
                        && b.requests == old(b.requests)[found.value := r.(status := RequestSent)]
                        && b.notifications == old(b.notifications)
                           + [Note(Some(b.accounts[accountNumber].owner), "Recieved Payment Request", r.amount, None, old(b.issued)),
                              Note(Some(user), "Sent Payment Request", r.amount, None, old(b.issued) + 1)]
                        && b.issued == old(b.issued) + 2))
    ensures outcome != Sent ==>
              b.requests == old(b.requests) && b.notifications == old(b.notifications) && b.issued == old(b.issued)
  {
    if accountNumber !in b.accounts {
      return AccountMissing;
    }
    var account := b.accounts[accountNumber];
    var found := FindRequest(b.requests, id);
    if found.None? {
      return RequestMissing;
    }
    var r := b.requests[found.value];
    if user !in b.accountOf {
      return NoAccount;
    }
    var senderAccount := b.accounts[b.accountOf[user]];
    if !isPost {
      return NotPost;
    }
    if pin != Some(senderAccount.pin) {
      return WrongPin;
    }
    b.requests := b.requests[found.value := r.(status := RequestSent)];
    Notify(b, Some(account.owner), "Recieved Payment Request", r.amount, None);
    Notify(b, Some(user), "Sent Payment Request", r.amount, None);
    return Sent;
  }

  /**
   * The accounts after a settlement: the payer's row debited and written,
   * then the URL account's row, as loaded before, credited and written.
   */
  function SettlementAccounts(accounts: map<AccountNo, AccountRow>, payerNo: AccountNo, payeeNo: AccountNo, amount: int): map<AccountNo, AccountRow>
    requires payerNo in accounts && payeeNo in accounts
  {
    accounts[payerNo := Debited(accounts[payerNo], amount)][payeeNo := Credited(accounts[payeeNo], amount)]
  }

  /** Between two different accounts, the payer loses the amount, the payee gains it, and nothing else changes. */
  lemma SettlementConserves(accounts: map<AccountNo, AccountRow>, payerNo: AccountNo, payeeNo: AccountNo, amount: int)
    requires payerNo in accounts && payeeNo in accounts && payerNo != payeeNo
    ensures var after := SettlementAccounts(accounts, payerNo, payeeNo, amount);
            && after.Keys == accounts.Keys
            && after[payerNo].balance == accounts[payerNo].balance - amount
            && after[payeeNo].balance == accounts[payeeNo].balance + amount
            && after[payerNo].balance + after[payeeNo].balance == accounts[payerNo].balance + accounts[payeeNo].balance
            && forall n :: n in accounts && n != payerNo && n != payeeNo ==> after[n] == accounts[n]
  {
  }

  /** Settling a request from the payee's own account: the stale row is written last, so the account gains the amount. */
  lemma SelfSettlementCredits(accounts: map<AccountNo, AccountRow>, no: AccountNo, amount: int)
    requires no in accounts
    ensures SettlementAccounts(accounts, no, no, amount)[no].balance == accounts[no].balance + amount
  {
  }

  /** There is no status guard: settling the same request twice moves the amount twice. */
  lemma SettlementReplayMovesTwice(accounts: map<AccountNo, AccountRow>, payerNo: AccountNo, payeeNo: AccountNo, amount: int)
    requires payerNo in accounts && payeeNo in accounts && payerNo != payeeNo
    ensures var once := SettlementAccounts(accounts, payerNo, payeeNo, amount);
            var twice := SettlementAccounts(once, payerNo, payeeNo, amount);
            twice[payerNo].balance == accounts[payerNo].balance - 2 * amount
            && twice[payeeNo].balance == accounts[payeeNo].balance + 2 * amount
  {
  }

  /**
   * settlement_processing. The request is found by id alone and its status
   * is not checked. With the right PIN and a balance of at least the amount,
   * the current user's account pays the URL account and the request becomes
   * `request_settled`; otherwise nothing changes. No notification is made.
   */
  method SettleRequest(b: Bank, user: UserId, accountNumber: AccountNo, id: TxId, isPost: bool, pin: Option<string>)
    returns (outcome: RequestOutcome)
    requires b.Valid()
    modifies b`accounts, b`requests
    ensures b.Valid()
    ensures var found := FindRequest(old(b.requests), id);
            && (outcome == AccountMissing <==> accountNumber !in old(b.accounts))
            && (outcome == RequestMissing <==> accountNumber in old(b.accounts) && found.None?)
            && (outcome == NoAccount <==> accountNumber in old(b.accounts) && found.Some? && user !in b.accountOf)
            && (accountNumber in old(b.accounts) && found.Some? && user in b.accountOf ==>
                  var payerNo := b.accountOf[user];
                  var payer := old(b.accounts)[payerNo];
                  var r := old(b.requests)[found.value];
                  && (outcome == NotPost <==> !isPost)
                  && (outcome == WrongPin <==> isPost && pin != Some(payer.pin))
                  && (outcome == InsufficientFunds <==> isPost && pin == Some(payer.pin) && payer.balance < r.amount)
                  && (outcome == Settled <==> isPost && pin == Some(payer.pin) && payer.balance >= r.amount)
                  && (outcome == Settled ==>
                        b.accounts == SettlementAccounts(old(b.accounts), payerNo, accountNumber, r.amount)
                        && b.requests == old(b.requests)[found.value := r.(status := RequestSettled)]))
    ensures outcome != Settled ==> b.accounts == old(b.accounts) && b.requests == old(b.requests)
  {
    if accountNumber !in b.accounts {
      return AccountMissing;
    }
    var payee := b.accounts[accountNumber];
    var found := FindRequest(b.requests, id);
    if found.None? {
      return RequestMissing;
    }
    var r := b.requests[found.value];
    if user !in b.accountOf {
      return NoAccount;
    }
    var payerNo := b.accountOf[user];
    var payer := b.accounts[payerNo];
    if !isPost {
      return NotPost;
    }
    if pin != Some(payer.pin) {
      return WrongPin;
    }
    if payer.balance < r.amount {
      return InsufficientFunds;
    }
    b.accounts := b.accounts[payerNo := Debited(payer, r.amount)];
    b.accounts := b.accounts[accountNumber := Credited(payee, r.amount)];
    b.requests := b.requests[found.value := r.(status := RequestSettled)];
    return Settled;
  }

  /** delete_payment_request: the request is removed only when the current user made it. */
  method DeleteRequest(b: Bank, user: UserId, accountNumber: AccountNo, id: TxId)
    returns (outcome: RequestOutcome)
    modifies b`requests
    ensures var found := FindRequest(old(b.requests), id);
            && (outcome == AccountMissing <==> accountNumber !in b.accounts)
            && (outcome == RequestMissing <==> accountNumber in b.accounts && found.None?)
            && (accountNumber in b.accounts && found.Some? ==>
                  (outcome == Deleted <==> old(b.requests)[found.value].user == user)
                  && (outcome == Deleted ==> b.requests == old(b.requests)[..found.value] + old(b.requests)[found.value + 1..]))
    ensures outcome != Deleted ==> b.requests == old(b.requests)
  {
    if accountNumber !in b.accounts {
      return AccountMissing;
    }
    var found := FindRequest(b.requests, id);
    if found.None? {
      return RequestMissing;
    }
    if b.requests[found.value].user != user {
      return NotCreator;
    }
    b.requests := b.requests[..found.value] + b.requests[found.value + 1..];
    return Deleted;
  }
}

=== FILE: signals.dfy ===
/**
 * core/signals.py: the pre_save reactions that move money when a transfer
 * or a deposit changes status, and the mail decision of the freeze hook.
 * The reactions read the stored row's status (`None` for a row not yet
 * saved, which has no primary key) and the row being saved.
 */
module Signals {
  import opened Wrappers
  import opened Models
  import opened Store

  // ------------------------------------------------------------ transfers

  datatype Reaction = Reaction(refundSender: bool, debitReceiver: bool)

  /**
   * refund_failed_transfer: the sender is refunded on every edge from a
   * status other than `failed` into `failed`; the internal receiver is
   * debited as well only when the stored status was `completed`.
   */
  function RefundDecision(stored: Option<Status>, t: TransferRow): (r: Reaction)
    ensures r.refundSender <==> stored.Some? && stored.value != Failed && t.status == Failed
    ensures r.debitReceiver <==> r.refundSender && t.transferType == Internal
                                 && t.receiverAccount.Some? && stored == Some(Completed)
  {
    if stored.Some? && stored.value != Failed && t.status == Failed then
      Reaction(true, t.transferType == Internal && t.receiverAccount.Some? && stored.value == Completed)
    else
      Reaction(false, false)
  }

  /** The accounts the reaction touches exist. */
  predicate RefundDefined(accounts: map<AccountNo, AccountRow>, stored: Option<Status>, t: TransferRow) {
    var r := RefundDecision(stored, t);
    (r.refundSender ==> t.account in accounts)
    && (r.debitReceiver ==> t.receiverAccount.value in accounts)
  }

  /** The accounts after the reaction: a fresh read and write of each account it touches. */
  function AfterRefund(accounts: map<AccountNo, AccountRow>, stored: Option<Status>, t: TransferRow): map<AccountNo, AccountRow>
    requires RefundDefined(accounts, stored, t)
  {
    var r := RefundDecision(stored, t);
    var a := if r.refundSender then accounts[t.account := Credited(accounts[t.account], t.amount)] else accounts;
    if r.debitReceiver then a[t.receiverAccount.value := Debited(a[t.receiverAccount.value], t.amount)] else a
  }

  /** The notifications the reaction creates, numbered from `k`. */
  function RefundNotes(stored: Option<Status>, t: TransferRow, k: nat): seq<Notification> {
    var r := RefundDecision(stored, t);
    (if r.refundSender then [Note(Some(t.user), "Credit Alert", t.amount, Some(t.id), k)] else [])
    + (if r.debitReceiver then [Note(t.receiver, "Debit Alert", t.amount, Some(t.id), k + 1)] else [])
  }

  /**
   * A new transfer and a transfer already `failed` cause no reaction, so a
   * refund is never repeated by saving a failed transfer again.
   */
  lemma NoRefundWithoutEdge(accounts: map<AccountNo, AccountRow>, stored: Option<Status>, t: TransferRow, k: nat)
    requires stored.None? || stored == Some(Failed) || t.status != Failed
    ensures RefundDefined(accounts, stored, t)
    ensures AfterRefund(accounts, stored, t) == accounts
    ensures RefundNotes(stored, t, k) == []
  {
  }

  /**
   * On an edge into `failed` the sender gets exactly the amount back, with
   * one "Credit Alert"; an internal receiver credited on completion loses
   * exactly the amount, with one "Debit Alert"; no other account changes.
   */
  lemma RefundAmounts(accounts: map<AccountNo, AccountRow>, stored: Status, t: TransferRow, k: nat)
    requires stored != Failed && t.status == Failed
    requires RefundDefined(accounts, Some(stored), t)
    ensures var after := AfterRefund(accounts, Some(stored), t);
            var debit := t.transferType == Internal && t.receiverAccount.Some? && stored == Completed;
            && after.Keys == accounts.Keys
            && (forall n :: n in accounts && n != t.account && (!debit || n != t.receiverAccount.value)
                  ==> after[n] == accounts[n])
            && (!debit || t.receiverAccount.value != t.account ==>
                  after[t.account] == Credited(accounts[t.account], t.amount))
            && (debit && t.receiverAccount.value != t.account ==>
                  after[t.receiverAccount.value] == Debited(accounts[t.receiverAccount.value], t.amount))
            && RefundNotes(Some(stored), t, k)
               == [Note(Some(t.user), "Credit Alert", t.amount, Some(t.id), k)]
                  + (if debit then [Note(t.receiver, "Debit Alert", t.amount, Some(t.id), k + 1)] else [])
  {
  }

  /** Saving a transfer row that already exists: the reaction, then the row itself. */
  method SaveTransfer(b: Bank, i: nat, t: TransferRow)
    requires b.Valid() && i < |b.transfers|
    requires RefundDefined(b.accounts, Some(b.transfers[i].status), t)
    modifies b`accounts, b`transfers, b`notifications, b`issued
    ensures b.Valid()
    ensures b.accounts == AfterRefund(old(b.accounts), Some(old(b.transfers)[i].status), t)
    ensures b.transfers == old(b.transfers)[i := t]
    ensures b.notifications == old(b.notifications) + RefundNotes(Some(old(b.transfers)[i].status), t, old(b.issued))
    ensures b.issued == old(b.issued) + |RefundNotes(Some(old(b.transfers)[i].status), t, old(b.issued))|
  {
    var stored := b.transfers[i].status;
    var r := RefundDecision(Some(stored), t);
    if r.refundSender {
      var sender := b.accounts[t.account];
      b.accounts := b.accounts[t.account := Credited(sender, t.amount)];
      Notify(b, Some(t.user), "Credit Alert", t.amount, Some(t.id));
      if r.debitReceiver {
        var receiver := b.accounts[t.receiverAccount.value];
        b.accounts := b.accounts[t.receiverAccount.value := Debited(receiver, t.amount)];
        Notify(b, t.receiver, "Debit Alert", t.amount, Some(t.id));
      }
    }
    b.transfers := b.transfers[i := t];
  }

  /** Inserting a new transfer row: it has no primary key yet, so nothing reacts. */
  method InsertTransfer(b: Bank, t: TransferRow)
    modifies b`transfers
    ensures b.transfers == old(b.transfers) + [t]
  {
    b.transfers := b.transfers + [t];
  }

  /** The number of refunds along a transfer's life: created with `history[0]`, then saved with each later status. */
  function Refunds(t: TransferRow, history: seq<Status>): nat
    decreases |history|
  {
    if |history| <= 1 then 0
    else
      var n := |history|;
      Refunds(t, history[..n - 1])
      + (if RefundDecision(Some(history[n - 2]), t.(status := history[n - 1])).refundSender then 1 else 0)
  }

  function Repeat(s: Status, n: nat): (r: seq<Status>)
    ensures |r| == n && forall i :: 0 <= i < n ==> r[i] == s
  {
    if n == 0 then [] else Repeat(s, n - 1) + [s]
  }

  /** A transfer that never reaches `failed` is never refunded. */
  lemma {:induction false} NeverFailedNeverRefunded(t: TransferRow, history: seq<Status>)
    requires forall i :: 0 <= i < |history| ==> history[i] != Failed
    ensures Refunds(t, history) == 0
    decreases |history|
  {
    var n := |history|;
    if n > 1 {
      var p := history[..n - 1];
      assert forall i :: 0 <= i < |p| ==> p[i] == history[i];
      NeverFailedNeverRefunded(t, p);
      assert history[n - 1] != Failed;
    }
  }

  /**
   * A transfer that reaches `failed` once and is then saved any number of
   * times more is refunded exactly once.
   */
  lemma {:induction false} RefundedOnce(t: TransferRow, before: seq<Status>, n: nat)
    requires |before| >= 1 && forall i :: 0 <= i < |before| ==> before[i] != Failed
    requires n >= 1
    ensures Refunds(t, before + Repeat(Failed, n)) == 1
    decreases n
  {
    var h := before + Repeat(Failed, n);
    var m := |h|;
    assert h[m - 1] == Failed;
    if n == 1 {
      assert h[..m - 1] == before;
      NeverFailedNeverRefunded(t, before);
      assert h[m - 2] == before[|before| - 1];
    } else {
      RefundedOnce(t, before, n - 1);
      assert h[..m - 1] == before + Repeat(Failed, n - 1);
      assert h[m - 2] == Failed;
    }
  }

  // ------------------------------------------------------------- deposits

  /**
   * check_deposit_completion: a deposit is credited when a save moves it
   * from any status other than `completed` into `completed`, and when it
   * is first saved already `completed`.
   */
  function CreditDecision(stored: Option<Status>, status: Status): (credit: bool)
    ensures credit <==> status == Completed && stored != Some(Completed)
  {
    if stored.Some? then stored.value != Completed && status == Completed
    else status == Completed
  }

  function AfterCredit(accounts: map<AccountNo, AccountRow>, stored: Option<Status>, d: DepositRow): map<AccountNo, AccountRow>
    requires CreditDecision(stored, d.status) ==> d.account in accounts
  {
    if CreditDecision(stored, d.status) then accounts[d.account := Credited(accounts[d.account], d.amount)]
    else accounts
  }

  /** The alert paired with a credit; a deposit created completed gets one without an amount. */
  function CreditNotes(stored: Option<Status>, d: DepositRow, k: nat): seq<Notification> {
    if CreditDecision(stored, d.status) then
      [Note(Some(d.user), "Credit Alert", if stored.Some? then d.amount else 0, Some(d.id), k)]
    else []
  }

  /** Each credit adds exactly the amount to the deposit's account and comes with exactly one alert. */
  lemma CreditAmount(accounts: map<AccountNo, AccountRow>, stored: Option<Status>, d: DepositRow, k: nat)
    requires CreditDecision(stored, d.status) ==> d.account in accounts
    ensures var after := AfterCredit(accounts, stored, d);
            && after.Keys == accounts.Keys
            && (forall n :: n in accounts && n != d.account ==> after[n] == accounts[n])
            && (d.account in accounts ==>
                  after[d.account].balance
                  == accounts[d.account].balance + (if CreditDecision(stored, d.status) then d.amount else 0))
            && |CreditNotes(stored, d, k)| == (if CreditDecision(stored, d.status) then 1 else 0)
  {
  }

  /** Saving a deposit row that already exists. */
  method SaveDeposit(b: Bank, i: nat, d: DepositRow)
    requires b.Valid() && i < |b.deposits|
    requires CreditDecision(Some(b.deposits[i].status), d.status) ==> d.account in b.accounts
    modifies b`accounts, b`deposits, b`notifications, b`issued
    ensures b.Valid()
    ensures b.accounts == AfterCredit(old(b.accounts), Some(old(b.deposits)[i].status), d)
    ensures b.deposits == old(b.deposits)[i := d]
    ensures b.notifications == old(b.notifications) + CreditNotes(Some(old(b.deposits)[i].status), d, old(b.issued))
    ensures b.issued == old(b.issued) + |CreditNotes(Some(old(b.deposits)[i].status), d, old(b.issued))|
  {
    var stored := b.deposits[i].status;
    if stored != Completed && d.status == Completed {
      var account := b.accounts[d.account];
      b.accounts := b.accounts[d.account := Credited(account, d.amount)];
      Notify(b, Some(d.user), "Credit Alert", d.amount, Some(d.id));
    }
    b.deposits := b.deposits[i := d];
  }

  /** Inserting a new deposit row. */
  method InsertDeposit(b: Bank, d: DepositRow)
    requires b.Valid()
    requires d.status == Completed ==> d.account in b.accounts
    modifies b`accounts, b`deposits, b`notifications, b`issued
    ensures b.Valid()
    ensures b.accounts == AfterCredit(old(b.accounts), None, d)
    ensures b.deposits == old(b.deposits) + [d]
    ensures b.notifications == old(b.notifications) + CreditNotes(None, d, old(b.issued))
    ensures b.issued == old(b.issued) + |CreditNotes(None, d, old(b.issued))|
  {
    if d.status == Completed {
      var account := b.accounts[d.account];
      b.accounts := b.accounts[d.account := Credited(account, d.amount)];
      Notify(b, Some(d.user), "Credit Alert", 0, Some(d.id));
    }
    b.deposits := b.deposits + [d];
  }

  /** The number of credits along a deposit's life: created with `history[0]`, then saved with each later status. */
  function Credits(history: seq<Status>): nat
    decreases |history|
  {
    if |history| == 0 then 0
    else
      var n := |history|;
      var stored := if n == 1 then None else Some(history[n - 2]);
      Credits(history[..n - 1]) + (if CreditDecision(stored, history[n - 1]) then 1 else 0)
  }

  /**
   * A deposit that reaches `completed` and is then saved any number of times
   * more is credited exactly once, however it was created; one that never
   * reaches it is never credited.
   */
  lemma {:induction false} CreditedOnce(before: seq<Status>, n: nat)
    requires forall i :: 0 <= i < |before| ==> before[i] != Completed
    ensures Credits(before) == 0
    ensures n >= 1 ==> Credits(before + Repeat(Completed, n)) == 1
    decreases |before| + n
  {
    if |before| > 0 {
      CreditedOnce(before[..|before| - 1], 0);
    }
    if n >= 1 {
      var h := before + Repeat(Completed, n);
      if n == 1 {
        assert h[..|h| - 1] == before;
      } else {
        CreditedOnce(before, n - 1);
        assert h[..|h| - 1] == before + Repeat(Completed, n - 1);
      }
    }
  }

  // ------------------------------------------------------- account freezes

  datatype FreezeMail = FrozenMail | RestoredMail

  /**
   * account_freeze_notification: a freeze created active announces the
   * freeze, an existing freeze saved inactive announces the restore, and
   * any other save sends nothing.
   */
  function FreezeMailKind(created: bool, active: bool): (r: Option<FreezeMail>)
    ensures r == Some(FrozenMail) <==> created && active
    ensures r == Some(RestoredMail) <==> !created && !active
    ensures r.None? <==> created != active
  {
    if created && active then Some(FrozenMail)
    else if !active && !created then Some(RestoredMail)
    else None
  }
}

=== FILE: store.dfy ===
/**
 * The database the views work on. Each table is a field of `Bank`; rows are
 * values, so a view that loads a row holds a snapshot of it, and `save()`
 * writes the whole snapshot back, as Django does.
 */
module Store {
  import opened Wrappers
  import opened Models

  class Bank {
    /** account.Account, keyed by account number. */
    var accounts: map<AccountNo, AccountRow>
    /** `user.account`: the account each user owns. */
    var accountOf: map<UserId, AccountNo>
    /** `user.kyc.full_name` of the users who have a KYC record. */
    var kycNames: map<UserId, string>
    /** The remaining tables, in primary-key order. */
    var transfers: seq<TransferRow>
    var deposits: seq<DepositRow>
    var withdrawals: seq<WithdrawalRow>
    var requests: seq<RequestRow>
    var cards: seq<CreditCard>
    var notifications: seq<Notification>
    var beneficiaries: seq<Beneficiary>
    var freezes: seq<FreezeRecord>
    /** Number of notifications ever created; the next one's nid is `NidFor(issued)`. */
    var issued: nat

    /** Every user's account exists. */
    ghost predicate Valid()
      reads this
    {
      forall u :: u in accountOf ==> accountOf[u] in accounts
    }

    constructor ()
      ensures Valid()
      ensures accounts == map[] && accountOf == map[] && kycNames == map[]
      ensures transfers == [] && deposits == [] && withdrawals == [] && requests == []
      ensures cards == [] && notifications == [] && beneficiaries == [] && freezes == []
      ensures issued == 0
    {
      accounts, accountOf, kycNames := map[], map[], map[];
      transfers, deposits, withdrawals, requests := [], [], [], [];
      cards, notifications, beneficiaries, freezes := [], [], [], [];
      issued := 0;
    }
  }

  /**
   * The Notification row created as the k-th one: unread, for `user`, with
   * the amount stored by an IntegerField (0 when none is given).
   */
  function Note(user: Option<UserId>, kind: string, cents: int, txId: Option<TxId>, k: nat): Notification {
    Notification(user, kind, WholeUnits(cents), false, NidFor(k), txId)
  }

  /** `Notification.objects.create(...)`. */
  method Notify(b: Bank, user: Option<UserId>, kind: string, cents: int, txId: Option<TxId>)
    modifies b`notifications, b`issued
    ensures b.notifications == old(b.notifications) + [Note(user, kind, cents, txId, old(b.issued))]
    ensures b.issued == old(b.issued) + 1
  {
    b.notifications := b.notifications + [Note(user, kind, cents, txId, b.issued)];
    b.issued := b.issued + 1;
  }

  /** The counter and lockout cleared, as after a correct PIN or an expired lockout. */
  function PinReset(r: AccountRow): AccountRow {
    r.(failedPinAttempts := 0, pinLockoutUntil := None)
  }

  function Credited(r: AccountRow, cents: int): AccountRow {
    r.(balance := r.balance + cents)
  }

  function Debited(r: AccountRow, cents: int): AccountRow {
    r.(balance := r.balance - cents)
  }

  /** The user's account number, when the user has an account. */
  function AccountNoOf(accountOf: map<UserId, AccountNo>, user: UserId): Option<AccountNo> {
    if user in accountOf then Some(accountOf[user]) else None
  }

  /** Row lookups by transaction id; the id fields are unique, so the first match is the row. */
  function FindTransfer(ts: seq<TransferRow>, id: TxId): (r: Option<nat>)
    ensures r.Some? ==> r.value < |ts| && ts[r.value].id == id
    ensures r.None? <==> forall j :: 0 <= j < |ts| ==> ts[j].id != id
  {
    IndexWhere(ts, (t: TransferRow) => t.id == id)
  }

  function FindDeposit(ds: seq<DepositRow>, id: TxId): (r: Option<nat>)
    ensures r.Some? ==> r.value < |ds| && ds[r.value].id == id
    ensures r.None? <==> forall j :: 0 <= j < |ds| ==> ds[j].id != id
  {
    IndexWhere(ds, (d: DepositRow) => d.id == id)
  }

  function FindWithdrawal(ws: seq<WithdrawalRow>, id: TxId): (r: Option<nat>)
    ensures r.Some? ==> r.value < |ws| && ws[r.value].id == id
    ensures r.None? <==> forall j :: 0 <= j < |ws| ==> ws[j].id != id
  {
    IndexWhere(ws, (w: WithdrawalRow) => w.id == id)
  }

  function FindRequest(rs: seq<RequestRow>, id: TxId): (r: Option<nat>)
    ensures r.Some? ==> r.value < |rs| && rs[r.value].id == id
    ensures r.None? <==> forall j :: 0 <= j < |rs| ==> rs[j].id != id
  {
    IndexWhere(rs, (q: RequestRow) => q.id == id)
  }
}

=== FILE: text.dfy ===
/**
 * Character and string operations of Python's `str` that the validators, the
 * model properties and the views rely on, restricted to the characters they
 * are given here: digits are ASCII digits, whitespace is the Latin-1 part of
 * `str.isspace`.
 */
module Text {
  import opened Wrappers

  predicate IsDigit(c: char) { '0' <= c <= '9' }

  /** `str.isdigit()`: at least one character, and all of them digits. */
  predicate IsDigitString(s: string) {
    |s| > 0 && forall i :: 0 <= i < |s| ==> IsDigit(s[i])
  }

  predicate AllDigits(s: string) {
    forall i :: 0 <= i < |s| ==> IsDigit(s[i])
  }

  function DigitValue(c: char): (d: nat)
    requires IsDigit(c)
    ensures d < 10
  {
    c as int - '0' as int
  }

  function DigitChar(d: nat): (c: char)
    requires d < 10
    ensures IsDigit(c) && DigitValue(c) == d
  {
    ('0' as int + d) as char
  }

  /** `s.startswith(prefix)`. */
  predicate StartsWith(s: string, prefix: string) {
    |prefix| <= |s| && s[..|prefix|] == prefix
  }

  /** `part in s`. */
  predicate Contains(s: string, part: string)
    decreases |s|
  {
    StartsWith(s, part) || (|s| > 0 && Contains(s[1..], part))
  }

  /** Whitespace as `str.isspace` sees it, up to U+00FF. */
  predicate IsSpace(c: char) {
    c == ' ' || c == '\t' || c == '\n' || c == '\r' || c == '\U{B}' || c == '\U{C}'
    || c == '\U{1C}' || c == '\U{1D}' || c == '\U{1E}' || c == '\U{1F}'
    || c == '\U{85}' || c == '\U{A0}'
  }

  function StripLeft(s: string): (r: string)
    ensures |r| <= |s| && r == s[|s| - |r|..]
    ensures r == [] || !IsSpace(r[0])
    ensures forall i :: 0 <= i < |s| - |r| ==> IsSpace(s[i])
    decreases |s|
  {
    if |s| > 0 && IsSpace(s[0]) then StripLeft(s[1..]) else s
  }

  function StripRight(s: string): (r: string)
    ensures |r| <= |s| && r == s[..|r|]
    ensures r == [] || !IsSpace(r[|r| - 1])
    ensures forall i :: |r| <= i < |s| ==> IsSpace(s[i])
    decreases |s|
  {
    if |s| > 0 && IsSpace(s[|s| - 1]) then StripRight(s[..|s| - 1]) else s
  }

  /** Number of whitespace characters `str.lstrip()` removes. */
  function LeadingSpaces(s: string): (n: nat)
    ensures n <= |s| && (forall j :: 0 <= j < n ==> IsSpace(s[j]))
    ensures n < |s| ==> !IsSpace(s[n])
  {
    |s| - |StripLeft(s)|
  }

  /**
   * `str.strip()`: the longest slice of `s` that neither starts nor ends with
   * whitespace, everything cut off being whitespace.
   */
  function Strip(s: string): (r: string)
    ensures LeadingSpaces(s) + |r| <= |s|
    ensures r == s[LeadingSpaces(s)..LeadingSpaces(s) + |r|]
    ensures forall j :: LeadingSpaces(s) + |r| <= j < |s| ==> IsSpace(s[j])
    ensures r == [] || (!IsSpace(r[0]) && !IsSpace(r[|r| - 1]))
  {
    var left := StripLeft(s);
    var r := StripRight(left);
    StripSlice(s, left, r);
    StripEnds(left, r);
    r
  }

  /** A prefix of a string that does not start with whitespace keeps that first character. */
  lemma StripEnds(left: string, r: string)
    requires left == [] || !IsSpace(left[0])
    requires |r| <= |left| && r == left[..|r|]
    requires r == [] || !IsSpace(r[|r| - 1])
    ensures r == [] || (!IsSpace(r[0]) && !IsSpace(r[|r| - 1]))
  {
    if r != [] {
      assert r[0] == left[0];
    }
  }

  /** What `strip` keeps is a slice of `s` starting after the leading whitespace, followed only by whitespace. */
  lemma StripSlice(s: string, left: string, r: string)
    requires left == StripLeft(s) && r == StripRight(left)
    ensures LeadingSpaces(s) + |r| <= |s|
    ensures r == s[LeadingSpaces(s)..LeadingSpaces(s) + |r|]
    ensures forall j :: LeadingSpaces(s) + |r| <= j < |s| ==> IsSpace(s[j])
  {
    PrefixOfSuffix(s, LeadingSpaces(s), left, r);
  }

  /** A prefix of a suffix of `s` is a slice of `s`, and trailing whitespace of the suffix is trailing whitespace of `s`. */
  lemma PrefixOfSuffix(s: string, i: nat, left: string, r: string)
    requires i <= |s| && left == s[i..] && |r| <= |left| && r == left[..|r|]
    requires forall k :: |r| <= k < |left| ==> IsSpace(left[k])
    ensures r == s[i..i + |r|]
    ensures forall j :: i + |r| <= j < |s| ==> IsSpace(s[j])
  {
    forall j | i + |r| <= j < |s|
      ensures IsSpace(s[j])
    {
      assert s[j] == left[j - i];
    }
  }

  /** A string that neither starts nor ends with whitespace is its own strip; in particular `strip` is idempotent. */
  lemma StripTrimmed(t: string)
    requires t == [] || (!IsSpace(t[0]) && !IsSpace(t[|t| - 1]))
    ensures Strip(t) == t
  {
    assert StripLeft(t) == t;
    assert StripRight(t) == t;
  }

  /** `s.strip().strip() == s.strip()`. */
  lemma StripTwice(s: string)
    ensures Strip(Strip(s)) == Strip(s)
  {
    StripTrimmed(Strip(s));
  }

  /** A string without whitespace is its own strip. */
  lemma StripNoSpace(s: string)
    requires forall i :: 0 <= i < |s| ==> !IsSpace(s[i])
    ensures Strip(s) == s
  {
  }

  /** `s.replace(c, '')`. */
  function RemoveAll(s: string, c: char): (r: string)
    ensures c !in r
    ensures forall x :: x != c ==> (x in r <==> x in s)
    ensures |r| <= |s|
  {
    if s == [] then []
    else (if s[0] == c then [] else [s[0]]) + RemoveAll(s[1..], c)
  }

  /** Decimal digits of a natural number, most significant first (`str(n)`). */
  function NatToDecimal(n: nat): (s: string)
    ensures IsDigitString(s)
    decreases n
  {
    if n < 10 then [DigitChar(n)] else NatToDecimal(n / 10) + [DigitChar(n % 10)]
  }

  /** The number a string of digits denotes. */
  function DecimalValue(s: string): nat
    requires AllDigits(s)
    decreases |s|
  {
    if s == [] then 0 else DecimalValue(s[..|s| - 1]) * 10 + DigitValue(s[|s| - 1])
  }

  lemma {:induction false} DecimalRoundTrip(n: nat)
    ensures DecimalValue(NatToDecimal(n)) == n
    decreases n
  {
    var s := NatToDecimal(n);
    if n >= 10 {
      DecimalRoundTrip(n / 10);
      assert s[..|s| - 1] == NatToDecimal(n / 10);
    }
  }

  /** A leading zero does not change the value of a digit string. */
  lemma {:induction false} LeadingZeroValue(s: string)
    requires AllDigits(s)
    ensures DecimalValue("0" + s) == DecimalValue(s)
    decreases |s|
  {
    if s != [] {
      assert ("0" + s)[..|"0" + s| - 1] == "0" + s[..|s| - 1];
      LeadingZeroValue(s[..|s| - 1]);
    }
  }

  /** `str(n)` for an int. */
  function IntToString(n: int): (s: string)
    ensures |s| > 0
  {
    if n < 0 then "-" + NatToDecimal(-n) else NatToDecimal(n)
  }

  /** What `int` accepts once the whitespace is stripped: digits, optionally after one sign. */
  predicate IsIntLiteral(t: string) {
    IsDigitString(t) || (|t| > 0 && (t[0] == '-' || t[0] == '+') && IsDigitString(t[1..]))
  }

  /** `int(s)` on text: surrounding whitespace, an optional sign, then ASCII digits. */
  function ParseInt(s: string): (r: Option<int>)
    ensures r.Some? <==> IsIntLiteral(Strip(s))
    ensures IsDigitString(Strip(s)) ==> r == Some(DecimalValue(Strip(s)))
    ensures var t := Strip(s);
            |t| > 0 && t[0] == '+' && IsDigitString(t[1..]) ==> r == Some(DecimalValue(t[1..]))
    ensures var t := Strip(s);
            |t| > 0 && t[0] == '-' && IsDigitString(t[1..]) ==> r == Some(-(DecimalValue(t[1..]) as int))
  {
    var t := Strip(s);
    if |t| > 0 && (t[0] == '-' || t[0] == '+') then
      var body := t[1..];
      if IsDigitString(body) then
        Some(if t[0] == '-' then -(DecimalValue(body) as int) else DecimalValue(body))
      else None
    else if IsDigitString(t) then Some(DecimalValue(t))
    else None
  }

  /** `int(str(n)) == n`. */
  lemma IntRoundTrip(n: int)
    ensures ParseInt(IntToString(n)) == Some(n)
  {
    var s := IntToString(n);
    StripNoSpace(s);
    if n < 0 {
      DecimalRoundTrip(-n);
      assert s[1..] == NatToDecimal(-n);
    } else {
      DecimalRoundTrip(n);
    }
  }

  /** Python's `a <= b` on strings: lexicographic by code point. */
  predicate LexLessEq(a: string, b: string)
    decreases |a|
  {
    if a == [] then true
    else if b == [] then false
    else if a[0] != b[0] then a[0] < b[0]
    else LexLessEq(a[1..], b[1..])
  }
}

=== FILE: transaction.dfy ===
/**
 * core/transaction.py: the combined transaction list (which rows a user
 * sees, the type, status and date filters, newest-first order and pages of
 * twenty) and the detail lookup across the four ledger tables.
 */
module Transactions {
  import opened Wrappers
  import opened Text
  import opened Models
  import opened Store

  /** One entry of the list: a row of one of the four ledger tables. */
  datatype Item =
    | TransferItem(transfer: TransferRow)
    | DepositItem(deposit: DepositRow)
    | WithdrawalItem(withdrawal: WithdrawalRow)
    | RequestItem(request: RequestRow)

  function DateOf(x: Item): int {
    match x
    case TransferItem(t) => t.date
    case DepositItem(d) => d.date
    case WithdrawalItem(w) => w.date
    case RequestItem(q) => q.date
  }

  function StatusOf(x: Item): Status {
    match x
    case TransferItem(t) => t.status
    case DepositItem(d) => d.status
    case WithdrawalItem(w) => w.status
    case RequestItem(q) => q.status
  }

  function IdOf(x: Item): TxId {
    match x
    case TransferItem(t) => t.id
    case DepositItem(d) => d.id
    case WithdrawalItem(w) => w.id
    case RequestItem(q) => q.id
  }

  /**
   * The `sender` of an entry: nobody for a deposit, the user who made it for
   * a transfer or a withdrawal, and the request's own sender field.
   */
  function SenderOf(x: Item): (r: Option<UserId>)
    ensures r.None? <==> x.DepositItem?
    ensures x.TransferItem? ==> r == Some(x.transfer.user)
    ensures x.WithdrawalItem? ==> r == Some(x.withdrawal.user)
    ensures x.RequestItem? ==> r == Some(x.request.sender)
  {
    match x
    case TransferItem(t) => Some(t.user)
    case DepositItem(_) => None
    case WithdrawalItem(w) => Some(w.user)
    case RequestItem(q) => Some(q.sender)
  }

  /** The query string of the list page; a parameter that is absent is None. */
  datatype Query = Query(kind: Option<string>, status: Option<string>,
                         dateFrom: Option<string>, dateTo: Option<string>, page: Option<string>)

  /** A Python string is truthy when it is present and not empty. */
  predicate Given(p: Option<string>) {
    p.Some? && p.value != ""
  }

  /**
   * Which rows a user sees: transfers they sent or receive, their own
   * deposits and withdrawals, and payment requests they send or receive.
   */
  predicate Visible(x: Item, ts: seq<TransferRow>, ds: seq<DepositRow>, ws: seq<WithdrawalRow>,
                    rs: seq<RequestRow>, user: UserId)
  {
    match x
    case TransferItem(t) => t in ts && (t.user == user || t.receiver == Some(user))
    case DepositItem(d) => d in ds && d.user == user
    case WithdrawalItem(w) => w in ws && w.user == user
    case RequestItem(q) => q in rs && (q.sender == user || q.receiver == user)
  }

  /** The `type` parameter: one named kind, or every kind for anything else. */
  predicate TypeSelects(kind: Option<string>, x: Item) {
    if kind == Some("transfer") then x.TransferItem?
    else if kind == Some("deposit") then x.DepositItem?
    else if kind == Some("withdraw") || kind == Some("withdrawal") then x.WithdrawalItem?
    else if kind == Some("request") then x.RequestItem?
    else true
  }

  function UserTransfers(ts: seq<TransferRow>, user: UserId): (r: seq<Item>)
    ensures forall x :: x in r <==> (x.TransferItem? && x.transfer in ts
                                     && (x.transfer.user == user || x.transfer.receiver == Some(user)))
  {
    if ts == [] then []
    else (if ts[0].user == user || ts[0].receiver == Some(user) then [TransferItem(ts[0])] else [])
         + UserTransfers(ts[1..], user)
  }

  function UserDeposits(ds: seq<DepositRow>, user: UserId): (r: seq<Item>)
    ensures forall x :: x in r <==> x.DepositItem? && x.deposit in ds && x.deposit.user == user
  {
    if ds == [] then []
    else (if ds[0].user == user then [DepositItem(ds[0])] else []) + UserDeposits(ds[1..], user)
  }

  function UserWithdrawals(ws: seq<WithdrawalRow>, user: UserId): (r: seq<Item>)
    ensures forall x :: x in r <==> x.WithdrawalItem? && x.withdrawal in ws && x.withdrawal.user == user
  {
    if ws == [] then []
    else (if ws[0].user == user then [WithdrawalItem(ws[0])] else []) + UserWithdrawals(ws[1..], user)
  }

  function UserRequests(rs: seq<RequestRow>, user: UserId): (r: seq<Item>)
    ensures forall x :: x in r <==> (x.RequestItem? && x.request in rs
                                     && (x.request.sender == user || x.request.receiver == user))
  {
    if rs == [] then []
    else (if rs[0].sender == user || rs[0].receiver == user then [RequestItem(rs[0])] else [])
         + UserRequests(rs[1..], user)
  }

  /**
   * An entry the user sees but did not send is a deposit of theirs, or a
   * transfer or payment request they receive; withdrawals are always sent by
   * the user who sees them.
   */
  lemma VisibleNotSent(x: Item, ts: seq<TransferRow>, ds: seq<DepositRow>, ws: seq<WithdrawalRow>,
                       rs: seq<RequestRow>, user: UserId)
    requires Visible(x, ts, ds, ws, rs, user) && SenderOf(x) != Some(user)
    ensures x.DepositItem? || (x.TransferItem? && x.transfer.receiver == Some(user))
            || (x.RequestItem? && x.request.receiver == user)
    ensures x.WithdrawalItem? ==> false
  {
  }

  /** The list before sorting: the selected kind's rows, or all four chained. */
  function Selected(ts: seq<TransferRow>, ds: seq<DepositRow>, ws: seq<WithdrawalRow>,
                    rs: seq<RequestRow>, user: UserId, kind: Option<string>): (r: seq<Item>)
    ensures forall x :: x in r <==> Visible(x, ts, ds, ws, rs, user) && TypeSelects(kind, x)
  {
    var t := UserTransfers(ts, user);
    var d := UserDeposits(ds, user);
    var w := UserWithdrawals(ws, user);
    var q := UserRequests(rs, user);
    if kind == Some("transfer") then t
    else if kind == Some("deposit") then d
    else if kind == Some("withdraw") || kind == Some("withdrawal") then w
    else if kind == Some("request") then q
    else t + d + w + q
  }

  /** Newest first: dates never increase along the list. */
  predicate NewestFirst(s: seq<Item>) {
    forall i, j :: 0 <= i < j < |s| ==> DateOf(s[i]) >= DateOf(s[j])
  }

  /** Places `x` before the first entry not newer than it, so among equal dates `x` comes first. */
  function Insert(x: Item, s: seq<Item>): (r: seq<Item>)
    ensures multiset(r) == multiset(s) + multiset{x}
  {
    if s == [] || DateOf(s[0]) <= DateOf(x) then [x] + s
    else
      assert s == [s[0]] + s[1..];
      [s[0]] + Insert(x, s[1..])
  }

  /** The entries after an insertion are the inserted one and the old ones. */
  lemma InsertMembers(x: Item, s: seq<Item>)
    ensures forall y :: y in Insert(x, s) <==> y == x || y in s
  {
    var r := Insert(x, s);
    assert forall y :: y in r <==> y in multiset(r);
    assert forall y :: y in s <==> y in multiset(s);
  }

  /** In a newest-first list no later entry is newer than the first. */
  lemma HeadIsNewest(s: seq<Item>)
    requires NewestFirst(s) && s != []
    ensures forall y :: y in s[1..] ==> DateOf(y) <= DateOf(s[0])
  {
    forall y | y in s[1..] ensures DateOf(y) <= DateOf(s[0]) {
      var m :| 0 <= m < |s[1..]| && s[1..][m] == y;
      assert s[m + 1] == y;
    }
  }

  /** Inserting into a newest-first list keeps it newest first. */
  lemma {:induction false} InsertNewestFirst(x: Item, s: seq<Item>)
    requires NewestFirst(s)
    ensures NewestFirst(Insert(x, s))
  {
    if s == [] || DateOf(s[0]) <= DateOf(x) {
    } else {
      var rest := Insert(x, s[1..]);
      assert NewestFirst(s[1..]);
      InsertNewestFirst(x, s[1..]);
      InsertMembers(x, s[1..]);
      HeadIsNewest(s);
      var r := [s[0]] + rest;
      assert r == Insert(x, s);
      forall i, j | 0 <= i < j < |r| ensures DateOf(r[i]) >= DateOf(r[j]) {
        if i == 0 {
          assert r[j] == rest[j - 1];
          assert r[j] in rest;
        } else {
          assert r[i] == rest[i - 1] && r[j] == rest[j - 1];
        }
      }
    }
  }

  /**
   * `transactions.sort(key=date, reverse=True)`: Python's sort is stable, so
   * entries with equal dates keep their order; each entry is inserted ahead
   * of the equal-dated entries that follow it.
   */
  function SortNewestFirst(s: seq<Item>): (r: seq<Item>)
    ensures NewestFirst(r)
    ensures multiset(r) == multiset(s)
  {
    if s == [] then []
    else
      assert s == [s[0]] + s[1..];
      var rest := SortNewestFirst(s[1..]);
      InsertNewestFirst(s[0], rest);
      Insert(s[0], rest)
  }

  /** A list comprehension with a condition: the kept entries, in order. */
  function Keep(s: seq<Item>, keep: Item -> bool): (r: seq<Item>)
    ensures |r| <= |s|
    ensures forall x :: x in r <==> x in s && keep(x)
  {
    if s == [] then []
    else (if keep(s[0]) then [s[0]] else []) + Keep(s[1..], keep)
  }

  /** Filtering never disturbs newest-first order. */
  lemma {:induction false} KeepNewestFirst(s: seq<Item>, keep: Item -> bool)
    requires NewestFirst(s)
    ensures NewestFirst(Keep(s, keep))
  {
    if s != [] {
      var rest := Keep(s[1..], keep);
      assert NewestFirst(s[1..]);
      KeepNewestFirst(s[1..], keep);
      forall y | y in rest ensures DateOf(y) <= DateOf(s[0]) {
        var j :| 0 <= j < |s[1..]| && s[1..][j] == y;
        assert s[j + 1] == y;
      }
    }
  }

  /** The status filter: applied unless the parameter is absent, empty or "all". */
  predicate StatusPasses(status: Option<string>, x: Item) {
    !Given(status) || status == Some("all") || StatusCode(StatusOf(x)) == status.value
  }

  /** `date_from`: the entry's "YYYY-MM-DD" date is at or after the bound, compared as strings. */
  predicate FromPasses(dateFrom: Option<string>, x: Item) {
    !Given(dateFrom) || LexLessEq(dateFrom.value, IsoDate(DateOf(x)))
  }

  /** `date_to`: the entry's date string is at or before the bound. */
  predicate ToPasses(dateTo: Option<string>, x: Item) {
    !Given(dateTo) || LexLessEq(IsoDate(DateOf(x)), dateTo.value)
  }

  /** The whole filtered list of transaction_list, before it is cut into pages. */
  function Matching(ts: seq<TransferRow>, ds: seq<DepositRow>, ws: seq<WithdrawalRow>,
                    rs: seq<RequestRow>, user: UserId, q: Query): (r: seq<Item>)
    ensures NewestFirst(r)
    ensures forall x :: x in r <==>
              && Visible(x, ts, ds, ws, rs, user) && TypeSelects(q.kind, x)
              && StatusPasses(q.status, x) && FromPasses(q.dateFrom, x) && ToPasses(q.dateTo, x)
  {
    var sel := Selected(ts, ds, ws, rs, user, q.kind);
    var sorted := SortNewestFirst(sel);
    assert forall x :: x in sorted <==> x in sel by {
      forall x ensures x in sorted <==> x in sel {
        assert x in sorted <==> x in multiset(sorted);
      }
    }
    var byStatus := Keep(sorted, x => StatusPasses(q.status, x));
    var byFrom := Keep(byStatus, x => FromPasses(q.dateFrom, x));
    var byTo := Keep(byFrom, x => ToPasses(q.dateTo, x));
    KeepNewestFirst(sorted, x => StatusPasses(q.status, x));
    KeepNewestFirst(byStatus, x => FromPasses(q.dateFrom, x));
    KeepNewestFirst(byFrom, x => ToPasses(q.dateTo, x));
    byTo
  }

  /** `Paginator(items, 20).num_pages`: at least one page, even when the list is empty. */
  function PageCount(n: nat): (pages: nat)
    ensures pages >= 1
    ensures (pages - 1) * 20 < n || (n == 0 && pages == 1)
    ensures n <= pages * 20
  {
    if n == 0 then 1 else (n + 19) / 20
  }

  datatype Page = Page(items: seq<Item>, number: nat, pages: nat)

  /** Entries (number - 1) * 20 up to number * 20, or to the end of the list. */
  function PageSlice(s: seq<Item>, number: nat): (items: seq<Item>)
    requires 1 <= number && (number - 1) * 20 <= |s|
    ensures |items| <= 20 && (number - 1) * 20 + |items| <= |s|
    ensures items == s[(number - 1) * 20 .. (number - 1) * 20 + |items|]
    ensures |items| == 20 || (number - 1) * 20 + |items| == |s|
  {
    var bottom := (number - 1) * 20;
    if bottom + 20 >= |s| then s[bottom..] else s[bottom..bottom + 20]
  }

  /** `validate_number` inside `get_page`: not an integer gives 1, out of range gives the last page. */
  function PageNumber(page: Option<string>, pages: nat): (number: nat)
    requires pages >= 1
    ensures 1 <= number <= pages
    ensures page.None? || ParseInt(page.value).None? ==> number == 1
    ensures page.Some? && ParseInt(page.value).Some? ==>
              var n := ParseInt(page.value).value;
              number == (if 1 <= n <= pages then n else pages)
  {
    var n := if page.Some? then ParseInt(page.value) else None;
    if n.None? then 1 else if 1 <= n.value <= pages then n.value else pages
  }

  /**
   * `paginator.get_page(page)` with 20 entries a page: the page holds
   * entries (number - 1) * 20 up to number * 20; every page but the last is
   * full and the last one reaches the end of the list.
   */
  function GetPage(s: seq<Item>, page: Option<string>): (p: Page)
    ensures p.pages == PageCount(|s|) && p.number == PageNumber(page, p.pages)
    ensures |p.items| <= 20 && (p.number - 1) * 20 + |p.items| <= |s|
    ensures p.items == s[(p.number - 1) * 20 .. (p.number - 1) * 20 + |p.items|]
    ensures p.number < p.pages ==> |p.items| == 20
    ensures p.number == p.pages ==> (p.number - 1) * 20 + |p.items| == |s|
  {
    var pages := PageCount(|s|);
    var number := PageNumber(page, pages);
    assert (number - 1) * 20 <= (pages - 1) * 20;
    var items := PageSlice(s, number);
    assert number < pages ==> number * 20 < |s|;
    Page(items, number, pages)
  }

  /** Entry 20 * q + r of the list is entry r of page q + 1, whatever text asks for that page. */
  lemma EntryOnPage(s: seq<Item>, q: nat, r: nat, page: string)
    requires r < 20 && 20 * q + r < |s| && ParseInt(page) == Some(q + 1)
    ensures var p := GetPage(s, Some(page));
            p.number == q + 1 && r < |p.items| && p.items[r] == s[20 * q + r]
  {
    var pages := PageCount(|s|);
    assert q < pages by {
      assert |s| <= pages * 20;
    }
    var p := GetPage(s, Some(page));
    assert (p.number - 1) * 20 == 20 * q;
  }

  /** Every entry of the filtered list is on the page its position gives, at the place its position gives. */
  lemma EveryEntryHasAPage(s: seq<Item>, i: nat, page: string)
    requires i < |s| && ParseInt(page) == Some(i / 20 + 1)
    ensures var p := GetPage(s, Some(page));
            p.number == i / 20 + 1 && i % 20 < |p.items| && p.items[i % 20] == s[i]
  {
    assert i == 20 * (i / 20) + i % 20;
    EntryOnPage(s, i / 20, i % 20, page);
  }

  /** A stretch of a list holds entries of the list, in the list's order. */
  lemma SliceOfList(s: seq<Item>, lo: nat, hi: nat)
    requires lo <= hi <= |s|
    ensures forall x :: x in s[lo..hi] ==> x in s
    ensures NewestFirst(s) ==> NewestFirst(s[lo..hi])
  {
    var t := s[lo..hi];
    assert forall j :: 0 <= j < |t| ==> t[j] == s[lo + j];
    forall x | x in t ensures x in s {
      var j :| 0 <= j < |t| && t[j] == x;
      assert s[lo + j] == x;
    }
  }

  /** A page is a stretch of the list: its entries come from the list, in the list's order. */
  lemma PageOfList(s: seq<Item>, page: Option<string>)
    ensures forall x :: x in GetPage(s, page).items ==> x in s
    ensures NewestFirst(s) ==> NewestFirst(GetPage(s, page).items)
  {
    var p := GetPage(s, page);
    var lo := (p.number - 1) * 20;
    SliceOfList(s, lo, lo + |p.items|);
  }

  /** transaction_list: the requested page of the user's filtered, newest-first transactions. */
  function TransactionList(ts: seq<TransferRow>, ds: seq<DepositRow>, ws: seq<WithdrawalRow>,
                           rs: seq<RequestRow>, user: UserId, q: Query): (p: Page)
    ensures |p.items| <= 20 && 1 <= p.number <= p.pages
    ensures p.pages == PageCount(|Matching(ts, ds, ws, rs, user, q)|)
    ensures NewestFirst(p.items)
    ensures forall x :: x in p.items ==>
              && Visible(x, ts, ds, ws, rs, user) && TypeSelects(q.kind, x)
              && StatusPasses(q.status, x) && FromPasses(q.dateFrom, x) && ToPasses(q.dateTo, x)
  {
    var all := Matching(ts, ds, ws, rs, user, q);
    PageOfList(all, q.page);
    GetPage(all, q.page)
  }

  /**
   * Nothing that passes the filters is lost: the entry at position `i` of the
   * filtered list is shown, at place i % 20, when page i / 20 + 1 is asked for.
   */
  lemma EveryMatchIsListed(ts: seq<TransferRow>, ds: seq<DepositRow>, ws: seq<WithdrawalRow>,
                           rs: seq<RequestRow>, user: UserId, q: Query, i: nat)
    requires i < |Matching(ts, ds, ws, rs, user, q)|
    requires q.page.Some? && ParseInt(q.page.value) == Some(i / 20 + 1)
    ensures var p := TransactionList(ts, ds, ws, rs, user, q);
            p.number == i / 20 + 1 && i % 20 < |p.items| && p.items[i % 20] == Matching(ts, ds, ws, rs, user, q)[i]
  {
    EveryEntryHasAPage(Matching(ts, ds, ws, rs, user, q), i, q.page.value);
  }

  /**
   * transaction_detail: the row with that transaction id, looked up in
   * transfers, then deposits, then withdrawals, then payment requests,
   * whoever owns it; None when no table has it.
   */
  function Detail(ts: seq<TransferRow>, ds: seq<DepositRow>, ws: seq<WithdrawalRow>,
                  rs: seq<RequestRow>, id: TxId): (r: Option<Item>)
    ensures r.Some? ==> IdOf(r.value) == id
    ensures r.Some? && r.value.TransferItem? <==> exists t :: t in ts && t.id == id
    ensures r.Some? && r.value.TransferItem? ==> r.value.transfer in ts
    ensures r.Some? && r.value.DepositItem? <==>
              (forall t :: t in ts ==> t.id != id) && exists d :: d in ds && d.id == id
    ensures r.Some? && r.value.DepositItem? ==> r.value.deposit in ds
    ensures r.Some? && r.value.WithdrawalItem? <==>
              (forall t :: t in ts ==> t.id != id) && (forall d :: d in ds ==> d.id != id)
              && exists w :: w in ws && w.id == id
    ensures r.Some? && r.value.WithdrawalItem? ==> r.value.withdrawal in ws
    ensures r.Some? && r.value.RequestItem? ==> r.value.request in rs
    ensures r.None? <==>
              (forall t :: t in ts ==> t.id != id) && (forall d :: d in ds ==> d.id != id)
              && (forall w :: w in ws ==> w.id != id) && (forall q :: q in rs ==> q.id != id)
  {
    var t := FindTransfer(ts, id);
    if t.Some? then Some(TransferItem(ts[t.value]))
    else
      var d := FindDeposit(ds, id);
      if d.Some? then Some(DepositItem(ds[d.value]))
      else
        var w := FindWithdrawal(ws, id);
        if w.Some? then Some(WithdrawalItem(ws[w.value]))
        else
          var q := FindRequest(rs, id);
          if q.Some? then Some(RequestItem(rs[q.value])) else None
  }
}

=== FILE: transfer.dfy ===
/**
 * core/transfer.py: creating a transfer (AmountTranfareProcess) and
 * authorising it with the PIN (TransfarProcess), with the per-account
 * counter of failed PIN attempts and the 30-minute lockout.
 */
module Transfers {
  import opened Wrappers
  import opened Models
  import opened Store
  import opened Freeze
  import opened Signals

  const MaxPinAttempts := 5
  const LockoutSeconds := 30 * 60

  // ------------------------------------------------------------- creation

  datatype CreateOutcome =
    | Created(id: TxId)
    | ReceiverWithoutKyc   // the receiver's `kyc` relation raises
    | NoAccount            // `request.user.account` raises
    | NotPost
    | SenderFrozen
    | ReceiverFrozen
    | InsufficientFunds

  predicate HasBeneficiary(bs: seq<Beneficiary>, user: UserId, accountNumber: AccountNo) {
    exists i :: 0 <= i < |bs| && bs[i].user == user && bs[i].accountNumber == accountNumber
  }

  /** No user has two beneficiaries with the same account number. */
  predicate NoDuplicateBeneficiaries(bs: seq<Beneficiary>) {
    forall i, j :: 0 <= i < j < |bs| ==> !(bs[i].user == bs[j].user && bs[i].accountNumber == bs[j].accountNumber)
  }

  predicate TransferIdFree(ts: seq<TransferRow>, id: TxId) {
    forall j :: 0 <= j < |ts| ==> ts[j].id != id
  }

  /** The transfer row AmountTranfareProcess creates. */
  function NewTransfer(id: TxId, user: UserId, senderNo: AccountNo, accountNumber: AccountNo,
                       receiver: Option<AccountRow>, name: string, bank: string,
                       amount: int, description: string, now: int): TransferRow
  {
    TransferRow(id, user, senderNo,
                if receiver.Some? then Some(receiver.value.owner) else None,
                if receiver.Some? then Some(accountNumber) else None,
                name, accountNumber, bank, amount, description, Processing, now,
                if receiver.Some? then Internal else External)
  }

  /**
   * AmountTranfareProcess. An account number that names an account makes an
   * internal transfer to its owner under the owner's KYC name and bank
   * "Paylio"; any other makes an external transfer under the posted name and
   * bank. A frozen sender, a frozen internal receiver or a balance below the
   * amount creates nothing; otherwise one `processing` transfer is created,
   * and, when asked, a beneficiary unless the user already has one for that
   * account number. No balance changes.
   */
  method CreateTransfer(b: Bank, user: UserId, accountNumber: AccountNo, isPost: bool,
                        amount: int, description: string, postedName: string, postedBank: string,
                        saveBeneficiary: bool, suffix: string, now: int)
    returns (outcome: CreateOutcome)
    requires b.Valid()
    requires TransferIdFree(b.transfers, MakeTransactionId(TransferKind, suffix))
    modifies b`transfers, b`beneficiaries
    ensures b.Valid()
    ensures var receiver := if accountNumber in b.accounts then Some(b.accounts[accountNumber]) else None;
            var senderNo := AccountNoOf(b.accountOf, user);
            && (outcome == ReceiverWithoutKyc <==> receiver.Some? && receiver.value.owner !in b.kycNames)
            && (outcome == NoAccount <==> !(receiver.Some? && receiver.value.owner !in b.kycNames) && senderNo.None?)
            && (outcome == NotPost <==>
                  (receiver.Some? ==> receiver.value.owner in b.kycNames) && senderNo.Some? && !isPost)
            && (outcome.Created? <==>
                  && isPost && senderNo.Some? && (receiver.Some? ==> receiver.value.owner in b.kycNames)
                  && !IsAccountFrozen(b.freezes, senderNo).0
                  && !(receiver.Some? && IsAccountFrozen(b.freezes, Some(accountNumber)).0)
                  && b.accounts[senderNo.value].balance >= amount)
            && (isPost && senderNo.Some? && (receiver.Some? ==> receiver.value.owner in b.kycNames) ==>
                  (outcome == SenderFrozen <==> IsAccountFrozen(b.freezes, senderNo).0)
                  && (outcome == ReceiverFrozen <==>
                        (!IsAccountFrozen(b.freezes, senderNo).0
                         && receiver.Some? && IsAccountFrozen(b.freezes, Some(accountNumber)).0))
                  && (outcome == InsufficientFunds <==>
                        (!IsAccountFrozen(b.freezes, senderNo).0
                         && !(receiver.Some? && IsAccountFrozen(b.freezes, Some(accountNumber)).0)
                         && b.accounts[senderNo.value].balance < amount)))
    ensures outcome.Created? ==>
              var receiver := if accountNumber in b.accounts then Some(b.accounts[accountNumber]) else None;
              var name := if receiver.Some? then b.kycNames[receiver.value.owner] else postedName;
              var bank := if receiver.Some? then "Paylio" else postedBank;
              && outcome.id == MakeTransactionId(TransferKind, suffix)
              && b.transfers == old(b.transfers)
                   + [NewTransfer(outcome.id, user, b.accountOf[user], accountNumber, receiver,
                                  name, bank, amount, description, now)]
              && b.beneficiaries == old(b.beneficiaries)
                   + (if saveBeneficiary && !HasBeneficiary(old(b.beneficiaries), user, accountNumber)
                      then [Beneficiary(user, if receiver.Some? then Some(accountNumber) else None,
                                        name, accountNumber, bank, None, true)]
                      else [])
    ensures !outcome.Created? ==> b.transfers == old(b.transfers) && b.beneficiaries == old(b.beneficiaries)
    ensures NoDuplicateBeneficiaries(old(b.beneficiaries)) ==> NoDuplicateBeneficiaries(b.beneficiaries)
  {
    var receiver: Option<AccountRow> := None;
    var name := postedName;
    var bank := postedBank;
    if accountNumber in b.accounts {
      receiver := Some(b.accounts[accountNumber]);
      if receiver.value.owner !in b.kycNames {
        return ReceiverWithoutKyc;
      }
      name := b.kycNames[receiver.value.owner];
      bank := "Paylio";
    }
    if user !in b.accountOf {
      return NoAccount;
    }
    var senderNo := b.accountOf[user];
    var sender := b.accounts[senderNo];
    if !isPost {
      return NotPost;
    }
    var (senderFrozen, _) := IsAccountFrozen(b.freezes, Some(senderNo));
    if senderFrozen {
      return SenderFrozen;
    }
    if receiver.Some? {
      var (receiverFrozen, _) := IsAccountFrozen(b.freezes, Some(accountNumber));
      if receiverFrozen {
        return ReceiverFrozen;
      }
    }
    if sender.balance < amount {
      return InsufficientFunds;
    }
    var id := MakeTransactionId(TransferKind, suffix);
    InsertTransfer(b, NewTransfer(id, user, senderNo, accountNumber, receiver, name, bank, amount, description, now));
    if saveBeneficiary && !HasBeneficiary(b.beneficiaries, user, accountNumber) {
      var saved := Beneficiary(user, if receiver.Some? then Some(accountNumber) else None,
                               name, accountNumber, bank, None, true);
      b.beneficiaries := b.beneficiaries + [saved];
    }
    return Created(id);
  }

  // -------------------------------------------------- PIN and lockout rules

  /** The lockout check at the top of TransfarProcess: an expired lockout clears the counter. */
  function AfterLockoutCheck(s: AccountRow, now: int): AccountRow {
    if s.pinLockoutUntil.Some? && now >= s.pinLockoutUntil.value then PinReset(s) else s
  }

  predicate LockedAt(s: AccountRow, now: int) {
    s.pinLockoutUntil.Some? && now < s.pinLockoutUntil.value
  }

  /** A wrong PIN: one more failure, and from the fifth on, a lockout of 30 minutes from now. */
  function AfterWrongPin(s: AccountRow, now: int): AccountRow {
    var n := s.failedPinAttempts + 1;
    s.(failedPinAttempts := n, pinLockoutUntil := if n >= MaxPinAttempts then Some(now + LockoutSeconds) else s.pinLockoutUntil)
  }

  datatype PinResult = Locked | Accepted | Rejected(lockedNow: bool, remaining: int)

  /**
   * The PIN gate of a posted TransfarProcess on the sender's row: the new
   * row and what the user is told.
   */
  function PinGate(s: AccountRow, now: int, pin: Option<string>): (r: (PinResult, AccountRow))
    ensures LockedAt(s, now) ==> r == (Locked, s)
    ensures !LockedAt(s, now) && pin == Some(s.pin) ==> r == (Accepted, PinReset(s))
    ensures !LockedAt(s, now) && pin != Some(s.pin) ==>
              var n := AfterLockoutCheck(s, now).failedPinAttempts + 1;
              && r.1.failedPinAttempts == n
              && r.1.balance == s.balance && r.1.pin == s.pin
              && (n >= MaxPinAttempts ==> r.0 == Rejected(true, 0) && r.1.pinLockoutUntil == Some(now + LockoutSeconds))
              && (n < MaxPinAttempts ==> r.0 == Rejected(false, MaxPinAttempts - n) && !LockedAt(r.1, now))
  {
    if LockedAt(s, now) then (Locked, s)
    else
      var s1 := AfterLockoutCheck(s, now);
      if pin == Some(s1.pin) then (Accepted, PinReset(s1))
      else
        var s2 := AfterWrongPin(s1, now);
        (if s2.failedPinAttempts >= MaxPinAttempts then Rejected(true, 0)
         else Rejected(false, MaxPinAttempts - s2.failedPinAttempts), s2)
  }

  /** `k` wrong PINs in a row at the same moment. */
  function WrongPins(s: AccountRow, now: int, pin: Option<string>, k: nat): AccountRow
    decreases k
  {
    if k == 0 then s else PinGate(WrongPins(s, now, pin, k - 1), now, pin).1
  }

  /**
   * From a clear counter, four wrong PINs leave the account unlocked with
   * one attempt to go, the fifth locks it for 30 minutes, and while locked
   * even the right PIN is refused without any change.
   */
  lemma {:induction false} FiveStrikes(s: AccountRow, now: int, pin: Option<string>, k: nat)
    requires s.failedPinAttempts == 0 && s.pinLockoutUntil.None? && pin != Some(s.pin)
    requires k <= MaxPinAttempts
    ensures var w := WrongPins(s, now, pin, k);
            && w.failedPinAttempts == k && w.pin == s.pin && w.balance == s.balance
            && (k < MaxPinAttempts ==> w.pinLockoutUntil.None?)
            && (k == MaxPinAttempts ==>
                  (w.pinLockoutUntil == Some(now + LockoutSeconds) && PinGate(w, now, Some(s.pin)) == (Locked, w)))
    decreases k
  {
    if k > 0 {
      FiveStrikes(s, now, pin, k - 1);
    }
  }

  /** Once the lockout has expired the counter starts again from zero. */
  lemma LockoutExpires(s: AccountRow, now: int, pin: Option<string>)
    requires s.pinLockoutUntil.Some? && now >= s.pinLockoutUntil.value && pin != Some(s.pin)
    ensures PinGate(s, now, pin).1.failedPinAttempts == 1
    ensures PinGate(s, now, Some(s.pin)) == (Accepted, PinReset(s))
  {
  }

  // ---------------------------------------------------------- settlement

  /** The status a correct PIN gives: `pending` for external transfers, `completed` for internal ones. */
  function SettledStatus(t: TransferRow): Status {
    if t.transferType == External then Pending else Completed
  }

  /**
   * The accounts after a correct PIN: the sender's row, counter cleared and
   * debited, is written; then the receiver's row as loaded before any write,
   * credited, is written over it.
   */
  function SettledAccounts(accounts: map<AccountNo, AccountRow>, senderNo: AccountNo, receiverNo: AccountNo, amount: int): map<AccountNo, AccountRow>
    requires senderNo in accounts
  {
    var a := accounts[senderNo := Debited(PinReset(accounts[senderNo]), amount)];
    if receiverNo in accounts then a[receiverNo := Credited(accounts[receiverNo], amount)] else a
  }

  /**
   * Between two different accounts the sender loses exactly the amount, the
   * receiver gains it, the sum of the two is kept, and nothing else changes;
   * with no account behind the number only the sender is debited.
   */
  lemma SettlementConserves(accounts: map<AccountNo, AccountRow>, senderNo: AccountNo, receiverNo: AccountNo, amount: int)
    requires senderNo in accounts && senderNo != receiverNo
    ensures var after := SettledAccounts(accounts, senderNo, receiverNo, amount);
            && after.Keys == accounts.Keys
            && after[senderNo].balance == accounts[senderNo].balance - amount
            && after[senderNo].failedPinAttempts == 0 && after[senderNo].pinLockoutUntil.None?
            && (receiverNo in accounts ==>
                  after[receiverNo].balance == accounts[receiverNo].balance + amount
                  && after[senderNo].balance + after[receiverNo].balance
                     == accounts[senderNo].balance + accounts[receiverNo].balance)
            && forall n :: n in accounts && n != senderNo && n != receiverNo ==> after[n] == accounts[n]
  {
  }

  /**
   * A transfer to the sender's own account number: the stale receiver row is
   * written last, so the account ends up credited with the amount and with
   * its PIN counters as they were loaded.
   */
  lemma SelfTransferCredits(accounts: map<AccountNo, AccountRow>, senderNo: AccountNo, amount: int)
    requires senderNo in accounts
    ensures SettledAccounts(accounts, senderNo, senderNo, amount)[senderNo] == Credited(accounts[senderNo], amount)
  {
  }

  /** There is no status guard: authorising the same transfer twice debits the sender twice. */
  lemma ReplayDebitsTwice(accounts: map<AccountNo, AccountRow>, senderNo: AccountNo, receiverNo: AccountNo, amount: int)
    requires senderNo in accounts && senderNo != receiverNo
    ensures var once := SettledAccounts(accounts, senderNo, receiverNo, amount);
            SettledAccounts(once, senderNo, receiverNo, amount)[senderNo].balance
            == accounts[senderNo].balance - 2 * amount
  {
  }

  /**
   * Failing a completed internal transfer undoes its settlement: the refund
   * reaction gives both balances back.
   */
  lemma RefundUndoesSettlement(accounts: map<AccountNo, AccountRow>, t: TransferRow, receiverNo: AccountNo)
    requires t.account in accounts && receiverNo in accounts && t.account != receiverNo
    requires t.transferType == Internal && t.receiverAccount == Some(receiverNo)
    ensures var settled := SettledAccounts(accounts, t.account, receiverNo, t.amount);
            var failed := t.(status := Failed);
            && RefundDefined(settled, Some(Completed), failed)
            && AfterRefund(settled, Some(Completed), failed)[t.account].balance == accounts[t.account].balance
            && AfterRefund(settled, Some(Completed), failed)[receiverNo].balance == accounts[receiverNo].balance
  {
  }

  /** The alerts of a settlement: a credit alert to the receiver's owner when there is one, then the sender's debit alert. */
  function SettleNotes(user: UserId, receiver: Option<AccountRow>, t: TransferRow, k: nat): seq<Notification> {
    if receiver.Some? then
      [Note(Some(receiver.value.owner), "Credit Alert", t.amount, Some(t.id), k),
       Note(Some(user), "Debit Alert", t.amount, Some(t.id), k + 1)]
    else
      [Note(Some(user), "Debit Alert", t.amount, Some(t.id), k)]
  }

  /**
   * The correct-PIN branch of TransfarProcess on the rows it loaded: the
   * sender row is reset and saved, the transfer saved with its new status,
   * the sender row debited and saved, the receiver row credited and saved,
   * and the alerts created.
   */
  method Settle(b: Bank, user: UserId, senderNo: AccountNo, sender: AccountRow,
                accountNumber: AccountNo, receiver: Option<AccountRow>, i: nat)
    requires b.Valid() && i < |b.transfers|
    modifies b`accounts, b`transfers, b`notifications, b`issued
    ensures b.Valid()
    ensures var t := old(b.transfers)[i];
            && b.accounts == (var a := old(b.accounts)[senderNo := Debited(PinReset(sender), t.amount)];
                              if receiver.Some? then a[accountNumber := Credited(receiver.value, t.amount)] else a)
            && b.transfers == old(b.transfers)[i := t.(status := SettledStatus(t))]
            && b.notifications == old(b.notifications) + SettleNotes(user, receiver, t, old(b.issued))
            && b.issued == old(b.issued) + (if receiver.Some? then 2 else 1)
  {
    var t := b.transfers[i];
    var s := PinReset(sender);
    b.accounts := b.accounts[senderNo := s];
    var status := if t.transferType == External then Pending else Completed;
    SaveTransfer(b, i, t.(status := status));
    s := Debited(s, t.amount);
    b.accounts := b.accounts[senderNo := s];
    if receiver.Some? {
      b.accounts := b.accounts[accountNumber := Credited(receiver.value, t.amount)];
      Notify(b, Some(receiver.value.owner), "Credit Alert", t.amount, Some(t.id));
    }
    Notify(b, Some(user), "Debit Alert", t.amount, Some(t.id));
  }

  /** The wrong-PIN branch of TransfarProcess: the counter rises and the fifth failure locks the account. */
  method RecordWrongPin(b: Bank, senderNo: AccountNo, sender: AccountRow, now: int) returns (outcome: AuthoriseOutcome)
    requires b.Valid() && senderNo in b.accounts
    modifies b`accounts
    ensures b.Valid()
    ensures b.accounts == old(b.accounts)[senderNo := AfterWrongPin(sender, now)]
    ensures var n := sender.failedPinAttempts + 1;
            outcome == (if n >= MaxPinAttempts then WrongPin(true, 0) else WrongPin(false, MaxPinAttempts - n))
  {
    var s := sender.(failedPinAttempts := sender.failedPinAttempts + 1);
    if s.failedPinAttempts >= MaxPinAttempts {
      s := s.(pinLockoutUntil := Some(now + LockoutSeconds));
      outcome := WrongPin(true, 0);
    } else {
      outcome := WrongPin(false, MaxPinAttempts - s.failedPinAttempts);
    }
    b.accounts := b.accounts[senderNo := s];
  }

  datatype AuthoriseOutcome =
    | TransferMissing
    | NoSenderAccount
    | LockedOut
    | NotPosted
    | WrongPin(lockedNow: bool, remaining: int)
    | Settled

  /**
   * TransfarProcess once the transfer and the sender's row are loaded: the
   * lockout check, then on a POST the PIN decides between settling and
   * counting a failure.
   */
  method CheckPinAndSettle(b: Bank, user: UserId, senderNo: AccountNo, accountNumber: AccountNo,
                           receiver: Option<AccountRow>, i: nat, now: int, isPost: bool, pin: Option<string>)
    returns (outcome: AuthoriseOutcome)
    requires b.Valid() && senderNo in b.accounts && i < |b.transfers|
    modifies b`accounts, b`transfers, b`notifications, b`issued
    ensures b.Valid()
    ensures var s := old(b.accounts)[senderNo];
            var t := old(b.transfers)[i];
            var gate := PinGate(s, now, pin);
            && (outcome == LockedOut <==> LockedAt(s, now))
            && (outcome == LockedOut ==> b.accounts == old(b.accounts))
            && (!LockedAt(s, now) && !isPost ==>
                  outcome == NotPosted && b.accounts == old(b.accounts)[senderNo := AfterLockoutCheck(s, now)])
            && (!LockedAt(s, now) && isPost && gate.0.Rejected? ==>
                  outcome == WrongPin(gate.0.lockedNow, gate.0.remaining)
                  && b.accounts == old(b.accounts)[senderNo := gate.1])
            && (!LockedAt(s, now) && isPost && gate.0 == Accepted ==>
                  outcome == Settled
                  && b.accounts == (var a := old(b.accounts)[senderNo := Debited(PinReset(s), t.amount)];
                                    if receiver.Some? then a[accountNumber := Credited(receiver.value, t.amount)] else a)
                  && b.transfers == old(b.transfers)[i := t.(status := SettledStatus(t))]
                  && b.notifications == old(b.notifications) + SettleNotes(user, receiver, t, old(b.issued))
                  && b.issued == old(b.issued) + (if receiver.Some? then 2 else 1))
    ensures outcome != Settled ==>
              b.transfers == old(b.transfers) && b.notifications == old(b.notifications) && b.issued == old(b.issued)
  {
    var sender := b.accounts[senderNo];
    if sender.pinLockoutUntil.Some? {
      if now < sender.pinLockoutUntil.value {
        return LockedOut;
      }
      sender := PinReset(sender);
      b.accounts := b.accounts[senderNo := sender];
    }
    if !isPost {
      return NotPosted;
    }
    if pin == Some(sender.pin) {
      Settle(b, user, senderNo, sender, accountNumber, receiver, i);
      return Settled;
    } else {
      outcome := RecordWrongPin(b, senderNo, sender, now);
    }
  }

  /**
   * TransfarProcess. The transfer is looked up by id alone and its current
   * status is not checked; the account debited is the current user's and the
   * account credited is the one the URL's account number names.
   */
  method AuthoriseTransfer(b: Bank, user: UserId, accountNumber: AccountNo, txId: TxId, now: int,
                           isPost: bool, pin: Option<string>)
    returns (outcome: AuthoriseOutcome)
    requires b.Valid()
    modifies b`accounts, b`transfers, b`notifications, b`issued
    ensures b.Valid()
    ensures FindTransfer(old(b.transfers), txId).None? <==> outcome == TransferMissing
    ensures FindTransfer(old(b.transfers), txId).Some? && user !in b.accountOf <==> outcome == NoSenderAccount
    ensures outcome in {TransferMissing, NoSenderAccount, LockedOut} ==>
              b.accounts == old(b.accounts) && b.transfers == old(b.transfers)
              && b.notifications == old(b.notifications) && b.issued == old(b.issued)
    ensures FindTransfer(old(b.transfers), txId).Some? && user in b.accountOf ==>
              var senderNo := b.accountOf[user];
              var s := old(b.accounts)[senderNo];
              var i := FindTransfer(old(b.transfers), txId).value;
              var t := old(b.transfers)[i];
              var gate := PinGate(s, now, pin);
              && (outcome == LockedOut <==> LockedAt(s, now))
              && (!LockedAt(s, now) && !isPost ==>
                    outcome == NotPosted
                    && b.accounts == old(b.accounts)[senderNo := AfterLockoutCheck(s, now)]
                    && b.transfers == old(b.transfers)
                    && b.notifications == old(b.notifications) && b.issued == old(b.issued))
              && (!LockedAt(s, now) && isPost && gate.0.Rejected? ==>
                    outcome == WrongPin(gate.0.lockedNow, gate.0.remaining)
                    && b.accounts == old(b.accounts)[senderNo := gate.1]
                    && b.transfers == old(b.transfers)
                    && b.notifications == old(b.notifications) && b.issued == old(b.issued))
              && (!LockedAt(s, now) && isPost && gate.0 == Accepted ==>
                    outcome == Settled
                    && b.accounts == SettledAccounts(old(b.accounts), senderNo, accountNumber, t.amount)
                    && b.transfers == old(b.transfers)[i := t.(status := SettledStatus(t))]
                    && b.notifications == old(b.notifications)
                       + SettleNotes(user, if accountNumber in old(b.accounts) then Some(old(b.accounts)[accountNumber]) else None,
                                     t, old(b.issued))
                    && b.issued == old(b.issued) + (if accountNumber in old(b.accounts) then 2 else 1))
  {
    var receiver: Option<AccountRow> := if accountNumber in b.accounts then Some(b.accounts[accountNumber]) else None;
    var found := FindTransfer(b.transfers, txId);
    if found.None? {
      return TransferMissing;
    }
    var i := found.value;
    var t := b.transfers[i];
    if user !in b.accountOf {
      return NoSenderAccount;
    }
    outcome := CheckPinAndSettle(b, user, b.accountOf[user], accountNumber, receiver, i, now, isPost, pin);
  }
}

=== FILE: validators.dfy ===
/**
 * core/validators.py: amount bounds, the card-number check, CVV and PIN
 * formats, and input sanitising.
 */
module Validators {
  import opened Wrappers
  import opened Text

  // ---------------------------------------------------------------- amounts

  /**
   * A Python `Decimal` as `as_tuple()` describes it: the value is
   * `coefficient * 10^exponent`, and the exponent is the one written
   * (`Decimal('1.000')` has exponent -3).
   */
  datatype Decimal = Decimal(coefficient: int, exponent: int)

  function Pow10(n: nat): (r: nat)
    ensures r >= 1
  {
    if n == 0 then 1 else 10 * Pow10(n - 1)
  }

  /** The value in cents of a decimal with at most two places. */
  function ExactCents(d: Decimal): int
    requires d.exponent >= -2
  {
    d.coefficient * Pow10(d.exponent + 2)
  }

  function Sign(x: int): int {
    if x < 0 then -1 else if x == 0 then 0 else 1
  }

  /** Comparison of `d` with `cents / 100`: -1, 0 or 1, exactly, for any exponent. */
  function CompareToCents(d: Decimal, cents: int): int {
    if d.exponent >= -2 then Sign(ExactCents(d) - cents)
    else Sign(d.coefficient - cents * Pow10(-2 - d.exponent))
  }

  const MinAmountCents := 100
  const MaxAmountCents := 10000000

  datatype AmountError = NotPositive | BelowMinimum | AboveMaximum | TooManyPlaces

  lemma MulSign(c: int, p: int)
    requires p >= 1
    ensures c * p <= 0 <==> c <= 0
  {
    if c > 0 {
      MulAtLeast(c, p);
    } else {
      assert -c >= 0;
      MulNonNegative(-c, p);
    }
  }

  lemma MulAtLeast(c: int, p: int)
    requires c >= 1 && p >= 1
    ensures c * p >= p
  {
    MulNonNegative(c - 1, p);
  }

  lemma MulNonNegative(c: int, p: int)
    requires c >= 0 && p >= 0
    ensures c * p >= 0
  {
  }

  lemma CentsSign(d: Decimal)
    ensures d.exponent >= -2 ==> (ExactCents(d) <= 0 <==> d.coefficient <= 0)
  {
    if d.exponent >= -2 {
      MulSign(d.coefficient, Pow10(d.exponent + 2));
    }
  }

  /**
   * validate_amount: the checks in order, so a value of zero or less is
   * reported as not positive before the minimum is looked at.
   */
  function ValidateAmount(d: Decimal): (r: Result<Decimal, AmountError>)
    ensures r.Ok? <==> d.exponent >= -2 && MinAmountCents <= ExactCents(d) <= MaxAmountCents
    ensures r.Ok? ==> r.value == d
    ensures r == Err(NotPositive) <==> d.coefficient <= 0
    ensures r == Err(TooManyPlaces) ==> d.exponent < -2
  {
    CentsSign(d);
    if CompareToCents(d, 0) <= 0 then Err(NotPositive)
    else if CompareToCents(d, MinAmountCents) < 0 then Err(BelowMinimum)
    else if CompareToCents(d, MaxAmountCents) > 0 then Err(AboveMaximum)
    else if d.exponent < -2 then Err(TooManyPlaces)
    else Ok(d)
  }

  // ---------------------------------------------------------- card numbers

  predicate IsDigitSeq(ds: seq<nat>) {
    forall i :: 0 <= i < |ds| ==> ds[i] < 10
  }

  /** `digits_of(n)`: the value of each character. */
  function DigitValues(s: string): (ds: seq<nat>)
    requires AllDigits(s)
    ensures |ds| == |s| && IsDigitSeq(ds)
    ensures forall i :: 0 <= i < |s| ==> ds[i] == DigitValue(s[i])
  {
    seq(|s|, i requires 0 <= i < |s| => DigitValue(s[i]))
  }

  /** `sum(digits_of(n))`. */
  function DigitSum(n: nat): nat
    decreases n
  {
    if n < 10 then n else n % 10 + DigitSum(n / 10)
  }

  /** The contribution of a doubled digit: 0,2,4,6,8,1,3,5,7,9 for 0..9. */
  function Doubled(d: nat): (r: nat)
    requires d < 10
    ensures r < 10 && r == (if d < 5 then 2 * d else 2 * d - 9)
  {
    var n := 2 * d;
    if n < 10 then DigitSum(n)
    else
      assert n / 10 == 1 && n % 10 == n - 10;
      assert DigitSum(n / 10) == 1;
      DigitSum(n)
  }

  /** `sum(digits[-1::-2])`: the last digit, the third from last, and so on. */
  function OddSum(ds: seq<nat>): nat
    decreases |ds|
  {
    if |ds| == 0 then 0
    else if |ds| == 1 then ds[0]
    else ds[|ds| - 1] + OddSum(ds[..|ds| - 2])
  }

  /** The doubled digits `digits[-2::-2]`, each replaced by the sum of its digits. */
  function EvenSum(ds: seq<nat>): nat
    requires IsDigitSeq(ds)
    decreases |ds|
  {
    if |ds| < 2 then 0
    else Doubled(ds[|ds| - 2]) + EvenSum(ds[..|ds| - 2])
  }

  /** The Luhn sum of ISO/IEC 7812-1 Annex B; a number passes when it is 0 modulo 10. */
  function LuhnSum(ds: seq<nat>): nat
    requires IsDigitSeq(ds)
  {
    OddSum(ds) + EvenSum(ds)
  }

  /**
   * `luhn_checksum`: the sum of the odd digits, then a loop adding each
   * doubled even digit, reduced modulo 10.
   */
  method LuhnChecksum(number: string) returns (checksum: nat)
    requires AllDigits(number)
    ensures checksum == LuhnSum(DigitValues(number)) % 10
  {
    var digits := DigitValues(number);
    var total := 0;
    var j: int := |digits|;
    assert digits[..|digits|] == digits;
    while j >= 1
      invariant -1 <= j <= |digits|
      invariant total + OddSum(digits[..if j < 0 then 0 else j]) == OddSum(digits)
      decreases j
    {
      if j >= 2 {
        assert digits[..j][..j - 2] == digits[..j - 2];
      }
      total := total + digits[j - 1];
      j := j - 2;
    }
    var k: nat := |digits|;
    while k >= 2
      invariant k <= |digits|
      invariant total + EvenSum(digits[..k]) == LuhnSum(digits)
      decreases k
    {
      assert digits[..k][..k - 2] == digits[..k - 2];
      total := total + Doubled(digits[k - 2]);
      k := k - 2;
    }
    checksum := total % 10;
  }

  /** What a digit at a position contributes: itself, or doubled every other place from the right. */
  function Term(ds: seq<nat>, i: nat, x: nat): (t: nat)
    requires i < |ds| && x < 10
    ensures t < 10
  {
    if (|ds| - 1 - i) % 2 == 0 then x else Doubled(x)
  }

  /** Replacing one digit changes the Luhn sum by exactly the change of that digit's term. */
  lemma {:induction false} LuhnSumReplace(ds: seq<nat>, i: nat, x: nat)
    requires IsDigitSeq(ds) && i < |ds| && x < 10
    ensures IsDigitSeq(ds[i := x])
    ensures LuhnSum(ds[i := x]) + Term(ds, i, ds[i]) == LuhnSum(ds) + Term(ds, i, x)
    decreases |ds|
  {
    var es := ds[i := x];
    var n := |ds|;
    assert IsDigitSeq(es);
    if n >= 2 && i < n - 2 {
      var p := ds[..n - 2];
      assert es[..n - 2] == p[i := x];
      assert es[n - 1] == ds[n - 1] && es[n - 2] == ds[n - 2];
      LuhnSumReplace(p, i, x);
      assert (|p| - 1 - i) % 2 == (n - 1 - i) % 2 by {
        assert n - 1 - i == (|p| - 1 - i) + 2;
      }
      assert Term(p, i, x) == Term(ds, i, x);
      assert Term(p, i, ds[i]) == Term(ds, i, ds[i]);
      assert OddSum(es) == es[n - 1] + OddSum(es[..n - 2]);
      assert EvenSum(es) == Doubled(es[n - 2]) + EvenSum(es[..n - 2]);
    } else if n >= 2 {
      assert es[..n - 2] == ds[..n - 2];
      assert OddSum(es) == es[n - 1] + OddSum(ds[..n - 2]);
      assert EvenSum(es) == Doubled(es[n - 2]) + EvenSum(ds[..n - 2]);
    }
  }

  lemma DoubledInjective(a: nat, b: nat)
    requires a < 10 && b < 10 && a != b
    ensures Doubled(a) != Doubled(b)
  {
  }

  /** A multiple of ten moved by less than ten, but not by nothing, is no longer one. */
  lemma ShiftedOffTen(total: int, delta: int)
    requires total % 10 == 0 && -10 < delta < 10 && delta != 0
    ensures (total + delta) % 10 != 0
  {
    var k := total / 10;
    assert total == 10 * k;
    if delta > 0 {
      assert (10 * k + delta) / 10 == k;
    } else {
      assert (10 * k + delta) / 10 == k - 1;
    }
  }

  /** The Luhn check catches every single mistyped digit. */
  lemma SingleDigitErrorDetected(ds: seq<nat>, i: nat, x: nat)
    requires IsDigitSeq(ds) && LuhnSum(ds) % 10 == 0
    requires i < |ds| && x < 10 && x != ds[i]
    ensures IsDigitSeq(ds[i := x]) && LuhnSum(ds[i := x]) % 10 != 0
  {
    LuhnSumReplace(ds, i, x);
    var before := LuhnSum(ds);
    var after := LuhnSum(ds[i := x]);
    var old_t := Term(ds, i, ds[i]);
    var new_t := Term(ds, i, x);
    if (|ds| - 1 - i) % 2 != 0 {
      DoubledInjective(x, ds[i]);
    }
    assert old_t != new_t;
    assert after == before + (new_t as int - old_t as int);
    ShiftedOffTen(before, new_t as int - old_t as int);
  }

  /** The digit that, appended, makes a payload pass the Luhn check. */
  function CheckDigit(payload: seq<nat>): (c: nat)
    requires IsDigitSeq(payload)
    ensures c < 10 && LuhnSum(payload + [c]) % 10 == 0
  {
    var w := LuhnSum(payload + [0]);
    var c := (10 - w % 10) % 10;
    LuhnSumReplace(payload + [0], |payload|, c);
    assert (payload + [0])[|payload| := c] == payload + [c];
    c
  }

  /** `str(card_number).replace(' ', '').replace('-', '')`. */
  function CleanCardNumber(s: string): (r: string)
    ensures ' ' !in r && '-' !in r
    ensures forall c :: c != ' ' && c != '-' ==> (c in r <==> c in s)
  {
    RemoveAll(RemoveAll(s, ' '), '-')
  }

  datatype CardNumberError = CardNotDigits | CardBadLength | CardLuhnFailed

  /** validate_card_number. */
  method ValidateCardNumber(s: string) returns (r: Result<string, CardNumberError>)
    ensures r.Ok? <==> var n := CleanCardNumber(s);
                       IsDigitString(n) && 13 <= |n| <= 19 && LuhnSum(DigitValues(n)) % 10 == 0
    ensures r.Ok? ==> r.value == CleanCardNumber(s)
    ensures r == Err(CardNotDigits) <==> !IsDigitString(CleanCardNumber(s))
    ensures r == Err(CardBadLength) <==> IsDigitString(CleanCardNumber(s)) && !(13 <= |CleanCardNumber(s)| <= 19)
  {
    var n := CleanCardNumber(s);
    if !IsDigitString(n) {
      return Err(CardNotDigits);
    }
    if |n| < 13 || |n| > 19 {
      return Err(CardBadLength);
    }
    var checksum := LuhnChecksum(n);
    if checksum != 0 {
      return Err(CardLuhnFailed);
    }
    return Ok(n);
  }

  // ------------------------------------------------------------- CVV and PIN

  datatype FormatError = NotDigits | WrongLength

  /** validate_cvv: all digits, four of them for `amex`, three for any other card type. */
  function ValidateCvv(cvv: string, cardType: string): (r: Result<string, FormatError>)
    ensures r.Ok? <==> IsDigitString(cvv) && |cvv| == (if cardType == "amex" then 4 else 3)
    ensures r.Ok? ==> r.value == cvv
    ensures r == Err(NotDigits) <==> !IsDigitString(cvv)
  {
    if !IsDigitString(cvv) then Err(NotDigits)
    else if cardType == "amex" then (if |cvv| != 4 then Err(WrongLength) else Ok(cvv))
    else if |cvv| != 3 then Err(WrongLength)
    else Ok(cvv)
  }

  /** validate_pin: exactly four digits. */
  function ValidatePin(pin: string): (r: Result<string, FormatError>)
    ensures r.Ok? <==> |pin| == 4 && forall i :: 0 <= i < 4 ==> IsDigit(pin[i])
    ensures r.Ok? ==> r.value == pin
    ensures r == Err(NotDigits) <==> !IsDigitString(pin)
  {
    if !IsDigitString(pin) then Err(NotDigits)
    else if |pin| != 4 then Err(WrongLength)
    else Ok(pin)
  }

  // ------------------------------------------------------------- sanitising

  const DangerousChars: seq<char> := ['<', '>', '"', '\'', '\\', ';', '&', '|']

  /** The characters of `cs` removed from `s` one after another. */
  function RemoveChars(s: string, cs: seq<char>): (r: string)
    ensures forall c :: c in cs ==> c !in r
    ensures forall x :: x !in cs ==> (x in r <==> x in s)
    ensures |r| <= |s|
    decreases |cs|
  {
    if cs == [] then s else RemoveChars(RemoveAll(s, cs[0]), cs[1..])
  }

  /** Python's `s[:n]`, where a negative `n` counts from the end. */
  function PrefixSlice(s: string, n: int): (r: string)
    ensures |r| <= |s| && r == s[..|r|]
    ensures n >= 0 ==> |r| == (if n < |s| then n else |s|)
    ensures n < 0 ==> |r| == (if |s| + n > 0 then |s| + n else 0)
  {
    if n >= 0 then (if n < |s| then s[..n] else s)
    else if |s| + n > 0 then s[..|s| + n] else []
  }

  /** The limit applies when it is given and not zero. */
  function Truncate(s: string, maxLength: Option<int>): (r: string)
    ensures maxLength.None? || maxLength.value == 0 ==> r == s
    ensures |r| <= |s| && r == s[..|r|]
    ensures maxLength.Some? && maxLength.value > 0 ==> |r| <= maxLength.value
  {
    if maxLength.Some? && maxLength.value != 0 then PrefixSlice(s, maxLength.value) else s
  }

  /**
   * sanitize_input: empty input comes back as it is; otherwise strip, drop
   * the dangerous characters one after another, then cut to the limit.
   */
  function Sanitized(value: string, maxLength: Option<int>): (r: string)
    ensures value == [] ==> r == []
    ensures forall c :: c in r ==> c !in DangerousChars && c in value
    ensures maxLength.Some? && maxLength.value > 0 ==> |r| <= maxLength.value
    ensures value != [] && (maxLength.None? || maxLength.value == 0) ==>
              forall c :: c !in DangerousChars ==> (c in r <==> c in Strip(value))
  {
    if value == [] then value
    else
      var t := Strip(value);
      var v := RemoveChars(t, DangerousChars);
      var r := Truncate(v, maxLength);
      assert forall c :: c in r ==> c in v;
      assert forall c :: c in t ==> c in value;
      r
  }

  /** The loop of sanitize_input, rebinding the value once per dangerous character. */
  method SanitizeInput(value: string, maxLength: Option<int>) returns (r: string)
    ensures r == Sanitized(value, maxLength)
  {
    if value == [] {
      return value;
    }
    var v := Strip(value);
    var stripped := v;
    var i := 0;
    while i < |DangerousChars|
      invariant 0 <= i <= |DangerousChars|
      invariant RemoveChars(v, DangerousChars[i..]) == RemoveChars(stripped, DangerousChars)
    {
      assert DangerousChars[i..][1..] == DangerousChars[i + 1..];
      v := RemoveAll(v, DangerousChars[i]);
      i := i + 1;
    }
    assert DangerousChars[i..] == [];
    r := Truncate(v, maxLength);
  }
}

=== FILE: withdrawal.dfy ===
/**
 * core/withdrawal.py: requesting a withdrawal and processing it with the PIN.
 */
module Withdrawals {
  import opened Wrappers
  import opened Models
  import opened Store
  import opened Freeze

  /** `get_object_or_404(Withdrawal, transaction_id=..., user=...)`. */
  function FindOwnedWithdrawal(ws: seq<WithdrawalRow>, id: TxId, user: UserId): (r: Option<nat>)
    ensures r.Some? ==> r.value < |ws| && ws[r.value].id == id && ws[r.value].user == user
    ensures r.None? <==> forall j :: 0 <= j < |ws| ==> !(ws[j].id == id && ws[j].user == user)
  {
    IndexWhere(ws, (w: WithdrawalRow) => w.id == id && w.user == user)
  }

  predicate WithdrawalIdFree(ws: seq<WithdrawalRow>, id: TxId) {
    forall j :: 0 <= j < |ws| ==> ws[j].id != id
  }

  datatype InitiateOutcome =
    | NoAccount
    | KycRequired
    | NotActive
    | AccountFrozen
    | FormShown
    | MissingFields
    | NotPositive
    | InsufficientFunds
    | Requested(id: TxId)

  /**
   * initiate_withdrawal. `amount` is None when the field is absent or empty.
   * The gates run in the source's order; past them one `pending` withdrawal
   * and one "Debit Alert" are created, and no balance changes.
   */
  method InitiateWithdrawal(b: Bank, user: UserId, isPost: bool, amount: Option<int>,
                            bankName: string, accountNumber: string, accountName: string,
                            suffix: string, now: int)
    returns (outcome: InitiateOutcome)
    requires b.Valid()
    requires WithdrawalIdFree(b.withdrawals, MakeTransactionId(WithdrawalKind, suffix))
    modifies b`withdrawals, b`notifications, b`issued
    ensures b.Valid()
    ensures outcome == NoAccount <==> user !in b.accountOf
    ensures user in b.accountOf ==>
              var no := b.accountOf[user];
              var a := b.accounts[no];
              var frozen := IsAccountFrozen(b.freezes, Some(no)).0;
              var filled := amount.Some? && bankName != "" && accountNumber != "" && accountName != "";
              && (outcome == KycRequired <==> !a.kycConfirmed)
              && (outcome == NotActive <==> a.kycConfirmed && a.status != "active")
              && (outcome == AccountFrozen <==> a.kycConfirmed && a.status == "active" && frozen)
              && (outcome.Requested? <==>
                    a.kycConfirmed && a.status == "active" && !frozen && isPost && filled
                    && 0 < amount.value <= a.balance)
              && (outcome == FormShown <==> a.kycConfirmed && a.status == "active" && !frozen && !isPost)
              && (a.kycConfirmed && a.status == "active" && !frozen && isPost ==>
                    (outcome == MissingFields <==> !filled)
                    && (outcome == NotPositive <==> filled && amount.value <= 0)
                    && (outcome == InsufficientFunds <==> filled && 0 < amount.value && amount.value > a.balance))
    ensures outcome.Requested? ==>
              && outcome.id == MakeTransactionId(WithdrawalKind, suffix)
              && b.withdrawals == old(b.withdrawals)
                   + [WithdrawalRow(outcome.id, user, b.accountOf[user], amount.value, Pending, now)]
              && b.notifications == old(b.notifications) + [Note(Some(user), "Debit Alert", amount.value, None, old(b.issued))]
              && b.issued == old(b.issued) + 1
    ensures !outcome.Requested? ==>
              b.withdrawals == old(b.withdrawals) && b.notifications == old(b.notifications) && b.issued == old(b.issued)
  {
    if user !in b.accountOf {
      return NoAccount;
    }
    var no := b.accountOf[user];
    var account := b.accounts[no];
    if !account.kycConfirmed {
      return KycRequired;
    }
    if account.status != "active" {
      return NotActive;
    }
    var (frozen, _) := IsAccountFrozen(b.freezes, Some(no));
    if frozen {
      return AccountFrozen;
    }
    if !isPost {
      return FormShown;
    }
    outcome := RequestWithdrawal(b, user, no, account.balance, amount, bankName, accountNumber, accountName, suffix, now);
  }

  /**
   * The POST branch of initiate_withdrawal once the account has passed the
   * gates: every field filled, a positive amount no larger than `balance`;
   * then the `pending` withdrawal and its "Debit Alert" are created.
   */
  method RequestWithdrawal(b: Bank, user: UserId, no: AccountNo, balance: int, amount: Option<int>,
                           bankName: string, accountNumber: string, accountName: string,
                           suffix: string, now: int)
    returns (outcome: InitiateOutcome)
    modifies b`withdrawals, b`notifications, b`issued
    ensures var filled := amount.Some? && bankName != "" && accountNumber != "" && accountName != "";
            && (outcome == MissingFields <==> !filled)
            && (outcome == NotPositive <==> filled && amount.value <= 0)
            && (outcome == InsufficientFunds <==> filled && 0 < amount.value && amount.value > balance)
            && (outcome.Requested? <==> filled && 0 < amount.value <= balance)
    ensures outcome.Requested? ==>
              && outcome.id == MakeTransactionId(WithdrawalKind, suffix)
              && b.withdrawals == old(b.withdrawals) + [WithdrawalRow(outcome.id, user, no, amount.value, Pending, now)]
              && b.notifications == old(b.notifications) + [Note(Some(user), "Debit Alert", amount.value, None, old(b.issued))]
              && b.issued == old(b.issued) + 1
    ensures !outcome.Requested? ==>
              b.withdrawals == old(b.withdrawals) && b.notifications == old(b.notifications) && b.issued == old(b.issued)
  {
    if amount.None? || bankName == "" || accountNumber == "" || accountName == "" {
      return MissingFields;
    }
    if amount.value <= 0 {
      return NotPositive;
    }
    if amount.value > balance {
      return InsufficientFunds;
    }
    var id := MakeTransactionId(WithdrawalKind, suffix);
    b.withdrawals := b.withdrawals + [WithdrawalRow(id, user, no, amount.value, Pending, now)];
    Notify(b, Some(user), "Debit Alert", amount.value, None);
    return Requested(id);
  }

  datatype ConfirmStep = ConfirmNotFound | ConfirmProcessed | ConfirmShown | GoProcess

  /** confirm_withdrawal: only the user's own `pending` withdrawal goes on to processing, and nothing is written. */
  function ConfirmWithdrawal(ws: seq<WithdrawalRow>, id: TxId, user: UserId, isPost: bool): (r: ConfirmStep)
    ensures r == ConfirmNotFound <==> FindOwnedWithdrawal(ws, id, user).None?
    ensures r == ConfirmProcessed <==>
              FindOwnedWithdrawal(ws, id, user).Some? && ws[FindOwnedWithdrawal(ws, id, user).value].status != Pending
    ensures r == GoProcess <==>
              FindOwnedWithdrawal(ws, id, user).Some? && ws[FindOwnedWithdrawal(ws, id, user).value].status == Pending && isPost
  {
    var found := FindOwnedWithdrawal(ws, id, user);
    if found.None? then ConfirmNotFound
    else if ws[found.value].status != Pending then ConfirmProcessed
    else if isPost then GoProcess
    else ConfirmShown
  }

  datatype ProcessOutcome =
    | NotFound
    | AlreadyProcessed
    | ConfirmPage
    | MissingAccount
    | PinMissing
    | IncorrectPin
    | Declined
    | Paid

  /**
   * The POST branch of process_withdrawal once the account is loaded: the
   * PIN must be given and match; a withdrawal larger than the balance is
   * declined, otherwise the account is debited, the withdrawal completed and
   * a debit alert created.
   */
  method PayOut(b: Bank, user: UserId, no: AccountNo, i: nat, pin: Option<string>)
    returns (outcome: ProcessOutcome)
    requires b.Valid() && no in b.accounts && i < |b.withdrawals|
    modifies b`accounts, b`withdrawals, b`notifications, b`issued
    ensures b.Valid()
    ensures var a := old(b.accounts)[no];
            var w := old(b.withdrawals)[i];
            && (outcome == PinMissing <==> pin.None? || pin == Some(""))
            && (outcome == IncorrectPin <==> pin.Some? && pin != Some("") && pin != Some(a.pin))
            && (pin == Some(a.pin) && a.pin != "" ==>
                  && (outcome == Declined <==> w.amount > a.balance)
                  && (outcome == Paid <==> w.amount <= a.balance))
            && (outcome == Declined ==>
                  b.withdrawals == old(b.withdrawals)[i := w.(status := Failed)] && b.accounts == old(b.accounts))
            && (outcome == Paid ==>
                  && b.withdrawals == old(b.withdrawals)[i := w.(status := Completed)]
                  && b.accounts == old(b.accounts)[no := Debited(a, w.amount)]
                  && b.accounts[no].balance >= 0
                  && b.notifications == old(b.notifications) + [Note(Some(user), "Debit Alert", w.amount, None, old(b.issued))]
                  && b.issued == old(b.issued) + 1)
    ensures outcome != Declined && outcome != Paid ==> b.withdrawals == old(b.withdrawals) && b.accounts == old(b.accounts)
    ensures outcome != Paid ==> b.notifications == old(b.notifications) && b.issued == old(b.issued)
  {
    var account := b.accounts[no];
    var w := b.withdrawals[i];
    if pin.None? || pin.value == "" {
      return PinMissing;
    }
    if pin.value != account.pin {
      return IncorrectPin;
    }
    if w.amount > account.balance {
      w := w.(status := Failed);
      b.withdrawals := b.withdrawals[i := w];
      return Declined;
    }
    w := w.(status := Processing);
    b.withdrawals := b.withdrawals[i := w];
    account := Debited(account, w.amount);
    b.accounts := b.accounts[no := account];
    w := w.(status := Completed);
    b.withdrawals := b.withdrawals[i := w];
    Notify(b, Some(user), "Debit Alert", w.amount, None);
    return Paid;
  }

  /**
   * process_withdrawal. Only the user's own `pending` withdrawal is acted on.
   * With the right PIN it fails when the amount exceeds the balance, and
   * otherwise debits the user's account by the amount and completes.
   */
  method ProcessWithdrawal(b: Bank, user: UserId, id: TxId, isPost: bool, pin: Option<string>)
    returns (outcome: ProcessOutcome)
    requires b.Valid()
    modifies b`accounts, b`withdrawals, b`notifications, b`issued
    ensures b.Valid()
    ensures outcome == NotFound <==> FindOwnedWithdrawal(old(b.withdrawals), id, user).None?
    ensures FindOwnedWithdrawal(old(b.withdrawals), id, user).Some? ==>
              var i := FindOwnedWithdrawal(old(b.withdrawals), id, user).value;
              var w := old(b.withdrawals)[i];
              && (outcome == AlreadyProcessed <==> w.status != Pending)
              && (w.status == Pending ==>
                    && (outcome == ConfirmPage <==> !isPost)
                    && (isPost ==>
                          && (outcome == MissingAccount <==> user !in b.accountOf)
                          && (user in b.accountOf ==>
                                var no := b.accountOf[user];
                                var a := old(b.accounts)[no];
                                && (outcome == PinMissing <==> pin.None? || pin == Some(""))
                                && (outcome == IncorrectPin <==> pin.Some? && pin != Some("") && pin != Some(a.pin))
                                && (pin == Some(a.pin) && a.pin != "" ==>
                                      && (outcome == Declined <==> w.amount > a.balance)
                                      && (outcome == Declined ==>
                                            b.withdrawals == old(b.withdrawals)[i := w.(status := Failed)]
                                            && b.accounts == old(b.accounts))
                                      && (outcome == Paid ==>
                                            && b.withdrawals == old(b.withdrawals)[i := w.(status := Completed)]
                                            && b.accounts == old(b.accounts)[no := Debited(a, w.amount)]
                                            && b.accounts[no].balance >= 0
                                            && b.notifications == old(b.notifications)
                                                 + [Note(Some(user), "Debit Alert", w.amount, None, old(b.issued))]
                                            && b.issued == old(b.issued) + 1)))))
    ensures outcome != Declined && outcome != Paid ==> b.withdrawals == old(b.withdrawals) && b.accounts == old(b.accounts)
    ensures outcome != Paid ==> b.notifications == old(b.notifications) && b.issued == old(b.issued)
  {
    var found := FindOwnedWithdrawal(b.withdrawals, id, user);
    if found.None? {
      return NotFound;
    }
    var i := found.value;
    var w := b.withdrawals[i];
    if w.status != Pending {
      return AlreadyProcessed;
    }
    if !isPost {
      return ConfirmPage;
    }
    if user !in b.accountOf {
      return MissingAccount;
    }
    outcome := PayOut(b, user, b.accountOf[user], i, pin);
  }
}

=== FILE: wrappers.dfy ===
/** Optional values, results with an error, and the sequence helpers the lookups and listings share. */
module Wrappers {

  datatype Option<+T> = None | Some(value: T)

  datatype Result<+T, +E> = Ok(value: T) | Err(error: E)

  /** The outcome of Django's `Model.objects.get(...)`: one row, no row, or several. */
  datatype Lookup = Found(index: nat) | Missing | Multiple

  /** Index of the first element satisfying `p`, as `.filter(...).first()` in primary-key order. */
  function IndexWhere<T>(s: seq<T>, p: T -> bool): (r: Option<nat>)
    ensures r.Some? ==> r.value < |s| && p(s[r.value])
    ensures r.Some? ==> forall j :: 0 <= j < r.value ==> !p(s[j])
    ensures r.None? <==> forall j :: 0 <= j < |s| ==> !p(s[j])
    decreases |s|
  {
    if s == [] then None
    else if p(s[0]) then Some(0)
    else
      var k := IndexWhere(s[1..], p);
      if k.None? then None else Some(k.value + 1)
  }

  /** `.get(...)` over a table whose matching rows need not be unique. */
  function GetUnique<T>(s: seq<T>, p: T -> bool): (r: Lookup)
    ensures r.Found? ==> r.index < |s| && p(s[r.index])
    ensures r.Found? ==> forall j :: 0 <= j < |s| && j != r.index ==> !p(s[j])
    ensures r.Missing? <==> forall j :: 0 <= j < |s| ==> !p(s[j])
    ensures r.Multiple? ==> exists j, k :: 0 <= j < k < |s| && p(s[j]) && p(s[k])
  {
    var first := IndexWhere(s, p);
    if first.None? then Missing
    else
      var i := first.value;
      var rest := IndexWhere(s[i + 1..], p);
      if rest.None? then
        assert forall j :: i < j < |s| ==> s[j] == s[i + 1..][j - i - 1];
        Found(i)
      else
        assert p(s[i + 1 + rest.value]);
        Multiple
  }

  /** The elements in reverse order, as `order_by("-id")` lists rows stored by creation. */
  function Reverse<T>(s: seq<T>): (r: seq<T>)
    ensures |r| == |s| && forall i :: 0 <= i < |s| ==> r[i] == s[|s| - 1 - i]
  {
    if s == [] then [] else Reverse(s[1..]) + [s[0]]
  }
}
